=== FILE: README.md ===
# Travel-time forecaster: data preparation, modelled in Dafny

This project models the data-preparation half of a travel-time forecaster for Boston roads.
That half does three jobs:

- It turns raw BlueToad timestamps (`MM/DD/YYYY HH:MM:SS`) and NCDC weather readings
  (`YYYYMMDD`, `HHMM`) into one encoding, `YYYYDOY.fraction`. The integer part is the year
  times 1000 plus the day of the year, with 1 January as day 0. The fraction is the time of
  day rounded to the nearest 1/288, a five-minute bucket.
- It builds a diurnal baseline for each (pair, weekday). The baseline is the mean travel time
  of each five-minute bucket, then a circular moving average over the day.
- It turns each observation into a residual against its baseline.

It also models the small parsers and helpers around these jobs:

- the NCDC file loop and the road-volume file loop;
- the weather-code classifier;
- the nearest-station search;
- the BlueToad row filter;
- the real-time feed transposition;
- the order-preserving `unique`.

Modules, one per source file plus shared helpers:

- `Wrappers`: Option/Result and the generic convert-every-element loop.
- `Text`: Python's `in`, `split`, `strip`, `int()`, `float()` on strings, and `str()` of integers.
- `Numeric`: `int()` on floats, `sum`/`np.mean` with NaN as `None`, row filtering.
- `Calendar`: the cumulative month table and the hard-coded leap list. It also has the proleptic
  Gregorian calendar of Python's `datetime`, used as an independent reference.
- `Columns`: column dictionaries.
- `NcdcWeather`: `NCDC_WeatherProcessor.py`.
- `MassDotData`: `MassDotDataTypes.py`.
- `BlueToadAnalysis`: `BlueToadAnalysis.py`.
- `RealTimeMassDot`: `ParseRealTimeMassDot.py`.

How Python constructs are modelled:

- Floats are `real`. Python's `int()` truncates toward zero (`Numeric.Trunc`).
- Float `%` takes the divisor's sign (`NcdcWeather.PyMod100`).
- A negative list index counts from the end (`Calendar.PyIndex`, `BlueToadAnalysis.PyAt`).
- NaN is `None`.
- An exception is a `Failure` carrying `ValueError`, `KeyError`, `IndexError` or `TypeError`.
- Loops that append to lists are methods with loop invariants. Each is proved equal to a
  specification function, and the properties the code promises are lemmas about that function.

## Model

| member | source | states |
|---|---|---|
| Calendar.CumulativeDaysAreRunningSums | NCDC_WeatherProcessor.py:17 | the cumulative month table adds each month's length to the previous entry |
| Calendar.LeapsExactly | NCDC_WeatherProcessor.py:18 | the leap list holds exactly the multiples of 4 from 1900 to 2096 |
| Calendar.LeapsMatchGregorian | MassDotDataTypes.py:43 | the leap list agrees with the Gregorian rule for 1901..2096; it wrongly lists 1900 |
| Text.Split | NCDC_WeatherProcessor.py:43 | `split` gives at least one part; a text without the separator is one part; no part holds the separator |
| Text.Strip | NCDC_WeatherProcessor.py:43 | `strip` never lengthens and leaves no whitespace at either end |
| Text.ParseIntDigits | MassDotDataTypes.py:134 | `int()` of a string of decimal digits is its decimal value |
| Text.NatToStringValue | BlueToadAnalysis.py:82 | `str(n)` of a non-negative integer is a run of digits whose decimal value is `n` |
| Text.ParseIntOfString | BlueToadAnalysis.py:82 | `int(str(n)) == n` for every integer `n`, negative ones included |
| Text.StripNothing | NCDC_WeatherProcessor.py:43 | text that starts and ends with a non-space character is left as it is by `strip` |
| Text.StripPadded | MassDotDataTypes.py:134 | `(a + s + b).strip() == s.strip()` when `a` and `b` are whitespace |
| Text.ParseDecimalOfPoint | MassDotDataTypes.py:149 | `float("a.b")` is `a + b/10^len(b)` and `float("-a.b")` its negation, for digit strings `a`, `b` not both empty |
| Numeric.Trunc | NCDC_WeatherProcessor.py:114 | `int(x)` is the integer next to `x` toward zero |
| Numeric.OptMean | BlueToadAnalysis.py:46 | `np.mean` has a value exactly when the list is non-empty and NaN-free |
| Numeric.OptMeanBounds | BlueToadAnalysis.py:46 | a mean lies between any bounds of its terms |
| Numeric.OptMeanSwap | BlueToadAnalysis.py:66 | the mean of two glued slices does not depend on their order |
| Numeric.FilterConcat | MassDotDataTypes.py:111 | a row filter distributes over concatenation, so it keeps row order |
| Wrappers.ConvertEach | MassDotDataTypes.py:93-97 | converting a list element by element gives every value in order, or the first element's exception |
| Columns.ResetColumns | NCDC_WeatherProcessor.py:45-46 | each listed column becomes empty; other columns are kept |
| Columns.AppendZipDistinct | NCDC_WeatherProcessor.py:49-53 | with distinct names, each of the first n columns gains exactly its own value |
| Columns.AppendZipOthers | NCDC_WeatherProcessor.py:49-53 | a column none of the zipped names mentions keeps its list unchanged |
| Columns.AppendZipLength | MassDotDataTypes.py:53-63 | each column grows by the number of times the zip names it |
| NcdcWeather.NearestNthNumerator | NCDC_WeatherProcessor.py:114 | `frac` is in `(-N, N]`, and in `[0, N]` for a non-negative value |
| NcdcWeather.RoundToNearestNth | NCDC_WeatherProcessor.py:111-115 | the result stays within one unit of `int(val)`, on the side of its sign |
| NcdcWeather.RoundToNearestNthOnGrid | NCDC_WeatherProcessor.py:114-115 | the result is a whole number of `1/N` steps |
| NcdcWeather.RoundToNearestNthIsNearest | NCDC_WeatherProcessor.py:111-115 | for `val >= 0`, `(result - val)*N` lies in `(-1/2, 1/2]` |
| NcdcWeather.RoundToNearestNthHalfUp | NCDC_WeatherProcessor.py:114-115 | for `val >= 0`, `result*N = floor(val*N + 1/2)`: halves round up |
| NcdcWeather.RoundToNearestNthShift | NCDC_WeatherProcessor.py:114-115 | a whole number of days passes through; only the fraction is rounded |
| NcdcWeather.FiveMinuteSteps | MassDotDataTypes.py:96 | a day number plus a day fraction rounds to the day number plus `k/288` with `0 <= k <= 288` |
| NcdcWeather.RoundToNearestNthExample | NCDC_WeatherProcessor.py:113 | the docstring's example: 100.139 to the nearest 20th is 100.15 |
| NcdcWeather.WeatherDayOfYear | NCDC_WeatherProcessor.py:124-129 | for a day of the month from 1 to 31 the day of year lies in 0..365, and in 0..364 for a year off the leap list |
| NcdcWeather.WeatherDayOfYearIsGregorian | NCDC_WeatherProcessor.py:124-129 | the day of year is the Gregorian one for 1901..2096, and one too many from March 1900 |
| NcdcWeather.PyMod100 | NCDC_WeatherProcessor.py:130 | `x % 100` lies in `[0, 100)` |
| NcdcWeather.ClockFractionOfHoursMinutes | NCDC_WeatherProcessor.py:130 | an `HHMM` reading `100h + m` gives the fraction `h/24 + m/1440` |
| NcdcWeather.RoundFractionSteps | NCDC_WeatherProcessor.py:130 | a fraction in `[0,1)` rounds to `k/N`, `0 <= k <= N` |
| NcdcWeather.ConvertWeatherDateParts | NCDC_WeatherProcessor.py:117-131 | the result is the `YYYYDOY` number plus `k/N`; near midnight it becomes the next integer with fraction 0 |
| NcdcWeather.ConvertWeatherDate | NCDC_WeatherProcessor.py:117-131 | the encoded instant is a whole number of `1/N` steps |
| NcdcWeather.WeatherDateOfFields | NCDC_WeatherProcessor.py:23 | packing a `datetime` as `YYYYMMDD` and reading it back gives its year, month and day |
| NcdcWeather.ClockFractionOfDateTime | NCDC_WeatherProcessor.py:24 | the `HHMM` detour gives `h/24 + m/1440 + s/86400`, which lies in `[0,1)` |
| NcdcWeather.GetTimeFromDateTimeParts | NCDC_WeatherProcessor.py:20-29 | with `time=False` the result is the integer `YYYYDOY` (next day at midnight rounding); with `time=True` it is `(k mod 288)/288` |
| NcdcWeather.GetTimeFromDateTime | NCDC_WeatherProcessor.py:20-29 | with `time=True` a five-minute mark in `[0, 1)`; with `time=False` a whole number no smaller than `year*1000` |
| NcdcWeather.InstantFloor | NCDC_WeatherProcessor.py:20-27 | the instant encoded from a `datetime` is no earlier than `year*1000`, 1 January of its year |
| NcdcWeather.InstantSteps | NCDC_WeatherProcessor.py:20-27 | the encoded instant is the `YYYYDOY` integer plus `k/288`, with `k` the clock time rounded half up to five-minute steps and `0 <= k <= 288` |
| NcdcWeather.GetType | NCDC_WeatherProcessor.py:67-77 | the class is one of SN, RA, FG, ' '; SN exactly when SN or FZ occurs; RA exactly when RA or TS occurs and no snow code does; FG exactly when FG, HZ or BR occurs and no snow or rain code does; ' ' exactly when none of the seven codes occurs |
| NcdcWeather.GetTypeFixedPoints | NCDC_WeatherProcessor.py:67-77 | each code classifies as itself, and the empty report is clear |
| NcdcWeather.GetTypeMonotone | NCDC_WeatherProcessor.py:70-77 | more text never lowers the class: SN over RA over FG over clear |
| NcdcWeather.SquaredDistance | NCDC_WeatherProcessor.py:136 | a squared distance is never negative |
| NcdcWeather.FirstMinIndex | NCDC_WeatherProcessor.py:137 | `index(min(...))` is a minimum position with every earlier value strictly larger |
| NcdcWeather.ShortestDist | NCDC_WeatherProcessor.py:133-137 | the first station nearest to the point; an empty station list raises |
| NcdcWeather.ChooseClosestSite | NCDC_WeatherProcessor.py:167-180 | the default for an unknown roadway; otherwise the first nearest station if it is closer than 9999, else the default |
| NcdcWeather.ToCell | NCDC_WeatherProcessor.py:50-53 | a field becomes a number exactly when `float()` accepts it; otherwise it stays the raw text |
| NcdcWeather.ScanLine | NCDC_WeatherProcessor.py:41-53 | a header line restarts its columns; a data line after a header appends one cell per zipped column; other lines change nothing |
| NcdcWeather.ScanLines | NCDC_WeatherProcessor.py:41-53 | after any prefix of the lines every column being filled is in the dictionary, and before the first header the dictionary and the column list are empty |
| NcdcWeather.GetNcdcColumns | NCDC_WeatherProcessor.py:36-54 | the loop builds the dictionary that scanning the lines in order defines |
| NcdcWeather.StartColumns | NCDC_WeatherProcessor.py:45-46 | the header loop empties the listed columns |
| NcdcWeather.AppendRow | NCDC_WeatherProcessor.py:49-53 | the data loop appends the first `min(#fields, #columns)` cells to their columns |
| NcdcWeather.NothingBeforeHeader | NCDC_WeatherProcessor.py:39-47 | nothing is stored before a line containing SkyCondition |
| NcdcWeather.DataLineAddsOneCellPerColumn | NCDC_WeatherProcessor.py:47-53 | after a header, a data line adds to each zipped column exactly its field's cell |
| NcdcWeather.DataLineColumnLength | NCDC_WeatherProcessor.py:47-53 | a data line lengthens each column by the number of times the first `min(#fields, #columns)` header names name it |
| MassDotData.IntOf | MassDotDataTypes.py:134-137 | `int(s)` fails only with `ValueError` |
| MassDotData.IntOfAccepts | MassDotDataTypes.py:134-137 | `int(s)` succeeds exactly when the stripped text is an optional sign followed by at least one digit |
| MassDotData.IntOfString | MassDotDataTypes.py:134-137 | `int(str(n)) == n` for every integer |
| MassDotData.IntOfPadded | MassDotDataTypes.py:134-137 | whitespace around a field changes neither whether `int()` accepts it nor its value |
| MassDotData.FloatOf | MassDotDataTypes.py:149 | `float(s)` fails only with `ValueError` |
| MassDotData.FloatOfPoint | MassDotDataTypes.py:149 | `float("a.b") == a + b/10^len(b)` and `float("-a.b")` is its negation, for digit strings not both empty |
| MassDotData.FloatOfDigits | MassDotDataTypes.py:149 | `float()` of a run of digits is its decimal value |
| MassDotData.FloatOfPadded | MassDotDataTypes.py:149 | whitespace around a field changes neither whether `float()` accepts it nor its value |
| MassDotData.DayCount | MassDotDataTypes.py:133-136 | a result implies the day field reads as an integer; a failure is `ValueError`, or `IndexError` for a month number outside -10..13 |
| MassDotData.SlashDateToNumerical | MassDotDataTypes.py:125-140 | a date with neither '/' nor '-' comes back unchanged, and only such a date does |
| MassDotData.DateFromPartsValue | MassDotDataTypes.py:133-140 | the result is `year*1000` plus the day of year that `ConvertWeatherDate` computes; for 1901..2096 that is the Gregorian day of year |
| MassDotData.DayCountValue | MassDotDataTypes.py:133-136 | `DOY` is the day plus the table entry of the month before |
| MassDotData.SpellingsAgree | MassDotDataTypes.py:127-132 | `MM/DD/YYYY` and `YYYY-MM-DD` spellings of one date give the same result |
| MassDotData.NewYearIsDayZero | MassDotDataTypes.py:133-140 | 1 January is `year*1000` |
| MassDotData.NextDayAddsOne | MassDotDataTypes.py:133-140 | within a month, the next day adds exactly 1 |
| MassDotData.LeapListAddsOne | MassDotDataTypes.py:137-140 | in a listed leap year, dates from March on are one more than in a common year |
| MassDotData.OddJanuarySpelling | MassDotDataTypes.py:133-136 | a month that reads as 1 but is spelled otherwise takes the table's last entry: `year*1000 + 365 + day - 1` |
| MassDotData.JanuarySpellings | MassDotDataTypes.py:133 | both January spellings the code tests for read as month 1 |
| MassDotData.ColonTimeToDecimal | MassDotDataTypes.py:142-149 | a time with neither 2 nor 3 colon fields raises |
| MassDotData.ColonTimeValue | MassDotDataTypes.py:142-149 | `HH:MM:SS` is `h/24 + m/1440 + s/86400`, and `HH:MM` the same without seconds |
| MassDotData.HourMinuteIsZeroSeconds | MassDotDataTypes.py:145-146 | `HH:MM` equals `HH:MM:00` |
| MassDotData.ColonTimeRange | MassDotDataTypes.py:142-149 | with `h<=23`, `m<=59` and `s<60` the result lies in `[0,1)` |
| MassDotData.ColonTimeIsDayFraction | MassDotDataTypes.py:142-149 | the result is the day fraction of the `datetime` with the same clock fields |
| MassDotData.ZeroSpellings | MassDotDataTypes.py:146 | the default seconds field reads as 0, like `00` |
| MassDotData.ConvertInsertTime | MassDotDataTypes.py:94-96 | a converted insert time is a whole number of five-minute steps |
| MassDotData.AddClock | MassDotDataTypes.py:95-96 | the rounded sum of date number and clock fraction is a whole number of five-minute steps; a date kept as text raises `TypeError` |
| MassDotData.InsertTimeValue | MassDotDataTypes.py:94-96 | a `"date time"` is `RoundToNearestNth(date number + clock fraction, 288)` |
| MassDotData.InsertTimeWithoutDate | MassDotDataTypes.py:95 | a date returned verbatim cannot be added to a number: `TypeError` |
| MassDotData.ConvertInsertTimes | MassDotDataTypes.py:93-97 | one converted value per insert time, in order, or the first row's exception |
| MassDotData.RoadVolumeCell | MassDotDataTypes.py:54-63 | unknown column raises `KeyError`; blank is "no_data" for str columns and -999 otherwise; a Date column goes through the date parser; other fields are kept verbatim |
| MassDotData.BlankDateIsMinus999 | MassDotDataTypes.py:55-59 | a blank date field becomes -999, not a date |
| MassDotData.RowCellsMeaning | MassDotDataTypes.py:53-63 | a line converts exactly when each zipped field does; its cells are those fields' cells in order; otherwise the first failing field's exception |
| Wrappers.CollectFirstFailure | MassDotDataTypes.py:53-63 | when a run of conversions fails, the error is that of the first conversion that raised, all before it having succeeded |
| MassDotData.RowCellsFailurePersists | MassDotDataTypes.py:53-63 | once a field raises, the rest of the line does not matter |
| MassDotData.RoadVolumeRows | MassDotDataTypes.py:51-63 | reading data lines never adds or removes a column |
| MassDotData.RoadVolumeRowsFailurePersists | MassDotDataTypes.py:51-63 | once a line raises, later lines do not matter |
| MassDotData.ReadDataLines | MassDotDataTypes.py:51-63 | the loop over the data lines builds exactly the table `RoadVolumeRows` defines, or stops at the first line that raises, with its exception |
| MassDotData.RoadVolumeTable | MassDotDataTypes.py:46-63 | the columns are the header's fields; an empty file raises `IndexError` |
| MassDotData.ConvertRoadVolumeRow | MassDotDataTypes.py:53-63 | the field loop computes the line's cells or its first exception |
| MassDotData.GetRoadVolumeColumns | MassDotDataTypes.py:45-64 | the nested loops build the table the header and lines define |
| MassDotData.RoadVolumeLineAddsOneCellPerColumn | MassDotDataTypes.py:53-63 | with distinct columns, a data line adds to each zipped column exactly its own cell |
| MassDotData.CleanBlueToad | MassDotDataTypes.py:111 | the kept rows are exactly those whose travel time is not `\N` |
| MassDotData.CleanBlueToadKeepsOrder | MassDotDataTypes.py:111 | cleaning works row by row, so the kept rows keep their order |
| MassDotData.CleanBlueToadIdempotent | MassDotDataTypes.py:111 | cleaning twice is cleaning once |
| BlueToadAnalysis.GetDayOfWeek | BlueToadAnalysis.py:28-34 | defined for the day numbers that land between 1 January 1900 and 31 December 9999, where `strftime` and `datetime` accept the date; the weekday is in 0..6 |
| BlueToadAnalysis.ValidDayNumberBoundary | BlueToadAnalysis.py:29-33 | 1900000 (31 December 1899), 1899001 and 1001 are refused; 1900001, 1899999 (which lands in 1901) and 9999365 are accepted, 9999366 is not |
| BlueToadAnalysis.GetDayOfWeekIsMondayBased | BlueToadAnalysis.py:32-34 | `(%w + 6) % 7` is Python's `weekday()`: Monday 0, and Sunday (`%w` 0) is 6 |
| BlueToadAnalysis.GetDayOfWeekNextDay | BlueToadAnalysis.py:30-31 | consecutive day numbers of one year give consecutive weekdays |
| BlueToadAnalysis.DayZeroIsLastDayOfPreviousYear | BlueToadAnalysis.py:30-31 | for 1901..9999, day number `y*1000` is 31 December of `y-1` |
| BlueToadAnalysis.GetDayOfWeekOfEncodedDay | BlueToadAnalysis.py:30-31 | for the encoders' day numbers (1 January is 0) of 1900..9999, except day 0 of 1900, the weekday is that of the day before |
| BlueToadAnalysis.GetDayOfWeekExample | BlueToadAnalysis.py:28-34 | 2012001 (1 January 2012, a Sunday) gives 6; 2012000 gives 5 |
| BlueToadAnalysis.AddDayOfWeekColumn | BlueToadAnalysis.py:12-23 | one weekday per row, that of `int(insert_time)` |
| BlueToadAnalysis.CircularWindow | BlueToadAnalysis.py:60-68 | the window holds the `2w` inputs at `(i-w+j) mod L` |
| BlueToadAnalysis.WindowNearStart | BlueToadAnalysis.py:61-63 | the first branch's two slices are the circular window |
| BlueToadAnalysis.WindowNearEnd | BlueToadAnalysis.py:64-66 | the second branch's slices, swapped, are the circular window |
| BlueToadAnalysis.WindowInMiddle | BlueToadAnalysis.py:67-68 | the third branch's slice is the circular window |
| BlueToadAnalysis.MovingAverageCircular | BlueToadAnalysis.py:55-69 | one value per input: the mean of the `2w` inputs `i-w .. i+w-1` mod L, whichever branch runs |
| BlueToadAnalysis.CircularMeanOfConstant | BlueToadAnalysis.py:55-69 | a constant sequence is its own moving average |
| BlueToadAnalysis.CircularMeanBounds | BlueToadAnalysis.py:55-69 | every smoothed value lies within the input's bounds |
| BlueToadAnalysis.CircularMeanOfMissing | BlueToadAnalysis.py:55-69 | a NaN input makes every window covering it NaN, its own included |
| BlueToadAnalysis.CircularMeanOfEmptyWindow | BlueToadAnalysis.py:67-68 | with a zero half-window every slice is empty and every value NaN |
| BlueToadAnalysis.Bucket | BlueToadAnalysis.py:100 | the bucket of a non-negative time is in 0..287 |
| BlueToadAnalysis.BucketOnGrid | BlueToadAnalysis.py:42-45 | on the five-minute grid the bucket is the step within the day |
| BlueToadAnalysis.Round3 | NCDC_WeatherProcessor.py:115 | `round(x, 3)` is within half a thousandth of `x` |
| BlueToadAnalysis.TimeIndexAsWritten | BlueToadAnalysis.py:100 | the index read from a non-negative stored time is in 0..288 |
| BlueToadAnalysis.TimeIndexAsWrittenMissesStep | BlueToadAnalysis.py:100 | the reading at 00:05 of 1 January 2012 (day number 2012000) is mark 1, but its stored time `2012000.003` gives index 0 |
| BlueToadAnalysis.GetSubBlueToad | BlueToadAnalysis.py:49-53 | exactly the rows of the given pair and weekday |
| BlueToadAnalysis.GetSubBlueToadKeepsOrder | BlueToadAnalysis.py:49-53 | the two filters are one filter on both conditions, so order is kept |
| BlueToadAnalysis.TravelTimesInMeaning | BlueToadAnalysis.py:44-46 | a bucket's travel times are exactly those of its rows |
| BlueToadAnalysis.BucketMeanMeaning | BlueToadAnalysis.py:44-46 | a bucket is NaN exactly when no row falls in it; otherwise its mean is within the travel times' bounds |
| BlueToadAnalysis.DefineDiurnalCycle | BlueToadAnalysis.py:36-47 | 288 values: the bucket means, smoothed with half-window `MA_smooth_fac/2` |
| BlueToadAnalysis.DiurnalCycleBounds | BlueToadAnalysis.py:36-47 | rows that cover every bucket give a cycle with no NaN, within the travel times' bounds |
| Text.NatToStringInjective | BlueToadAnalysis.py:82 | different non-negative numbers are written differently |
| Text.IntToStringInjective | BlueToadAnalysis.py:82 | `str` is one-to-one on integers |
| BlueToadAnalysis.DiurnalKeyShape | BlueToadAnalysis.py:82 | the key starts with `str(pair_id)`; for a single-digit day it ends with `_` and that digit, with exactly `str(pair_id)` before the underscore |
| BlueToadAnalysis.DiurnalKeyInjective | BlueToadAnalysis.py:82 | for weekdays 0..6 the key `"<id>_<day>"` determines pair and day |
| BlueToadAnalysis.GenerateDiurnalDic | BlueToadAnalysis.py:71-83 | one entry per distinct pair and weekday 0..6, holding that pair's smoothed cycle for that day; no other key; each entry has 288 values |
| BlueToadAnalysis.AddPairCycles | BlueToadAnalysis.py:79-83 | the inner loop stores the seven cycles of one pair and leaves other entries alone |
| BlueToadAnalysis.AllCyclesKept | BlueToadAnalysis.py:78-83 | storing the cycles of one distinct pair leaves the cycles of every earlier pair in place |
| BlueToadAnalysis.Residual | BlueToadAnalysis.py:99-101 | residual plus baseline is the travel time; residual NaN exactly when the baseline is; it fails, with `KeyError` or `IndexError`, exactly for an absent key or a cycle too short for the bucket |
| BlueToadAnalysis.ResidualAgainstOwnDictionary | BlueToadAnalysis.py:99-101 | against the dictionary built from the same rows, every row with a weekday 0..6 has a residual |
| BlueToadAnalysis.NormalizeTravelTime | BlueToadAnalysis.py:93-101 | one residual per row in order, or the first row's exception |
| RealTimeMassDot.Unique | ParseRealTimeMassDot.py:24-31 | no duplicates, exactly the input's elements, and equal to the first-occurrence de-duplication |
| RealTimeMassDot.DedupElements | ParseRealTimeMassDot.py:31 | an element survives exactly when it occurs in the input |
| RealTimeMassDot.DedupNoDuplicates | ParseRealTimeMassDot.py:30-31 | no element survives twice |
| RealTimeMassDot.DedupKeepsFirstOccurrenceOrder | ParseRealTimeMassDot.py:31 | survivors appear in the order of their first occurrence |
| RealTimeMassDot.DedupOfDistinct | ParseRealTimeMassDot.py:31 | a duplicate-free list comes back unchanged |
| RealTimeMassDot.DedupIdempotent | ParseRealTimeMassDot.py:31 | de-duplicating twice is de-duplicating once |
| RealTimeMassDot.KeysOf | ParseRealTimeMassDot.py:14 | every key of the first pair, each once |
| RealTimeMassDot.EmptyColumns | ParseRealTimeMassDot.py:15-17 | an empty `pairId` column and an empty column per attribute, nothing else |
| RealTimeMassDot.AppendAttributes | ParseRealTimeMassDot.py:20-21 | each attribute column gains the pair's value, or `KeyError` for an attribute the pair lacks |
| RealTimeMassDot.ParseJson | ParseRealTimeMassDot.py:9-22 | `lastUpdated` unchanged; empty `pairData` raises `IndexError`; a pair lacking a first-pair attribute raises `KeyError` for it; an attribute named `pairId` beside other attributes makes `pd.DataFrame` raise `ValueError`; otherwise the frame has the first pair's attributes plus `pairId`, all of one length, row i from pair i (`pairId` holding each key followed by the pair's own `pairId` value when that is the only attribute) |
| RealTimeMassDot.FillColumns | ParseRealTimeMassDot.py:18-21 | the loop over the pairs succeeds exactly when every pair has every first-pair attribute, and otherwise raises `KeyError` for a missing one; each attribute column other than `pairId` holds the pairs' values in order; the `pairId` column holds the keys, interleaved with the pairs' `pairId` values when that is an attribute too |
| RealTimeMassDot.InterleavedIdsAt | ParseRealTimeMassDot.py:19-21 | with an attribute named `pairId`, entry 2i of that column is pair i's key and entry 2i+1 its `pairId` value |
| RealTimeMassDot.FrameLengths | ParseRealTimeMassDot.py:15-22 | the filled columns have one common length, as `pd.DataFrame` demands, exactly when no attribute is named `pairId` or it is the only attribute |

## Left out

- File, HTTP and JSON I/O: every `open`, `read_csv`, `to_csv` and `json.dump`. Lines and
  records are taken as inputs instead.
- The `__main__` blocks, `GetRelevantFileList`, `BuildSiteDataFrame`, `GetWeatherData`,
  `GetWSiteName` and `BuildClosestNOAADic`. These are only I/O and glue.
- `RealTimeWeather` and `GetRealTimeFromSite`: network and HTML scraping. Every branch of the
  latter returns 'SN'.
- `AppendWeatherInformation`: its source text is incomplete (BlueToadAnalysis.py:110).
- `SimplifyWeatherData`: a CSV read around `ConvertWeatherDate`.
- `FloatConvert`: a pandas column cast. Observations carry `real` travel times instead.
- pandas DataFrames are modelled as column dictionaries (`map<string, seq<Field>>`) or as
  sequences of records. `ParseJson` models the one check `pd.DataFrame` makes of such a
  dictionary, that all columns have the same length (`Columns.SameLengths`).
- GetNcdcColumns: returns the column dictionary, not `pd.DataFrame` of it
  (NCDC_WeatherProcessor.py:54). A data line with fewer fields than the header fills only the
  zipped columns, and the frame then raises `ValueError` for columns of unequal length; the model
  returns the ragged dictionary.
- GetRoadVolumeColumns: likewise returns the dictionary, not `pd.DataFrame` of it
  (MassDotDataTypes.py:64), so a short data line gives a ragged dictionary where the source raises
  `ValueError`.
- Printing: progress messages, and the `previous_id` bookkeeping that only decides when
  `NormalizeTravelTime` prints.
- Float artefacts:
  - `round(…, dec)` after `RoundToNearestNth` and in `DefineDiurnalCycle`;
  - the float equality of `DefineDiurnalCycle`, modelled as equality of integer buckets, which
    agrees on the five-minute grid (`BucketOnGrid`);
  - binary floating point itself, since floats are exact reals.
- NormalizeTravelTime: reads the bucket `int(frac * 288)` of the exact insert time. The source
  reads `int(frac * 288 + .0001)` of a time already rounded to three decimals, which is a
  different bucket at many five-minute marks. The model keeps the intended bucket; see
  "Findings".
- `math.sqrt` in `ChooseClosestSite`: squared distances are compared with 9999², which orders
  non-negative distances the same way.
- Python 2 integer division of an integer `w_time` in `ConvertWeatherDate`: the clock reading is
  a real.
- `float()` and `int()` accept only optional signs, digits and one decimal point, after
  whitespace is stripped. Exponents, `inf` and `nan` are not modelled, and neither is Python 2
  `int()` skipping blanks after the sign (`int('- 5') == -5`), which `IntOf` refuses.
- The roadway key of `ChooseClosestSite` is taken as the string `str(roadway)` already.
- A coordinates entry without `Lat` or `Lon` (a `KeyError` in the source) is not modelled: an
  entry always holds both.
- `ParseJson`:
  - the pairs come in the order Python's `keys()` lists them, given as the input's order;
  - `lastUpdated` and `pairData` are always present.
- `unique` on a `str` argument (the `keepstr` branch) is not modelled; only lists are.
- GetDayOfWeek: a day number whose landing day falls outside 1 January 1900 to
  31 December 9999 is excluded by precondition rather than modelled as the exception. Before 1900
  the exception is Python 2's `strftime` `ValueError`; outside 1..9999 it comes from `datetime`.
  Within that range the `strptime`/`strftime` round trip through month, day and year text gives
  back the date it was given.
- `AddDayOfWeekColumn`: the `date_to_dayofweek` dictionary is left out. It is built but never
  read. Building it can only raise the same exception as the column loop, which the
  precondition excludes.
- `DefineDiurnalCycle`:
  - its `five_minute_fractions` argument is fixed to the 288 fractions its only caller passes;
  - its `day` argument is unused;
  - a negative `MA_smooth_fac`, or one with `2*(fac/2) > 288`, is excluded by precondition.
- `MovingAverageCircular`: a half-window with `2w > L` is excluded by precondition. Python's
  slicing of out-of-range bounds is not modelled.
- Month validity is a precondition of `ConvertWeatherDate`, as the source does no date
  validation; month and day are not checked in `SlashDateToNumerical` either.
- Strip: its contract states only that no whitespace is left at either end and that the result is no
  longer. It does not state that the result is a contiguous slice of the input.
- InsertTimeValue: states the value as `RoundToNearestNth(n + f, 288)`. The `k/288` form of that
  value is stated separately in `FiveMinuteSteps`.

## Findings

| source | as written | input that shows it | evidently intended | confidence | as-written member | corrected member |
|---|---|---|---|---|---|---|
| BlueToadAnalysis.py:100 | the bucket is `int(frac * 288 + .0001)` of an insert time the loader stored rounded to three decimals (MassDotDataTypes.py:96, NCDC_WeatherProcessor.py:115) | the reading at 00:05 on 1 January 2012 (day number 2012000, 1 January being day 0): stored as `2012000.003`, index `int(0.864 + .0001) == 0` | index 1, the five-minute mark under which `DefineDiurnalCycle` files that reading | not executed | BlueToadAnalysis.TimeIndexAsWrittenMissesStep | BlueToadAnalysis.BucketOnGrid |

=== FILE: bluetoad_analysis.dfy ===
/** The diurnal baseline of the BlueToad travel times: the day of the week of each `YYYYDOY`
    day number, the per-bucket mean travel time of one pair and weekday, its circular moving
    average, the dictionary of baselines for every pair and weekday, and the residual of each
    observation against its baseline. */
module BlueToadAnalysis {
  import opened Wrappers
  import opened Numeric
  import Calendar
  import Text
  import RealTimeMassDot

  // ---------------------------------------------------------------------------------------
  // Day of the week

  /** A `YYYYDOY` day number for which `datetime(date / 1000, 1, 1)` exists and adding
      `date % 1000 - 1` days to it lands between 1 January 1900 and 31 December 9999: Python 2's
      `strftime` refuses any year before 1900, and `datetime` any year after 9999. */
  predicate ValidDayNumber(date: int) {
    1 <= date / 1000 <= 9999 &&
    Calendar.OrdinalOfNewYear(1900) <= Calendar.OrdinalOfNewYear(date / 1000) + date % 1000 - 1 <= Calendar.MaxOrdinal
  }

  /** The ordinal (1 January of year 1 is 1) of the day `GetDayOfWeek` lands on: 1 January of
      the year plus `date % 1000 - 1` days. */
  function DayOrdinal(date: int): int
    requires ValidDayNumber(date)
  {
    Calendar.OrdinalOfNewYear(date / 1000) + date % 1000 - 1
  }

  /** `strftime('%w')`: Sunday is 0 and Saturday 6 (the day with ordinal 7 was a Sunday). */
  function SundayBasedWeekday(ordinal: int): int {
    ordinal % 7
  }

  /** `GetDayOfWeek`: shifts `%w` so that Monday is 0 and Sunday 6. */
  function GetDayOfWeek(date: int): (w: int)
    requires ValidDayNumber(date)
    ensures 0 <= w < 7
  {
    (SundayBasedWeekday(DayOrdinal(date)) + 6) % 7
  }

  /** The domain ends where `strftime` starts refusing: day 0 of 1900 is 31 December 1899, and
      day 999 of 1899 lands in 1901. */
  lemma ValidDayNumberBoundary()
    ensures !ValidDayNumber(1900000) && ValidDayNumber(1900001)
    ensures !ValidDayNumber(1899001) && ValidDayNumber(1899999)
    ensures !ValidDayNumber(1001)
    ensures ValidDayNumber(9999365) && !ValidDayNumber(9999366)
  {
    NewYearOrdinals();
    assert 1900000 / 1000 == 1900 && 1900000 % 1000 == 0;
    assert 1900001 / 1000 == 1900 && 1900001 % 1000 == 1;
    assert 1899001 / 1000 == 1899 && 1899001 % 1000 == 1;
    assert 1899999 / 1000 == 1899 && 1899999 % 1000 == 999;
    assert 1001 / 1000 == 1 && 1001 % 1000 == 1;
    assert 9999365 / 1000 == 9999 && 9999365 % 1000 == 365;
    assert 9999366 / 1000 == 9999 && 9999366 % 1000 == 366;
  }

  lemma NewYearOrdinals()
    ensures Calendar.OrdinalOfNewYear(1900) == 693596
    ensures Calendar.OrdinalOfNewYear(1899) == 693231
    ensures Calendar.OrdinalOfNewYear(1) == 1
    ensures Calendar.OrdinalOfNewYear(9999) == 3651695
  {
    assert 1899 / 4 == 474 && 1899 / 100 == 18 && 1899 / 400 == 4;
    assert 1898 / 4 == 474 && 1898 / 100 == 18 && 1898 / 400 == 4;
    assert 9998 / 4 == 2499 && 9998 / 100 == 99 && 9998 / 400 == 24;
  }

  /** The shift lands on `date.weekday()`, Python's Monday-based weekday. */
  lemma GetDayOfWeekIsMondayBased(date: int)
    requires ValidDayNumber(date)
    ensures GetDayOfWeek(date) == Calendar.WeekdayOfOrdinal(DayOrdinal(date))
    ensures GetDayOfWeek(date) == 6 <==> SundayBasedWeekday(DayOrdinal(date)) == 0
  {
    var o := DayOrdinal(date);
    WeekdayShift(o, 6);
    assert GetDayOfWeek(date) == ((o % 7) + 6) % 7;
  }

  /** Consecutive day numbers of one year give consecutive weekdays. */
  lemma GetDayOfWeekNextDay(date: int)
    requires ValidDayNumber(date) && ValidDayNumber(date + 1)
    requires date % 1000 < 999
    ensures GetDayOfWeek(date + 1) == (GetDayOfWeek(date) + 1) % 7
  {
    NextDayParts(date);
    var o := DayOrdinal(date);
    assert DayOrdinal(date + 1) == o + 1;
    WeekdayShift(o, 6);
    WeekdayShift(o + 1, 6);
    WeekdayShift(o + 6, 1);
  }

  lemma NextDayParts(date: int)
    requires date % 1000 < 999
    ensures (date + 1) / 1000 == date / 1000 && (date + 1) % 1000 == date % 1000 + 1
  {
  }

  lemma DaysBeforeYearMonotone(y: int, z: int)
    requires 1 <= y <= z
    ensures Calendar.DaysBeforeYear(y) <= Calendar.DaysBeforeYear(z)
  {
    var p, q := y - 1, z - 1;
    assert p / 4 <= q / 4;
    assert p / 100 - p / 400 <= q / 100 - q / 400 + (q - p);
  }

  /** Day 0 of year `y` is the last day of year `y - 1`: the day number `y*1000` names
      31 December of the year before. */
  lemma DayZeroIsLastDayOfPreviousYear(y: int)
    requires 1901 <= y <= 9999
    ensures ValidDayNumber(y * 1000)
    ensures ValidDayNumber((y - 1) * 1000 + Calendar.DaysInYear(y - 1))
    ensures DayOrdinal(y * 1000) == DayOrdinal((y - 1) * 1000 + Calendar.DaysInYear(y - 1))
    ensures GetDayOfWeek(y * 1000) == GetDayOfWeek((y - 1) * 1000 + Calendar.DaysInYear(y - 1))
  {
    Calendar.DaysBeforeNextYear(y - 1);
    DaysBeforeYearMonotone(1900, y - 1);
    DaysBeforeYearMonotone(y, 10000);
    assert Calendar.DaysBeforeYear(10000) == Calendar.MaxOrdinal;
    var last := (y - 1) * 1000 + Calendar.DaysInYear(y - 1);
    assert last / 1000 == y - 1 && last % 1000 == Calendar.DaysInYear(y - 1);
    assert (y * 1000) / 1000 == y && (y * 1000) % 1000 == 0;
  }

  /** The encoders number 1 January as day 0, but `GetDayOfWeek` counts day 1 as 1 January, so
      for a day number the encoders produce it answers the weekday of the day before. */
  lemma GetDayOfWeekOfEncodedDay(y: int, doy: int)
    requires 1900 <= y <= 9999 && 0 <= doy < Calendar.DaysInYear(y)
    requires y == 1900 ==> 1 <= doy
    ensures ValidDayNumber(y * 1000 + doy)
    ensures GetDayOfWeek(y * 1000 + doy) ==
              (Calendar.WeekdayOfOrdinal(Calendar.OrdinalOfNewYear(y) + doy) + 6) % 7
  {
    EncodedDayOrdinal(y, doy);
    var n := Calendar.OrdinalOfNewYear(y) + doy;
    WeekdayShift(n - 1, 6);
    WeekdayShift(n + 6, 6);
    assert (n + 12) % 7 == (n + 5) % 7 by {
      WeekdayShift(n + 5, 7);
    }
  }

  /** The encoders' day `doy` of year `y` is a valid day number, and `GetDayOfWeek` lands on
      the ordinal one before that of the encoded day. */
  lemma EncodedDayOrdinal(y: int, doy: int)
    requires 1900 <= y <= 9999 && 0 <= doy < Calendar.DaysInYear(y)
    requires y == 1900 ==> 1 <= doy
    ensures ValidDayNumber(y * 1000 + doy)
    ensures DayOrdinal(y * 1000 + doy) == Calendar.OrdinalOfNewYear(y) + doy - 1
  {
    EncodedDayParts(y, doy);
    Calendar.DaysBeforeNextYear(y);
    if y > 1900 {
      Calendar.DaysBeforeNextYear(1900);
      DaysBeforeYearMonotone(1901, y);
    }
    DaysBeforeYearMonotone(y + 1, 10000);
    assert Calendar.DaysBeforeYear(10000) == Calendar.MaxOrdinal;
  }

  lemma EncodedDayParts(y: int, doy: int)
    requires 0 <= doy < 1000
    ensures (y * 1000 + doy) / 1000 == y && (y * 1000 + doy) % 1000 == doy
  {
  }

  lemma WeekdayShift(a: int, b: int)
    ensures ((a % 7) + b) % 7 == (a + b) % 7
  {
  }

  /** 1 January 2012 was a Sunday: day number 2012001 gives 6, while 2012000, the encoders'
      number for that day, gives Saturday. */
  lemma GetDayOfWeekExample()
    ensures ValidDayNumber(2012001) && GetDayOfWeek(2012001) == 6
    ensures ValidDayNumber(2012000) && GetDayOfWeek(2012000) == 5
  {
    assert Calendar.DaysBeforeYear(2012) == 734502;
  }

  /** `AddDayOfWeekColumn`: the weekday of the day number `int(insert_time)` of every row, one
      entry per row, in row order. */
  method AddDayOfWeekColumn(insertTimes: seq<real>) returns (column: seq<int>)
    requires forall i :: 0 <= i < |insertTimes| ==> ValidDayNumber(Trunc(insertTimes[i]))
    ensures |column| == |insertTimes|
    ensures forall i :: 0 <= i < |insertTimes| ==>
              column[i] == GetDayOfWeek(Trunc(insertTimes[i])) && 0 <= column[i] < 7
  {
    var days := seq(|insertTimes|, i requires 0 <= i < |insertTimes| => Trunc(insertTimes[i]));
    column := [];
    for i := 0 to |days|
      invariant |column| == i
      invariant forall k :: 0 <= k < i ==> column[k] == GetDayOfWeek(days[k])
    {
      column := column + [GetDayOfWeek(days[i])];
    }
  }

  // ---------------------------------------------------------------------------------------
  // Circular moving average

  /** The `2w` inputs around `i`, at indices `i-w .. i+w-1` taken modulo the length. The window
      is one short of symmetric: it holds `i-w` but not `i+w`. */
  function CircularWindow(s: seq<Option<real>>, i: int, w: nat): (win: seq<Option<real>>)
    requires |s| > 0
    ensures |win| == 2 * w
    ensures forall j :: 0 <= j < 2 * w ==> win[j] == s[(i - w + j) % |s|]
  {
    seq(2 * w, j requires 0 <= j < 2 * w => s[(i - w + j) % |s|])
  }

  /** Every input replaced by the mean of its circular window. */
  function CircularMean(s: seq<Option<real>>, w: nat): (r: seq<Option<real>>)
    ensures |r| == |s|
  {
    seq(|s|, i requires 0 <= i < |s| => OptMean(CircularWindow(s, i, w)))
  }

  lemma ModOfSmall(x: int, n: int)
    requires 0 <= x < n
    ensures x % n == x
  {
  }

  lemma ModOfNegative(x: int, n: int)
    requires -n <= x < 0
    ensures x % n == x + n
  {
  }

  lemma ModOfLarge(x: int, n: int)
    requires n <= x < 2 * n
    ensures x % n == x - n
  {
  }

  /** Near the start the window wraps round: the last `w - i` inputs, then the first `i + w`. */
  lemma WindowNearStart(s: seq<Option<real>>, i: int, w: nat)
    requires 0 <= i < w && 2 * w <= |s|
    ensures s[|s| - (w - i)..] + s[0..i + w] == CircularWindow(s, i, w)
  {
    var a, b := s[|s| - (w - i)..], s[0..i + w];
    forall j | 0 <= j < 2 * w
      ensures (a + b)[j] == CircularWindow(s, i, w)[j]
    {
      if j < w - i {
        ModOfNegative(i - w + j, |s|);
      } else {
        ModOfSmall(i - w + j, |s|);
      }
    }
  }

  /** Near the end the window wraps the other way; the code takes the wrapped part first, which
      is the window with its two parts swapped. */
  lemma WindowNearEnd(s: seq<Option<real>>, i: int, w: nat)
    requires |s| - w < i < |s| && 2 * w <= |s|
    ensures s[i - w..] + s[0..i + w - |s|] == CircularWindow(s, i, w)
  {
    var a, b := s[i - w..], s[0..i + w - |s|];
    forall j | 0 <= j < 2 * w
      ensures (a + b)[j] == CircularWindow(s, i, w)[j]
    {
      if j < |s| - (i - w) {
        ModOfSmall(i - w + j, |s|);
      } else {
        ModOfLarge(i - w + j, |s|);
      }
    }
  }

  lemma WindowInMiddle(s: seq<Option<real>>, i: int, w: nat)
    requires w <= i <= |s| - w
    requires |s| > 0
    ensures s[i - w..i + w] == CircularWindow(s, i, w)
  {
    forall j | 0 <= j < 2 * w
      ensures s[i - w..i + w][j] == CircularWindow(s, i, w)[j]
    {
      ModOfSmall(i - w + j, |s|);
    }
  }

  /** `MA_Smooth_Circular`: for each index, the mean of a slice or of two slices glued
      together, chosen by whether the window runs off the start, off the end, or neither. All
      three branches compute the mean of the same circular window. */
  method MovingAverageCircular(sequence: seq<Option<real>>, oneDirWindow: nat)
    returns (smoothed: seq<Option<real>>)
    requires 2 * oneDirWindow <= |sequence|
    ensures smoothed == CircularMean(sequence, oneDirWindow)
  {
    var w := oneDirWindow;
    var L := |sequence|;
    smoothed := [];
    for ind := 0 to L
      invariant |smoothed| == ind
      invariant forall k :: 0 <= k < ind ==> smoothed[k] == OptMean(CircularWindow(sequence, k, w))
    {
      var m: Option<real>;
      if ind < w {
        var indicesAtEnd := w - ind;
        m := OptMean(sequence[L - indicesAtEnd..] + sequence[0..ind + w]);
        WindowNearStart(sequence, ind, w);
      } else if ind > L - w {
        var indicesAtStart := ind + w - L;
        m := OptMean(sequence[0..indicesAtStart] + sequence[ind - w..]);
        WindowNearEnd(sequence, ind, w);
        OptMeanSwap(sequence[0..indicesAtStart], sequence[ind - w..]);
      } else {
        m := OptMean(sequence[ind - w..ind + w]);
        WindowInMiddle(sequence, ind, w);
      }
      smoothed := smoothed + [m];
    }
  }

  /** A constant sequence is its own moving average. */
  lemma CircularMeanOfConstant(s: seq<Option<real>>, w: nat, c: real)
    requires 1 <= w && 2 * w <= |s|
    requires forall k :: 0 <= k < |s| ==> s[k] == Some(c)
    ensures CircularMean(s, w) == s
  {
    forall i | 0 <= i < |s|
      ensures CircularMean(s, w)[i] == Some(c)
    {
      OptMeanBounds(CircularWindow(s, i, w), c, c);
    }
  }

  /** Smoothing stays within the bounds of its input. */
  lemma CircularMeanBounds(s: seq<Option<real>>, w: nat, lo: real, hi: real)
    requires 1 <= w && 2 * w <= |s|
    requires forall k :: 0 <= k < |s| ==> s[k].Some? && lo <= s[k].value <= hi
    ensures forall i :: 0 <= i < |s| ==>
              CircularMean(s, w)[i].Some? && lo <= CircularMean(s, w)[i].value <= hi
  {
    forall i | 0 <= i < |s|
      ensures CircularMean(s, w)[i].Some? && lo <= CircularMean(s, w)[i].value <= hi
    {
      OptMeanBounds(CircularWindow(s, i, w), lo, hi);
    }
  }

  /** A missing input (NaN) makes every average whose window covers it missing, its own
      position included; with a zero half-window every window is empty and every average NaN. */
  lemma CircularMeanOfMissing(s: seq<Option<real>>, w: nat, k: int)
    requires 2 * w <= |s| && 0 <= k < |s| && s[k].None?
    ensures forall i, j :: 0 <= i < |s| && 0 <= j < 2 * w && CircularWindow(s, i, w)[j] == s[k] ==>
              CircularMean(s, w)[i].None?
    ensures w >= 1 ==> CircularMean(s, w)[k].None?
  {
    if w >= 1 {
      ModOfSmall(k, |s|);
      assert CircularWindow(s, k, w)[w] == s[k];
    }
  }

  lemma CircularMeanOfEmptyWindow(s: seq<Option<real>>)
    ensures forall i :: 0 <= i < |s| ==> CircularMean(s, 0)[i].None?
  {
  }

  // ---------------------------------------------------------------------------------------
  // Diurnal cycle of one pair and weekday

  /** One cleaned BlueToad observation: pair, insert time `YYYYDOY.fraction`, travel time and
      the weekday `AddDayOfWeekColumn` gave it. */
  datatype Observation = Observation(pairId: int, insertTime: real, travelTime: real, dayOfWeek: int)

  /** Five-minute buckets in a day. */
  const BucketsPerDay: nat := 288

  /** `int((t - int(t)) * 288)`: the five-minute bucket of the time of day. */
  function Bucket(t: real): (b: int)
    ensures t >= 0.0 ==> 0 <= b < BucketsPerDay
    ensures t < 0.0 ==> -(BucketsPerDay as int) < b <= 0
  {
    Trunc((t - Trunc(t) as real) * BucketsPerDay as real)
  }

  /** On the five-minute grid the encoders produce, the bucket is the step within the day. */
  lemma BucketOnGrid(day: nat, k: int)
    requires 0 <= k < BucketsPerDay
    ensures Bucket(day as real + k as real / BucketsPerDay as real) == k
  {
    var f := k as real / 288.0;
    assert 0.0 <= f < 1.0;
    assert (day as real + f).Floor == day;
    assert f * 288.0 == k as real;
  }

  /** Python's `round(x, 3)` for `x >= 0`: the nearest multiple of 0.001, halves rounded up. */
  function Round3(x: real): (r: real)
    ensures x - 0.0005 < r <= x + 0.0005
  {
    (x * 1000.0 + 0.5).Floor as real / 1000.0
  }

  /** `NormalizeTravelTime`'s bucket as written: `int((t - int(t)) * 288 + .0001)` of the stored
      insert time, which the loader has already rounded to three decimals. */
  function TimeIndexAsWritten(stored: real): (b: int)
    ensures stored >= 0.0 ==> 0 <= b <= BucketsPerDay
  {
    var f := stored - Trunc(stored) as real;
    Trunc(f * BucketsPerDay as real + 0.0001)
  }

  /** The reading at 00:05 of 1 January 2012 (day number 2012000, since the loaders count
      1 January as day 0) is five-minute mark 1, and `DefineDiurnalCycle` files it under mark 1
      (`round(1/288, 3) == 0.003` on both sides of its comparison). Its stored time is
      `2012000.003`, and `int(0.003 * 288 + .0001) == 0`: the residual is taken against the
      baseline of 00:00. */
  lemma TimeIndexAsWrittenMissesStep()
    ensures Bucket(2012000.0 + 1.0 / 288.0) == 1
    ensures Round3(2012000.0 + 1.0 / 288.0) == 2012000.003
    ensures TimeIndexAsWritten(Round3(2012000.0 + 1.0 / 288.0)) == 0
  {
    BucketOnGrid(2012000, 1);
    var x := 2012000.0 + 1.0 / 288.0;
    assert 2012000003.0 <= x * 1000.0 + 0.5 < 2012000004.0;
    assert (x * 1000.0 + 0.5).Floor == 2012000003;
    var stored := 2012000.003;
    assert Trunc(stored) == 2012000;
    assert 0.0 <= (stored - 2012000.0) * 288.0 + 0.0001 < 1.0;
  }

  /** `GetSubBlueToad`: the rows of one pair, then of those the rows of one weekday. */
  function GetSubBlueToad(bt: seq<Observation>, pairId: int, day: int): (sub: seq<Observation>)
    ensures forall k :: 0 <= k < |sub| ==>
              sub[k] in bt && sub[k].pairId == pairId && sub[k].dayOfWeek == day
    ensures forall k :: 0 <= k < |bt| && bt[k].pairId == pairId && bt[k].dayOfWeek == day ==>
              bt[k] in sub
  {
    var ofPair := Filter(bt, (r: Observation) => r.pairId == pairId);
    Filter(ofPair, (r: Observation) => r.dayOfWeek == day)
  }

  /** The two filters together are one filter on both conditions, so the order of the rows is
      kept. */
  lemma {:induction false} GetSubBlueToadKeepsOrder(bt: seq<Observation>, pairId: int, day: int)
    ensures GetSubBlueToad(bt, pairId, day) ==
              Filter(bt, (r: Observation) => r.pairId == pairId && r.dayOfWeek == day)
  {
    if |bt| > 0 {
      GetSubBlueToadKeepsOrder(bt[1..], pairId, day);
    }
  }

  /** Travel times of the rows in bucket `b`, in row order. */
  function TravelTimesIn(rows: seq<Observation>, b: int): (ts: seq<real>)
    ensures |ts| <= |rows|
  {
    if |rows| == 0 then []
    else
      var rest := TravelTimesIn(rows[1..], b);
      if Bucket(rows[0].insertTime) == b then [rows[0].travelTime] + rest else rest
  }

  /** `np.mean(sub_cycle.travel_time)`: NaN (`None`) for a bucket without rows. */
  function BucketMean(rows: seq<Observation>, b: int): Option<real> {
    var ts := TravelTimesIn(rows, b);
    if |ts| == 0 then None else Some(Mean(ts))
  }

  /** The means of the 288 buckets, before smoothing. */
  function BucketMeans(rows: seq<Observation>): (m: seq<Option<real>>)
    ensures |m| == BucketsPerDay
  {
    seq(BucketsPerDay, b requires 0 <= b < BucketsPerDay => BucketMean(rows, b))
  }

  /** A bucket's travel times are exactly those of the rows that fall in it. */
  lemma {:induction false} TravelTimesInMeaning(rows: seq<Observation>, b: int)
    ensures forall k :: 0 <= k < |rows| && Bucket(rows[k].insertTime) == b ==>
              rows[k].travelTime in TravelTimesIn(rows, b)
    ensures forall x :: x in TravelTimesIn(rows, b) ==>
              exists k :: 0 <= k < |rows| && Bucket(rows[k].insertTime) == b && rows[k].travelTime == x
  {
    if |rows| > 0 {
      TravelTimesInMeaning(rows[1..], b);
      forall k | 1 <= k < |rows|
        ensures rows[k] == rows[1..][k - 1]
      {
      }
      forall x | x in TravelTimesIn(rows, b)
        ensures exists k :: 0 <= k < |rows| && Bucket(rows[k].insertTime) == b && rows[k].travelTime == x
      {
        if x in TravelTimesIn(rows[1..], b) {
          var k :| 0 <= k < |rows[1..]| && Bucket(rows[1..][k].insertTime) == b && rows[1..][k].travelTime == x;
          assert rows[k + 1] == rows[1..][k];
        }
      }
    }
  }

  /** A bucket is NaN exactly when no row falls in it, and otherwise its mean lies within any
      bounds of the travel times. */
  lemma BucketMeanMeaning(rows: seq<Observation>, b: int, lo: real, hi: real)
    requires forall k :: 0 <= k < |rows| ==> lo <= rows[k].travelTime <= hi
    ensures BucketMean(rows, b).None? <==>
              forall k :: 0 <= k < |rows| ==> Bucket(rows[k].insertTime) != b
    ensures BucketMean(rows, b).Some? ==> lo <= BucketMean(rows, b).value <= hi
  {
    TravelTimesInMeaning(rows, b);
    var ts := TravelTimesIn(rows, b);
    if |ts| > 0 {
      assert ts[0] in ts;
      forall j | 0 <= j < |ts|
        ensures lo <= ts[j] <= hi
      {
        assert ts[j] in ts;
      }
      MeanBounds(ts, lo, hi);
    }
  }

  /** Some row falls in bucket `b`. */
  predicate Occupied(rows: seq<Observation>, b: int) {
    exists k :: 0 <= k < |rows| && Bucket(rows[k].insertTime) == b
  }

  /** The smoothed diurnal cycle of some rows, with half-window `smoothFactor / 2`. */
  function DiurnalCycle(rows: seq<Observation>, smoothFactor: nat): (c: seq<Option<real>>)
    ensures |c| == BucketsPerDay
  {
    CircularMean(BucketMeans(rows), smoothFactor / 2)
  }

  /** `DefineDiurnalCycle`: the mean travel time of each five-minute bucket, then the circular
      moving average with half-window `MA_smooth_fac / 2`. */
  method DefineDiurnalCycle(subBt: seq<Observation>, smoothFactor: nat) returns (cycle: seq<Option<real>>)
    requires smoothFactor / 2 * 2 <= BucketsPerDay
    ensures |cycle| == BucketsPerDay
    ensures cycle == CircularMean(BucketMeans(subBt), smoothFactor / 2)
  {
    var diurnal: seq<Option<real>> := [];
    for b := 0 to BucketsPerDay
      invariant |diurnal| == b
      invariant forall k :: 0 <= k < b ==> diurnal[k] == BucketMean(subBt, k)
    {
      diurnal := diurnal + [BucketMean(subBt, b)];
    }
    assert diurnal == BucketMeans(subBt);
    cycle := MovingAverageCircular(diurnal, smoothFactor / 2);
  }

  /** Rows whose travel times lie within bounds and that cover every bucket give a cycle with
      no NaN that stays within the same bounds. */
  lemma DiurnalCycleBounds(rows: seq<Observation>, smoothFactor: nat, lo: real, hi: real)
    requires 2 <= smoothFactor && smoothFactor / 2 * 2 <= BucketsPerDay
    requires forall k :: 0 <= k < |rows| ==> lo <= rows[k].travelTime <= hi
    requires forall b :: 0 <= b < BucketsPerDay ==> Occupied(rows, b)
    ensures forall i :: 0 <= i < BucketsPerDay ==>
              DiurnalCycle(rows, smoothFactor)[i].Some? &&
              lo <= DiurnalCycle(rows, smoothFactor)[i].value <= hi
  {
    var m := BucketMeans(rows);
    forall b | 0 <= b < BucketsPerDay
      ensures m[b].Some? && lo <= m[b].value <= hi
    {
      assert Occupied(rows, b);
      var k :| 0 <= k < |rows| && Bucket(rows[k].insertTime) == b;
      BucketMeanMeaning(rows, b, lo, hi);
      assert m[b] == BucketMean(rows, b);
    }
    CircularMeanBounds(m, smoothFactor / 2, lo, hi);
  }

  // ---------------------------------------------------------------------------------------
  // Dictionary keys "<pair_id>_<day>"

  /** `str(pair_id) + "_" + str(day)`. */
  function DiurnalKey(pairId: int, day: int): string {
    Text.IntToString(pairId) + "_" + Text.IntToString(day)
  }

  /** The key starts with `str(pair_id)`; for a single-digit day it ends with an underscore and
      that digit, and what precedes the underscore is exactly `str(pair_id)`. */
  lemma DiurnalKeyShape(pairId: int, day: int)
    ensures var key := DiurnalKey(pairId, day);
            && |key| >= 3
            && key[..|Text.IntToString(pairId)|] == Text.IntToString(pairId)
            && (0 <= day < 10 ==>
                  && key[|key| - 2] == '_' && key[|key| - 1] == Text.DigitChar(day)
                  && key[..|key| - 2] == Text.IntToString(pairId))
  {
    var u := Text.IntToString(pairId);
    var key := DiurnalKey(pairId, day);
    assert key[..|u|] == u;
    if 0 <= day < 10 {
      assert Text.IntToString(day) == [Text.DigitChar(day)];
      assert key == u + "_" + [Text.DigitChar(day)];
    }
  }

  /** For weekdays 0 to 6 the key determines the pair and the day: the day is the single digit
      after the last underscore. */
  lemma DiurnalKeyInjective(u1: int, d1: int, u2: int, d2: int)
    requires 0 <= d1 < 7 && 0 <= d2 < 7
    requires DiurnalKey(u1, d1) == DiurnalKey(u2, d2)
    ensures u1 == u2 && d1 == d2
  {
    DiurnalKeyShape(u1, d1);
    DiurnalKeyShape(u2, d2);
    var key := DiurnalKey(u1, d1);
    assert Text.DigitChar(d1) == key[|key| - 1] == Text.DigitChar(d2);
    Text.IntToStringInjective(u1, u2);
  }

  // ---------------------------------------------------------------------------------------
  // Diurnal dictionary and residuals

  function PairIdsOf(bt: seq<Observation>): (ids: seq<int>)
    ensures |ids| == |bt| && forall k :: 0 <= k < |bt| ==> ids[k] == bt[k].pairId
  {
    seq(|bt|, k requires 0 <= k < |bt| => bt[k].pairId)
  }

  /** `key` is `"<u>_<d>"` for some pair `u` of `ids` and weekday `d`. */
  predicate IsDiurnalKey(ids: seq<int>, key: string) {
    exists u, d :: u in ids && 0 <= d < 7 && key == DiurnalKey(u, d)
  }

  /** `GenerateDiurnalDic` (the dictionary it builds): for every distinct pair and every weekday
      0 to 6, the smoothed diurnal cycle of that pair's rows on that weekday, under the key
      `"<pair_id>_<day>"`; no other key. */
  method GenerateDiurnalDic(bt: seq<Observation>, window: nat) returns (dic: map<string, seq<Option<real>>>)
    requires window / 2 * 2 <= BucketsPerDay
    ensures forall u, d :: u in PairIdsOf(bt) && 0 <= d < 7 ==>
              DiurnalKey(u, d) in dic && dic[DiurnalKey(u, d)] == DiurnalCycle(GetSubBlueToad(bt, u, d), window)
    ensures forall key :: key in dic ==> IsDiurnalKey(PairIdsOf(bt), key)
    ensures forall key :: key in dic ==> |dic[key]| == BucketsPerDay
  {
    var ids := PairIdsOf(bt);
    var uniqueIds := RealTimeMassDot.Unique(ids);
    dic := map[];
    for n := 0 to |uniqueIds|
      invariant forall m :: 0 <= m < n ==> HoldsCycles(dic, bt, window, uniqueIds[m])
      invariant forall key :: key in dic ==> IsDiurnalKey(ids, key) && |dic[key]| == BucketsPerDay
    {
      var u := uniqueIds[n];
      assert u in ids;
      ghost var before := dic;
      dic := AddPairCycles(bt, window, ids, u, dic);
      AllCyclesKept(before, dic, bt, window, uniqueIds, n);
    }
    forall u, d | u in ids && 0 <= d < 7
      ensures DiurnalKey(u, d) in dic
      ensures dic[DiurnalKey(u, d)] == DiurnalCycle(GetSubBlueToad(bt, u, d), window)
    {
      var m :| 0 <= m < |uniqueIds| && uniqueIds[m] == u;
      assert HoldsCycles(dic, bt, window, u);
      assert HasCycle(dic, bt, window, u, d);
    }
  }

  /** `dic` holds the seven cycles of pair `u`. */
  predicate HoldsCycles(dic: map<string, seq<Option<real>>>, bt: seq<Observation>, window: nat, u: int) {
    HoldsCyclesBelow(dic, bt, window, u, 7)
  }

  /** `dic` holds the cycles of pair `u` for the weekdays below `day`. */
  predicate HoldsCyclesBelow(dic: map<string, seq<Option<real>>>, bt: seq<Observation>, window: nat, u: int, day: int) {
    forall d :: 0 <= d < day ==> HasCycle(dic, bt, window, u, d)
  }

  /** `dic` holds the cycle of pair `u` on weekday `d` under its key. */
  predicate HasCycle(dic: map<string, seq<Option<real>>>, bt: seq<Observation>, window: nat, u: int, d: int) {
    DiurnalKey(u, d) in dic && dic[DiurnalKey(u, d)] == DiurnalCycle(GetSubBlueToad(bt, u, d), window)
  }

  /** `key` is `"<u>_<d>"` for some weekday `d`. */
  predicate IsKeyOfPair(key: string, u: int) {
    exists d :: 0 <= d < 7 && key == DiurnalKey(u, d)
  }

  /** Storing the cycles of pair `u` leaves those of any other pair in place. */
  lemma HoldsCyclesKept(dic0: map<string, seq<Option<real>>>, dic: map<string, seq<Option<real>>>,
                        bt: seq<Observation>, window: nat, u: int, v: int)
    requires forall key :: key in dic0 && !IsKeyOfPair(key, u) ==> key in dic && dic[key] == dic0[key]
    requires v != u && HoldsCycles(dic0, bt, window, v)
    ensures HoldsCycles(dic, bt, window, v)
  {
    forall d | 0 <= d < 7
      ensures HasCycle(dic, bt, window, v, d)
    {
      assert HasCycle(dic0, bt, window, v, d);
      if IsKeyOfPair(DiurnalKey(v, d), u) {
        var e :| 0 <= e < 7 && DiurnalKey(v, d) == DiurnalKey(u, e);
        DiurnalKeyInjective(v, d, u, e);
      }
    }
  }

  /** After storing the cycles of the `n`-th distinct pair, the cycles of all earlier pairs are
      still in place. */
  lemma AllCyclesKept(dic0: map<string, seq<Option<real>>>, dic: map<string, seq<Option<real>>>,
                      bt: seq<Observation>, window: nat, uniqueIds: seq<int>, n: nat)
    requires n < |uniqueIds| && RealTimeMassDot.NoDuplicates(uniqueIds)
    requires forall m :: 0 <= m < n ==> HoldsCycles(dic0, bt, window, uniqueIds[m])
    requires forall key :: key in dic0 && !IsKeyOfPair(key, uniqueIds[n]) ==> key in dic && dic[key] == dic0[key]
    requires HoldsCycles(dic, bt, window, uniqueIds[n])
    ensures forall m :: 0 <= m < n + 1 ==> HoldsCycles(dic, bt, window, uniqueIds[m])
  {
    forall m | 0 <= m < n
      ensures HoldsCycles(dic, bt, window, uniqueIds[m])
    {
      HoldsCyclesKept(dic0, dic, bt, window, uniqueIds[n], uniqueIds[m]);
    }
  }

  /** The inner loop of `GenerateDiurnalDic`: the cycles of pair `u` for weekdays 0 to 6 are
      stored under their keys, and every other entry is left as it was. */
  method AddPairCycles(bt: seq<Observation>, window: nat, ids: seq<int>, u: int,
                       dic0: map<string, seq<Option<real>>>)
    returns (dic: map<string, seq<Option<real>>>)
    requires window / 2 * 2 <= BucketsPerDay
    requires u in ids
    requires forall key :: key in dic0 ==> IsDiurnalKey(ids, key) && |dic0[key]| == BucketsPerDay
    ensures HoldsCycles(dic, bt, window, u)
    ensures forall key :: key in dic0 && !IsKeyOfPair(key, u) ==> key in dic && dic[key] == dic0[key]
    ensures forall key :: key in dic ==> IsDiurnalKey(ids, key) && |dic[key]| == BucketsPerDay
  {
    dic := dic0;
    for day := 0 to 7
      invariant HoldsCyclesBelow(dic, bt, window, u, day)
      invariant forall key :: key in dic0 && !IsKeyOfPair(key, u) ==> key in dic && dic[key] == dic0[key]
      invariant forall key :: key in dic ==> IsDiurnalKey(ids, key) && |dic[key]| == BucketsPerDay
    {
      var cycle := DefineDiurnalCycle(GetSubBlueToad(bt, u, day), window);
      ghost var before := dic;
      dic := dic[DiurnalKey(u, day) := cycle];
      StoreCycleStep(before, dic, bt, window, ids, u, day);
    }
  }

  /** Storing the cycle of pair `u` on weekday `day` keeps the cycles of the earlier weekdays,
      touches no key of another pair and adds only a well-formed entry. */
  lemma StoreCycleStep(dic0: map<string, seq<Option<real>>>, dic: map<string, seq<Option<real>>>,
                       bt: seq<Observation>, window: nat, ids: seq<int>, u: int, day: int)
    requires u in ids && 0 <= day < 7
    requires HoldsCyclesBelow(dic0, bt, window, u, day)
    requires forall key :: key in dic0 ==> IsDiurnalKey(ids, key) && |dic0[key]| == BucketsPerDay
    requires dic == dic0[DiurnalKey(u, day) := DiurnalCycle(GetSubBlueToad(bt, u, day), window)]
    ensures HoldsCyclesBelow(dic, bt, window, u, day + 1)
    ensures forall key :: key in dic0 && !IsKeyOfPair(key, u) ==> key in dic && dic[key] == dic0[key]
    ensures forall key :: key in dic ==> IsDiurnalKey(ids, key) && |dic[key]| == BucketsPerDay
  {
    var k := DiurnalKey(u, day);
    forall d | 0 <= d < day + 1
      ensures HasCycle(dic, bt, window, u, d)
    {
      if d < day {
        assert HasCycle(dic0, bt, window, u, d);
        if DiurnalKey(u, d) == k {
          DiurnalKeyInjective(u, d, u, day);
        }
      }
    }
    assert IsKeyOfPair(k, u);
    assert IsDiurnalKey(ids, k);
  }

  /** Python's `s[i]`, where a negative `i` counts from the end. */
  function PyAt<T>(s: seq<T>, i: int): T
    requires -|s| <= i < |s|
  {
    if i < 0 then s[|s| + i] else s[i]
  }

  /** One entry of `NormalizeTravelTime`: the travel time minus the baseline of the row's pair
      and weekday at the row's bucket. The residual and the baseline add up to the travel time;
      the residual is NaN exactly when the baseline is; it is missing (`KeyError`, `IndexError`)
      exactly for an absent key or a cycle too short for the bucket. */
  function Residual(dic: map<string, seq<Option<real>>>, row: Observation): (r: Result<Option<real>>)
    ensures r.Failure? <==>
              DiurnalKey(row.pairId, row.dayOfWeek) !in dic ||
              !(-|dic[DiurnalKey(row.pairId, row.dayOfWeek)]| <= Bucket(row.insertTime) < |dic[DiurnalKey(row.pairId, row.dayOfWeek)]|)
    ensures r.Failure? ==> r.error.KeyError? || r.error.IndexError?
    ensures r.Success? ==>
              var baseline := PyAt(dic[DiurnalKey(row.pairId, row.dayOfWeek)], Bucket(row.insertTime));
              (r.value.Some? <==> baseline.Some?) &&
              (baseline.Some? ==> r.value.value + baseline.value == row.travelTime)
  {
    var key := DiurnalKey(row.pairId, row.dayOfWeek);
    if key !in dic then Failure(KeyError(key))
    else
      var cycle := dic[key];
      var index := Bucket(row.insertTime);
      if !(-|cycle| <= index < |cycle|) then Failure(IndexError("list index out of range"))
      else
        match PyAt(cycle, index)
        case None => Success(None)
        case Some(baseline) => Success(Some(row.travelTime - baseline))
  }

  /** Against the dictionary built from the same rows every row with a weekday 0 to 6 has a
      residual: its key is there and its bucket indexes the 288-entry cycle, counting from the
      end for a negative time. */
  lemma ResidualAgainstOwnDictionary(bt: seq<Observation>, dic: map<string, seq<Option<real>>>, k: int)
    requires forall u, d :: u in PairIdsOf(bt) && 0 <= d < 7 ==>
               DiurnalKey(u, d) in dic && |dic[DiurnalKey(u, d)]| == BucketsPerDay
    requires 0 <= k < |bt| && 0 <= bt[k].dayOfWeek < 7
    ensures Residual(dic, bt[k]).Success?
  {
    assert bt[k].pairId == PairIdsOf(bt)[k];
  }

  /** `NormalizeTravelTime` (the residual column): one residual per row in row order, or the
      error of the first row whose key or bucket is missing. */
  method NormalizeTravelTime(bt: seq<Observation>, dic: map<string, seq<Option<real>>>)
    returns (r: Result<seq<Option<real>>>)
    ensures r.Success? <==> forall i :: 0 <= i < |bt| ==> Residual(dic, bt[i]).Success?
    ensures r.Success? ==> |r.value| == |bt|
    ensures r.Success? ==> forall i :: 0 <= i < |bt| ==> r.value[i] == Residual(dic, bt[i]).value
    ensures r.Failure? ==>
              exists i :: (0 <= i < |bt| && Residual(dic, bt[i]) == Failure(r.error) &&
                           forall j :: 0 <= j < i ==> Residual(dic, bt[j]).Success?)
  {
    r := ConvertEach(bt, (row: Observation) => Residual(dic, row));
  }
}

=== FILE: calendar.dfy ===
/** The calendar facts the date encoders and the weekday helper rely on: the cumulative
    month table and the hard-coded leap-year list of the source, and, as an independent
    reference, the proleptic Gregorian calendar that Python's `datetime` implements. */
module Calendar {

  /** Days in each month of a common year, January first. */
  const MonthLengths: seq<int> := [31, 28, 31, 30, 31, 30, 31, 31, 30, 31, 30, 31]

  /** The source's `np.cumsum([31, 28, ...])`: entry `k` is the number of days in
      months `1..k+1` of a common year. */
  const CumulativeDays: seq<int> := [31, 59, 90, 120, 151, 181, 212, 243, 273, 304, 334, 365]

  /** Each entry of the table adds that month's length to the previous entry. */
  lemma CumulativeDaysAreRunningSums()
    ensures |CumulativeDays| == |MonthLengths| == 12
    ensures CumulativeDays[0] == MonthLengths[0]
    ensures forall k :: 1 <= k < 12 ==> CumulativeDays[k] == CumulativeDays[k - 1] + MonthLengths[k]
  {
  }

  /** Python list indexing, where `-1` is the last element. */
  function PyIndex(t: seq<int>, i: int): int
    requires -|t| <= i < |t|
  {
    if i < 0 then t[|t| + i] else t[i]
  }

  /** The source's `[1900 + 4 * x for x in range(50)]`. */
  function Leaps(): seq<int> {
    seq(50, x => 1900 + 4 * x)
  }

  /** The list holds exactly the multiples of four from 1900 to 2096: it counts 1900
      as a leap year and knows none after 2096. */
  lemma LeapsExactly(y: int)
    ensures y in Leaps() <==> 1900 <= y <= 2096 && y % 4 == 0
  {
    if 1900 <= y <= 2096 && y % 4 == 0 {
      var x := (y - 1900) / 4;
      assert Leaps()[x] == y;
    }
  }

  predicate IsGregorianLeap(y: int) {
    y % 4 == 0 && (y % 100 != 0 || y % 400 == 0)
  }

  /** The hard-coded list agrees with the Gregorian rule from 1901 to 2096 and not in 1900. */
  lemma LeapsMatchGregorian(y: int)
    ensures 1901 <= y <= 2096 ==> (y in Leaps() <==> IsGregorianLeap(y))
    ensures 1900 in Leaps() && !IsGregorianLeap(1900)
  {
    LeapsExactly(y);
    LeapsExactly(1900);
  }

  function DaysInYear(y: int): int {
    if IsGregorianLeap(y) then 366 else 365
  }

  /** Days from 1 January of year 1 to 1 January of year `y` in the proleptic Gregorian calendar. */
  function DaysBeforeYear(y: int): int
    requires y >= 1
  {
    var p := y - 1;
    365 * p + p / 4 - p / 100 + p / 400
  }

  lemma DaysBeforeNextYear(y: int)
    requires y >= 1
    ensures DaysBeforeYear(y + 1) == DaysBeforeYear(y) + DaysInYear(y)
  {
    var p := y - 1;
    assert (p + 1) / 4 == p / 4 + (if y % 4 == 0 then 1 else 0);
    assert (p + 1) / 100 == p / 100 + (if y % 100 == 0 then 1 else 0);
    assert (p + 1) / 400 == p / 400 + (if y % 400 == 0 then 1 else 0);
  }

  /** Python's `date.toordinal()` of 1 January of year `y`: 1 January of year 1 is day 1. */
  function OrdinalOfNewYear(y: int): int
    requires y >= 1
  {
    DaysBeforeYear(y) + 1
  }

  /** The largest ordinal `datetime` accepts, that of 31 December 9999. */
  const MaxOrdinal: int := 3652059

  /** Python's `date.weekday()` of the day with ordinal `n`: Monday is 0 and Sunday 6
      (1 January of year 1 was a Monday). */
  function WeekdayOfOrdinal(n: int): (w: int)
    ensures 0 <= w < 7
  {
    (n + 6) % 7
  }

  /** Days in a month of the Gregorian calendar, the bound `datetime` enforces on the day. */
  function DaysInMonth(y: int, month: int): int
    requires 1 <= month <= 12
  {
    if month == 2 && IsGregorianLeap(y) then 29 else MonthLengths[month - 1]
  }

  /** The 0-based day of the year in the Gregorian calendar (1 January is 0). */
  function GregorianDayOfYear(y: int, month: int, day: int): int
    requires 1 <= month <= 12
  {
    (if month == 1 then 0 else CumulativeDays[month - 2])
    + (if month > 2 && IsGregorianLeap(y) then 1 else 0)
    + day - 1
  }
}

=== FILE: columns.dfy ===
/** Tables kept as Python dictionaries of column lists (`{column name: [values]}`), the shape
    every loader in the source builds before handing it to pandas. */
module Columns {

  /** One cell of a parsed table: a number `float()` accepted, an `int` the code itself
      produced, or the raw text. */
  datatype Field = Num(x: real) | Int(i: int) | Text(s: string)

  type Table = map<string, seq<Field>>

  /** `pd.DataFrame(table)` takes a dictionary of lists only when all the lists have the same
      length; otherwise it raises `ValueError` ("arrays must all be same length"). */
  predicate SameLengths(t: Table) {
    forall a, b :: a in t && b in t ==> |t[a]| == |t[b]|
  }

  /** `for c in cols: table[c] = []`: every listed column starts over empty, the others are kept. */
  function ResetColumns(t: Table, cols: seq<string>): (r: Table)
    ensures r.Keys == t.Keys + set c | c in cols
    ensures forall c :: c in cols ==> r[c] == []
    ensures forall c :: c in t && c !in cols ==> r[c] == t[c]
  {
    t + map c | c in cols :: []
  }

  /** `for v, c in zip(vals, cols): table[c].append(v)` over the first `n` pairs, in order. */
  function AppendZip(t: Table, cols: seq<string>, vals: seq<Field>, n: nat): (r: Table)
    requires n <= |cols| && n <= |vals|
    requires forall j :: 0 <= j < n ==> cols[j] in t
    ensures r.Keys == t.Keys
    decreases n
  {
    if n == 0 then t
    else
      var u := AppendZip(t, cols, vals, n - 1);
      u[cols[n - 1] := u[cols[n - 1]] + [vals[n - 1]]]
  }

  /** One more pair appends one value to its column. */
  lemma AppendZipStep(t: Table, cols: seq<string>, vals: seq<Field>, k: nat)
    requires k < |cols| && k < |vals|
    requires forall j :: 0 <= j <= k ==> cols[j] in t
    ensures cols[k] in AppendZip(t, cols, vals, k)
    ensures AppendZip(t, cols, vals, k + 1) ==
            AppendZip(t, cols, vals, k)[cols[k] := AppendZip(t, cols, vals, k)[cols[k]] + [vals[k]]]
  {
  }

  /** How many times `c` occurs in `s`. */
  function Occurrences(s: seq<string>, c: string): nat
  {
    if |s| == 0 then 0 else Occurrences(s[..|s| - 1], c) + (if s[|s| - 1] == c then 1 else 0)
  }

  /** Each column grows by exactly the number of times it is named among the zipped columns. */
  lemma {:induction false} AppendZipLength(t: Table, cols: seq<string>, vals: seq<Field>, n: nat, c: string)
    requires n <= |cols| && n <= |vals|
    requires forall j :: 0 <= j < n ==> cols[j] in t
    requires c in t
    ensures |AppendZip(t, cols, vals, n)[c]| == |t[c]| + Occurrences(cols[..n], c)
    decreases n
  {
    if n > 0 {
      AppendZipLength(t, cols, vals, n - 1, c);
      AppendZipAt(t, cols, vals, n - 1, c);
      assert cols[..n][..n - 1] == cols[..n - 1];
      assert Occurrences(cols[..n], c) == Occurrences(cols[..n - 1], c) + (if cols[n - 1] == c then 1 else 0);
    }
  }

  predicate Distinct(s: seq<string>) {
    forall i, j :: 0 <= i < j < |s| ==> s[i] != s[j]
  }

  /** The first `n` names are pairwise different. */
  predicate DistinctPrefix(s: seq<string>, n: nat) {
    forall i, j :: 0 <= i < j < n && j < |s| ==> s[i] != s[j]
  }

  /** With distinct column names, column `cols[j]` receives exactly the value `vals[j]`. */
  lemma AppendZipDistinct(t: Table, cols: seq<string>, vals: seq<Field>, n: nat)
    requires n <= |cols| && n <= |vals|
    requires forall j :: 0 <= j < n ==> cols[j] in t
    requires DistinctPrefix(cols, n)
    ensures forall j :: 0 <= j < n ==> AppendZip(t, cols, vals, n)[cols[j]] == t[cols[j]] + [vals[j]]
  {
    forall j | 0 <= j < n
      ensures AppendZip(t, cols, vals, n)[cols[j]] == t[cols[j]] + [vals[j]]
    {
      AppendZipColumn(t, cols, vals, n, j);
    }
  }

  /** One more step of `AppendZip`, read at a single column. */
  lemma AppendZipAt(t: Table, cols: seq<string>, vals: seq<Field>, k: nat, c: string)
    requires k < |cols| && k < |vals|
    requires forall j :: 0 <= j <= k ==> cols[j] in t
    requires c in t
    ensures c in AppendZip(t, cols, vals, k)
    ensures AppendZip(t, cols, vals, k + 1)[c] ==
            if c == cols[k] then AppendZip(t, cols, vals, k)[c] + [vals[k]] else AppendZip(t, cols, vals, k)[c]
  {
  }

  /** A column none of the first `n` names mention keeps its values. */
  lemma {:induction false} AppendZipUntouched(t: Table, cols: seq<string>, vals: seq<Field>, n: nat, c: string)
    requires n <= |cols| && n <= |vals|
    requires forall k :: 0 <= k < n ==> cols[k] in t
    requires c in t && forall k :: 0 <= k < n ==> cols[k] != c
    ensures AppendZip(t, cols, vals, n)[c] == t[c]
    decreases n
  {
    if n > 0 {
      AppendZipUntouched(t, cols, vals, n - 1, c);
      AppendZipAt(t, cols, vals, n - 1, c);
    }
  }

  /** A name not among the ones before it receives its own value. */
  lemma AppendZipLast(t: Table, cols: seq<string>, vals: seq<Field>, k: nat)
    requires k < |cols| && k < |vals|
    requires forall j :: 0 <= j <= k ==> cols[j] in t
    requires forall j :: 0 <= j < k ==> cols[j] != cols[k]
    ensures AppendZip(t, cols, vals, k + 1)[cols[k]] == t[cols[k]] + [vals[k]]
  {
    AppendZipUntouched(t, cols, vals, k, cols[k]);
    AppendZipAt(t, cols, vals, k, cols[k]);
  }

  /** Columns outside the first `n` names are left as they were. */
  lemma AppendZipOthers(t: Table, cols: seq<string>, vals: seq<Field>, n: nat)
    requires n <= |cols| && n <= |vals|
    requires forall k :: 0 <= k < n ==> cols[k] in t
    ensures forall c :: c in t && c !in cols[..n] ==> AppendZip(t, cols, vals, n)[c] == t[c]
  {
    forall c | c in t && c !in cols[..n]
      ensures AppendZip(t, cols, vals, n)[c] == t[c]
    {
      forall k | 0 <= k < n
        ensures cols[k] != c
      {
        assert cols[..n][k] == cols[k];
      }
      AppendZipUntouched(t, cols, vals, n, c);
    }
  }

  lemma {:induction false} AppendZipColumn(t: Table, cols: seq<string>, vals: seq<Field>, n: nat, j: nat)
    requires j < n <= |cols| && n <= |vals|
    requires forall k :: 0 <= k < n ==> cols[k] in t
    requires DistinctPrefix(cols, n)
    ensures AppendZip(t, cols, vals, n)[cols[j]] == t[cols[j]] + [vals[j]]
    decreases n
  {
    if j == n - 1 {
      assert forall k :: 0 <= k < n - 1 ==> cols[k] != cols[j];
      AppendZipLast(t, cols, vals, n - 1);
    } else {
      assert DistinctPrefix(cols, n - 1);
      AppendZipColumn(t, cols, vals, n - 1, j);
      AppendZipAt(t, cols, vals, n - 1, cols[j]);
    }
  }
}

=== FILE: massdot_data.dfy ===
/** MassDotDataTypes.py: the BlueToad timestamp encoders (`SlashDateToNumerical`,
    `ColonTimeToDecimal`, the insert-time loop of `GetBlueToad`), the row parse of
    `GetRoadVolume_Historical` and the `\N` filter of `CleanBlueToad`. */
module MassDotData {
  import opened Wrappers
  import opened Text
  import opened Columns
  import Calendar
  import Numeric
  import NcdcWeather

  // ---------------------------------------------------------------------------------
  // Dates

  /** What `SlashDateToNumerical` returns: the `YYYYDOY` integer, or the argument itself
      when it contains neither `/` nor `-`. */
  datatype DateNum = DayNumber(n: int) | Verbatim(text: string)

  /** Python's `int(s)`, raising `ValueError` on text it refuses. */
  function IntOf(s: string): (r: Result<int>)
    ensures r.Success? <==> ParseInt(s).Some?
    ensures r.Failure? ==> r.error.ValueError?
    ensures r.Success? ==> r.value == ParseInt(s).value
  {
    match ParseInt(s)
    case Some(i) => Success(i)
    case None => Failure(ValueError("invalid literal for int(): " + s))
  }

  /** Python's `float(s)`, raising `ValueError` on text it refuses. */
  function FloatOf(s: string): (r: Result<real>)
    ensures r.Success? <==> ParseDecimal(s).Some?
    ensures r.Failure? ==> r.error.ValueError?
    ensures r.Success? ==> r.value == ParseDecimal(s).value
  {
    match ParseDecimal(s)
    case Some(x) => Success(x)
    case None => Failure(ValueError("could not convert string to float: " + s))
  }

  /** `int(s)` succeeds exactly when the text, stripped of whitespace, is an optional sign
      followed by decimal digits. */
  lemma IntOfAccepts(s: string)
    ensures IntOf(s).Success? <==> IntLiteral(Strip(s))
  {
  }

  /** `int(str(n)) == n` for every integer. */
  lemma IntOfString(n: int)
    ensures IntOf(IntToString(n)) == Success(n)
  {
    ParseIntOfString(n);
  }

  /** Whitespace around a field changes neither whether `int()` accepts it nor its value. */
  lemma IntOfPadded(a: string, s: string, b: string)
    requires AllSpace(a) && AllSpace(b)
    ensures IntOf(a + s + b).Success? <==> IntOf(s).Success?
    ensures IntOf(s).Success? ==> IntOf(a + s + b).value == IntOf(s).value
  {
    StripPadded(a, s, b);
  }

  /** Whitespace around a field changes neither whether `float()` accepts it nor its value. */
  lemma FloatOfPadded(a: string, s: string, b: string)
    requires AllSpace(a) && AllSpace(b)
    ensures FloatOf(a + s + b).Success? <==> FloatOf(s).Success?
    ensures FloatOf(s).Success? ==> FloatOf(a + s + b).value == FloatOf(s).value
  {
    StripPadded(a, s, b);
  }

  /** `float("a.b")` is `a + b / 10^|b|` (`PointValue`) and `float("-a.b")` its negation, for digit strings
      `a` and `b` not both empty. */
  lemma FloatOfPoint(a: string, b: string)
    requires AllDigits(a) && AllDigits(b) && |a| + |b| >= 1
    ensures FloatOf(a + "." + b) == Success(PointValue(a, b))
    ensures FloatOf("-" + a + "." + b) == Success(-PointValue(a, b))
  {
    ParseDecimalOfPoint(a, b);
    FloatOfDecimal(a + "." + b, PointValue(a, b));
    FloatOfDecimal("-" + a + "." + b, -PointValue(a, b));
  }

  lemma FloatOfDecimal(s: string, x: real)
    requires ParseDecimal(s) == Some(x)
    ensures FloatOf(s) == Success(x)
  {
  }

  /** `float()` of a run of digits is its decimal value. */
  lemma FloatOfDigits(s: string)
    requires |s| >= 1 && AllDigits(s)
    ensures FloatOf(s) == Success(DigitsValue(s) as real)
  {
    StripDigits(s);
    ParseDecimalUnsigned(s);
    UnsignedDigits(s);
  }

  /** The day count `DOY` before the final adjustment: a month spelled `1` or `01` is January;
      every other spelling indexes the cumulative table at `int(month) - 2`, Python style, so an
      index outside `-12..11` raises `IndexError`. */
  function DayCount(month: string, day: string): (r: Result<int>)
    ensures r.Success? ==> IntOf(day).Success?
    ensures r.Failure? ==>
              r.error.ValueError? ||
              (r.error.IndexError? && IntOf(month).Success? && !(-10 <= IntOf(month).value < 14))
  {
    if month == "1" || month == "01" then IntOf(day)
    else
      var m :- IntOf(month);
      if -12 <= m - 2 < 12 then
        var d :- IntOf(day);
        Success(Calendar.PyIndex(Calendar.CumulativeDays, m - 2) + d)
      else Failure(IndexError("index out of bounds"))
  }

  /** The tail of `SlashDateToNumerical` once the three fields are known. */
  function DateFromParts(year: string, month: string, day: string): (r: Result<DateNum>)
    ensures r.Success? ==> r.value.DayNumber?
  {
    var doy :- DayCount(month, day);
    var y :- IntOf(year);
    if y in Calendar.Leaps() then
      var m :- IntOf(month);
      if m > 2 then Success(DayNumber(y * 1000 + doy)) else Success(DayNumber(y * 1000 + doy - 1))
    else Success(DayNumber(y * 1000 + doy - 1))
  }

  /** `SlashDateToNumerical(date, days_in_month, leap_years)`: `MM/DD/YYYY` or `YYYY-MM-DD` to
      `YYYYDOY`; a split that does not give three fields fails to unpack (`ValueError`). */
  function SlashDateToNumerical(date: string): (r: Result<DateNum>)
    ensures '/' !in date && '-' !in date ==> r == Success(Verbatim(date))
    ensures r.Success? && r.value.Verbatim? ==> '/' !in date && '-' !in date && r.value.text == date
  {
    if '/' in date then
      var p := Split(date, '/');
      if |p| == 3 then DateFromParts(p[2], p[0], p[1]) else Failure(ValueError("wrong number of values to unpack"))
    else if '-' in date then
      var p := Split(date, '-');
      if |p| == 3 then DateFromParts(p[0], p[1], p[2]) else Failure(ValueError("wrong number of values to unpack"))
    else Success(Verbatim(date))
  }

  /** Both January spellings the code tests for read as month 1. */
  lemma JanuarySpellings()
    ensures ParseInt("1") == Some(1)
    ensures ParseInt("01") == Some(1)
  {
    OneSpelling();
    ZeroOneSpelling();
  }

  lemma OneSpelling()
    ensures ParseInt("1") == Some(1)
  {
    assert AllDigits("1");
    ParseIntDigits("1");
    assert DigitsValue("1") == 1 by {
      assert "1"[..0] == "";
    }
  }

  lemma ZeroOneSpelling()
    ensures ParseInt("01") == Some(1)
  {
    assert AllDigits("01");
    ParseIntDigits("01");
    assert DigitsValue("01") == 1 by {
      assert "01"[..1] == "0";
      assert "0"[..0] == "";
    }
  }

  /** For fields that read as a real month, the result is `year*1000` plus exactly the day of
      the year `ConvertWeatherDate` computes for the same fields, and so the Gregorian day of the
      year (1 January is 0) from 1901 to 2096 - provided January is spelled `1` or `01`. */
  lemma DateFromPartsValue(year: string, month: string, day: string, y: int, m: int, d: int)
    requires ParseInt(year) == Some(y) && ParseInt(month) == Some(m) && ParseInt(day) == Some(d)
    requires 1 <= m <= 12
    requires m == 1 ==> month == "1" || month == "01"
    ensures DateFromParts(year, month, day) == Success(DayNumber(y * 1000 + NcdcWeather.WeatherDayOfYear(y, m, d)))
    ensures 1901 <= y <= 2096 ==>
              DateFromParts(year, month, day) == Success(DayNumber(y * 1000 + Calendar.GregorianDayOfYear(y, m, d)))
  {
    DayCountValue(month, day, m, d);
    assert IntOf(year) == Success(y);
    assert IntOf(month) == Success(m);
    NcdcWeather.WeatherDayOfYearIsGregorian(y, m, d);
  }

  /** `DOY` is the day of the month plus the table entry of the month before. */
  lemma DayCountValue(month: string, day: string, m: int, d: int)
    requires ParseInt(month) == Some(m) && ParseInt(day) == Some(d)
    requires 1 <= m <= 12
    requires m == 1 ==> month == "1" || month == "01"
    ensures DayCount(month, day) == Success((if m == 1 then 0 else Calendar.CumulativeDays[m - 2]) + d)
  {
    assert IntOf(day) == Success(d);
    if month == "1" || month == "01" {
      JanuarySpellings();
      assert m == 1;
    } else {
      assert IntOf(month) == Success(m);
      assert m != 1;
    }
  }

  /** A month that reads as 1 but is spelled otherwise (`001`, ` 1`) misses the January test and
      indexes the table at -1, its last entry: the date lands 365 days late. */
  lemma OddJanuarySpelling(year: string, month: string, day: string, y: int, d: int)
    requires ParseInt(year) == Some(y) && ParseInt(month) == Some(1) && ParseInt(day) == Some(d)
    requires month != "1" && month != "01"
    ensures DateFromParts(year, month, day) == Success(DayNumber(y * 1000 + 365 + d - 1))
  {
  }

  /** The `MM/DD/YYYY` and `YYYY-MM-DD` spellings of one date give the same result. */
  lemma SpellingsAgree(year: string, month: string, day: string)
    requires '/' !in year && '/' !in month && '/' !in day
    requires '-' !in year && '-' !in month && '-' !in day
    ensures SlashDateToNumerical(month + "/" + day + "/" + year) == SlashDateToNumerical(year + "-" + month + "-" + day)
    ensures SlashDateToNumerical(month + "/" + day + "/" + year) == DateFromParts(year, month, day)
  {
    var slash := month + "/" + day + "/" + year;
    var dash := year + "-" + month + "-" + day;
    assert slash == month + ['/'] + day + ['/'] + year;
    assert dash == year + ['-'] + month + ['-'] + day;
    SplitThree(month, day, year, '/');
    SplitThree(year, month, day, '-');
    assert slash[|month|] == '/';
    assert dash[|year|] == '-';
  }

  /** 1 January of any year is day 0: `year*1000`. */
  lemma NewYearIsDayZero(year: string, month: string, day: string, y: int)
    requires ParseInt(year) == Some(y) && ParseInt(day) == Some(1)
    requires month == "1" || month == "01"
    ensures DateFromParts(year, month, day) == Success(DayNumber(y * 1000))
  {
    JanuarySpellings();
    DateFromPartsValue(year, month, day, y, 1, 1);
  }

  /** Within one month, the next day's field gives the next number. */
  lemma NextDayAddsOne(year: string, month: string, day: string, nextDay: string, y: int, m: int, d: int)
    requires ParseInt(year) == Some(y) && ParseInt(month) == Some(m)
    requires ParseInt(day) == Some(d) && ParseInt(nextDay) == Some(d + 1)
    requires 1 <= m <= 12
    requires m == 1 ==> month == "1" || month == "01"
    ensures DateFromParts(year, month, day).Success? && DateFromParts(year, month, nextDay).Success?
    ensures DateFromParts(year, month, nextDay).value.n == DateFromParts(year, month, day).value.n + 1
  {
    DateFromPartsValue(year, month, day, y, m, d);
    DateFromPartsValue(year, month, nextDay, y, m, d + 1);
  }

  /** The day of the year a common year gives a month and day, January 1 being 0. */
  function CommonDayOfYear(m: int, d: int): int
    requires 1 <= m <= 12
  {
    (if m == 1 then 0 else Calendar.CumulativeDays[m - 2]) + d - 1
  }

  /** In a year on the hard-coded list (1900, 1904, ..., 2096), every date from March on is one
      more than the common-year number; all other dates are the common-year number. */
  lemma LeapListAddsOne(year: string, month: string, day: string, y: int, m: int, d: int)
    requires ParseInt(year) == Some(y) && ParseInt(month) == Some(m) && ParseInt(day) == Some(d)
    requires 1 <= m <= 12
    requires m == 1 ==> month == "1" || month == "01"
    ensures var r := DateFromParts(year, month, day);
            r.Success? && r.value.DayNumber? &&
            r.value.n == y * 1000 + CommonDayOfYear(m, d) + (if y in Calendar.Leaps() && m > 2 then 1 else 0)
  {
    DateFromPartsValue(year, month, day, y, m, d);
  }

  // ---------------------------------------------------------------------------------
  // Clock times

  /** `ColonTimeToDecimal(time)`: `HH:MM[:SS]` as a fraction of a day; any other number of
      fields fails to unpack, and a field `float()` refuses raises `ValueError`. */
  function ColonTimeToDecimal(time: string): (r: Result<real>)
    ensures |Split(time, ':')| != 2 && |Split(time, ':')| != 3 ==> r.Failure?
  {
    var p := Split(time, ':');
    if |p| != 2 && |p| != 3 then Failure(ValueError("wrong number of values to unpack"))
    else
      var second := if |p| == 2 then "0" else p[2];
      var h :- FloatOf(p[0]);
      var m :- FloatOf(p[1]);
      var s :- FloatOf(second);
      Success(h / 24.0 + m / 60.0 / 24.0 + s / 60.0 / 60.0 / 24.0)
  }

  lemma ZeroSpellings()
    ensures ParseDecimal("0") == Some(0.0)
    ensures ParseDecimal("00") == Some(0.0)
  {
    ZeroSpelling();
    DoubleZeroSpelling();
  }

  lemma ZeroSpelling()
    ensures ParseDecimal("0") == Some(0.0)
  {
    assert Strip("0") == "0" by {
      StripDigits("0");
    }
    assert "0"[0] == '0';
    ParseDecimalUnsigned("0");
    assert ParseUnsignedDecimal("0") == Some(0.0) by {
      UnsignedDigits("0");
      assert DigitsValue("0") == 0 by {
        assert "0"[..0] == "";
      }
    }
  }

  lemma DoubleZeroSpelling()
    ensures ParseDecimal("00") == Some(0.0)
  {
    assert Strip("00") == "00" by {
      StripDigits("00");
    }
    assert "00"[0] == '0';
    ParseDecimalUnsigned("00");
    assert ParseUnsignedDecimal("00") == Some(0.0) by {
      UnsignedDigits("00");
      assert DigitsValue("00") == 0 by {
        assert "00"[..1] == "0";
        assert "0"[..0] == "";
      }
    }
  }

  /** `HH:MM:SS` is `h/24 + m/1440 + s/86400`, and `HH:MM` is the same with no seconds. */
  lemma ColonTimeValue(hh: string, mm: string, ss: string, h: real, m: real, s: real)
    requires ':' !in hh && ':' !in mm && ':' !in ss
    requires ParseDecimal(hh) == Some(h) && ParseDecimal(mm) == Some(m) && ParseDecimal(ss) == Some(s)
    ensures ColonTimeToDecimal(hh + ":" + mm + ":" + ss) == Success(h / 24.0 + m / 1440.0 + s / 86400.0)
    ensures ColonTimeToDecimal(hh + ":" + mm) == Success(h / 24.0 + m / 1440.0)
  {
    ColonTimeOfThreeFields(hh, mm, ss, h, m, s);
    ColonTimeOfTwoFields(hh, mm, h, m);
  }

  lemma ColonTimeOfThreeFields(hh: string, mm: string, ss: string, h: real, m: real, s: real)
    requires ':' !in hh && ':' !in mm && ':' !in ss
    requires ParseDecimal(hh) == Some(h) && ParseDecimal(mm) == Some(m) && ParseDecimal(ss) == Some(s)
    ensures ColonTimeToDecimal(hh + ":" + mm + ":" + ss) == Success(h / 24.0 + m / 1440.0 + s / 86400.0)
  {
    var long := hh + ":" + mm + ":" + ss;
    assert Split(long, ':') == [hh, mm, ss] by {
      assert long == hh + [':'] + mm + [':'] + ss;
      SplitThree(hh, mm, ss, ':');
    }
    ColonTimeOfFields(long, hh, mm, ss, h, m, s);
  }

  lemma ColonTimeOfTwoFields(hh: string, mm: string, h: real, m: real)
    requires ':' !in hh && ':' !in mm
    requires ParseDecimal(hh) == Some(h) && ParseDecimal(mm) == Some(m)
    ensures ColonTimeToDecimal(hh + ":" + mm) == Success(h / 24.0 + m / 1440.0)
  {
    var short := hh + ":" + mm;
    assert Split(short, ':') == [hh, mm] by {
      assert short == hh + [':'] + mm;
      SplitTwo(hh, mm, ':');
    }
    assert FloatOf("0") == Success(0.0) by {
      ZeroSpelling();
    }
    ColonTimeOfFields(short, hh, mm, "0", h, m, 0.0);
  }

  /** The value once the split and the three `float()` calls are known. */
  lemma ColonTimeOfFields(time: string, hh: string, mm: string, ss: string, h: real, m: real, s: real)
    requires Split(time, ':') == [hh, mm, ss] || (Split(time, ':') == [hh, mm] && ss == "0")
    requires FloatOf(hh) == Success(h) && FloatOf(mm) == Success(m) && FloatOf(ss) == Success(s)
    ensures ColonTimeToDecimal(time) == Success(h / 24.0 + m / 1440.0 + s / 86400.0)
  {
    assert m / 60.0 / 24.0 == m / 1440.0;
    assert s / 60.0 / 60.0 / 24.0 == s / 86400.0;
  }

  /** A missing seconds field is the same as `:00`. */
  lemma HourMinuteIsZeroSeconds(hh: string, mm: string)
    requires ':' !in hh && ':' !in mm
    ensures ColonTimeToDecimal(hh + ":" + mm) == ColonTimeToDecimal(hh + ":" + mm + ":00")
  {
    assert hh + ":" + mm + ":00" == hh + [':'] + mm + [':'] + "00";
    assert hh + ":" + mm == hh + [':'] + mm;
    assert ':' !in "00";
    SplitThree(hh, mm, "00", ':');
    SplitTwo(hh, mm, ':');
    ZeroSpellings();
    assert FloatOf("0") == FloatOf("00");
    SameFieldsSameTime(hh + ":" + mm, hh + ":" + mm + ":00", hh, mm, "0", "00");
  }

  /** Two clock strings whose fields `float()` reads alike give the same result, error or value. */
  lemma SameFieldsSameTime(t1: string, t2: string, hh: string, mm: string, s1: string, s2: string)
    requires Split(t1, ':') == [hh, mm] && s1 == "0"
    requires Split(t2, ':') == [hh, mm, s2]
    requires FloatOf(s1) == FloatOf(s2) && FloatOf(s1).Success?
    ensures ColonTimeToDecimal(t1) == ColonTimeToDecimal(t2)
  {
  }

  /** A clock reading with `0 <= h <= 23`, `0 <= m <= 59` and `0 <= s < 60` is a fraction in `[0, 1)`. */
  lemma ColonTimeRange(hh: string, mm: string, ss: string, h: real, m: real, s: real)
    requires ':' !in hh && ':' !in mm && ':' !in ss
    requires ParseDecimal(hh) == Some(h) && ParseDecimal(mm) == Some(m) && ParseDecimal(ss) == Some(s)
    requires 0.0 <= h <= 23.0 && 0.0 <= m <= 59.0 && 0.0 <= s < 60.0
    ensures var r := ColonTimeToDecimal(hh + ":" + mm + ":" + ss);
            r.Success? && 0.0 <= r.value < 1.0
  {
    ColonTimeValue(hh, mm, ss, h, m, s);
  }

  /** The result is the day fraction of the `datetime` with the same clock fields. */
  lemma ColonTimeIsDayFraction(hh: string, mm: string, ss: string, t: NcdcWeather.DateTime)
    requires ':' !in hh && ':' !in mm && ':' !in ss
    requires ParseDecimal(hh) == Some(t.hour as real) && ParseDecimal(mm) == Some(t.minute as real)
    requires ParseDecimal(ss) == Some(t.second as real)
    ensures ColonTimeToDecimal(hh + ":" + mm + ":" + ss) == Success(NcdcWeather.DayFraction(t))
  {
    var h, m, s := t.hour as real, t.minute as real, t.second as real;
    calc {
      ColonTimeToDecimal(hh + ":" + mm + ":" + ss);
      == { ColonTimeOfThreeFields(hh, mm, ss, h, m, s); }
      Success(h / 24.0 + m / 1440.0 + s / 86400.0);
      ==
      Success(NcdcWeather.DayFraction(t));
    }
  }

  // ---------------------------------------------------------------------------------
  // BlueToad insert times

  /** One `insert_time` of `GetBlueToad`: `"date time"` split on the space, the date number plus
      the clock fraction, rounded to the nearest 288th of a day. A date returned verbatim cannot be
      added to a float (`TypeError`). */
  function ConvertInsertTime(insertTime: string): (r: Result<real>)
    ensures r.Success? ==> NcdcWeather.OnGrid(r.value, 288)
  {
    var p := Split(insertTime, ' ');
    if |p| != 2 then Failure(ValueError("wrong number of values to unpack"))
    else
      var date :- SlashDateToNumerical(p[0]);
      var time :- ColonTimeToDecimal(p[1]);
      AddClock(date, time)
  }

  /** `RoundToNearestNth(date + time, 288, 3)` once both halves are parsed; a date returned as
      text cannot be added to a number. */
  function AddClock(date: DateNum, time: real): (r: Result<real>)
    ensures r.Success? ==> NcdcWeather.OnGrid(r.value, 288)
  {
    match date
    case DayNumber(n) =>
      NcdcWeather.RoundToNearestNthOnGrid(n as real + time, 288);
      Success(NcdcWeather.RoundToNearestNth(n as real + time, 288))
    case Verbatim(_) => Failure(TypeError("unsupported operand types for +: 'str' and 'float'"))
  }

  /** A well-formed `"date time"` is the date's `YYYYDOY` plus the clock fraction, rounded to the
      nearest 288th of a day (`NcdcWeather.FiveMinuteSteps` gives the value as `YYYYDOY + k/288`). */
  lemma InsertTimeValue(date: string, clock: string, n: int, f: real)
    requires ' ' !in date && ' ' !in clock
    requires SlashDateToNumerical(date) == Success(DayNumber(n))
    requires ColonTimeToDecimal(clock) == Success(f)
    ensures ConvertInsertTime(date + " " + clock) == Success(NcdcWeather.RoundToNearestNth(n as real + f, 288))
  {
    assert Split(date + " " + clock, ' ') == [date, clock] by {
      assert date + " " + clock == date + [' '] + clock;
      SplitTwo(date, clock, ' ');
    }
    InsertTimeOfParts(date + " " + clock, date, clock, n, f);
  }

  lemma InsertTimeOfParts(insertTime: string, date: string, clock: string, n: int, f: real)
    requires Split(insertTime, ' ') == [date, clock]
    requires SlashDateToNumerical(date) == Success(DayNumber(n))
    requires ColonTimeToDecimal(clock) == Success(f)
    ensures ConvertInsertTime(insertTime) == Success(NcdcWeather.RoundToNearestNth(n as real + f, 288))
  {
    var p := Split(insertTime, ' ');
    assert p[0] == date && p[1] == clock;
    AddClockOfDayNumber(n, f);
  }

  lemma AddClockOfDayNumber(n: int, time: real)
    ensures AddClock(DayNumber(n), time) == Success(NcdcWeather.RoundToNearestNth(n as real + time, 288))
  {
  }

  /** A date returned verbatim cannot be added to the clock fraction. */
  lemma InsertTimeWithoutDate(date: string, clock: string, f: real)
    requires ' ' !in date && ' ' !in clock && '/' !in date && '-' !in date
    requires ColonTimeToDecimal(clock) == Success(f)
    ensures ConvertInsertTime(date + " " + clock).Failure?
    ensures ConvertInsertTime(date + " " + clock).error.TypeError?
  {
    assert Split(date + " " + clock, ' ') == [date, clock] by {
      assert date + " " + clock == date + [' '] + clock;
      SplitTwo(date, clock, ' ');
    }
    VerbatimDateOfParts(date + " " + clock, date, clock, f);
  }

  lemma VerbatimDateOfParts(insertTime: string, date: string, clock: string, f: real)
    requires Split(insertTime, ' ') == [date, clock]
    requires SlashDateToNumerical(date) == Success(Verbatim(date))
    requires ColonTimeToDecimal(clock) == Success(f)
    ensures ConvertInsertTime(insertTime).Failure? && ConvertInsertTime(insertTime).error.TypeError?
  {
  }

  /** The loop `for i in BlueToad_df.insert_time: ... cleaned_dates.append(num_date)`: one value per
      row in row order, or the first row's exception. */
  method ConvertInsertTimes(insertTimes: seq<string>) returns (r: Result<seq<real>>)
    ensures r.Success? <==> forall i :: 0 <= i < |insertTimes| ==> ConvertInsertTime(insertTimes[i]).Success?
    ensures r.Success? ==> |r.value| == |insertTimes|
    ensures r.Success? ==>
              forall i :: 0 <= i < |insertTimes| ==> r.value[i] == ConvertInsertTime(insertTimes[i]).value
    ensures r.Failure? ==>
              exists i :: (0 <= i < |insertTimes| && ConvertInsertTime(insertTimes[i]) == Failure(r.error) &&
                           forall j :: 0 <= j < i ==> ConvertInsertTime(insertTimes[j]).Success?)
  {
    r := ConvertEach(insertTimes, ConvertInsertTime);
  }

  // ---------------------------------------------------------------------------------
  // Historical road volumes

  /** `type_dict` of `GetRoadVolume_Historical`. */
  const RoadVolumeTypes: map<string, string> := map[
    "Loc ID" := "int", "County" := "str", "Community" := "str", "On" := "str",
    "From" := "str", "To" := "str", "Approach" := "str", "At" := "str",
    "Dir" := "float", "Latitude" := "float", "Longitude" := "float",
    "Latest" := "int", "Latest_Date" := "int"]

  /** The cell one field of a data line becomes: the column's type is looked up first (`KeyError`
      for an unknown column), a blank field becomes `"no_data"` or `-999` by that type, a field of
      a column whose name contains `Date` goes through `SlashDateToNumerical`, and anything else is
      kept as text. */
  function RoadVolumeCell(col: string, val: string): (r: Result<Field>)
    ensures col !in RoadVolumeTypes ==> r == Failure(KeyError(col))
    ensures col in RoadVolumeTypes && val == "" ==>
              r == Success(if RoadVolumeTypes[col] == "str" then Text("no_data") else Int(-999))
    ensures col in RoadVolumeTypes && val != "" && !Contains(col, "Date") ==> r == Success(Text(val))
    ensures col in RoadVolumeTypes && val != "" && Contains(col, "Date") ==>
              match SlashDateToNumerical(val)
              case Success(DayNumber(n)) => r == Success(Int(n))
              case Success(Verbatim(t)) => r == Success(Text(t))
              case Failure(e) => r == Failure(e)
  {
    if col !in RoadVolumeTypes then Failure(KeyError(col))
    else if val == "" then Success(if RoadVolumeTypes[col] == "str" then Text("no_data") else Int(-999))
    else if Contains(col, "Date") then
      var d :- SlashDateToNumerical(val);
      match d
      case DayNumber(n) => Success(Int(n))
      case Verbatim(t) => Success(Text(t))
    else Success(Text(val))
  }

  /** Even the date column gets the numeric default when its field is blank. */
  lemma BlankDateIsMinus999()
    ensures RoadVolumeCell("Latest_Date", "") == Success(Int(-999))
    ensures RoadVolumeCell("County", "") == Success(Text("no_data"))
  {
  }

  /** What each of the first `n` fields converts to, or raises, on its own. */
  function FieldResults(cols: seq<string>, fields: seq<string>, n: nat): (rs: seq<Result<Field>>)
    requires n <= |cols| && n <= |fields|
    ensures |rs| == n
    ensures forall j :: 0 <= j < n ==> rs[j] == RoadVolumeCell(cols[j], fields[j])
  {
    seq(n, j requires 0 <= j < n && n <= |cols| && n <= |fields| => RoadVolumeCell(cols[j], fields[j]))
  }

  /** The cells of the first `n` fields, or the exception of the first field that raises. */
  function RowCells(cols: seq<string>, fields: seq<string>, n: nat): (r: Result<seq<Field>>)
    requires n <= |cols| && n <= |fields|
    ensures r.Success? ==> |r.value| == n
  {
    Collect(FieldResults(cols, fields, n))
  }

  /** The row converts exactly when every field does; its cells are the fields' cells in order,
      and otherwise the exception is that of the first field that raises. */
  lemma RowCellsMeaning(cols: seq<string>, fields: seq<string>, n: nat)
    requires n <= |cols| && n <= |fields|
    ensures var r := RowCells(cols, fields, n);
            && (r.Success? <==> forall j :: 0 <= j < n ==> RoadVolumeCell(cols[j], fields[j]).Success?)
            && (r.Success? ==> forall j :: 0 <= j < n ==> r.value[j] == RoadVolumeCell(cols[j], fields[j]).value)
            && (r.Failure? ==>
                  exists j :: (0 <= j < n && RoadVolumeCell(cols[j], fields[j]) == Failure(r.error) &&
                               forall i :: 0 <= i < j ==> RoadVolumeCell(cols[i], fields[i]).Success?))
  {
    var rs := FieldResults(cols, fields, n);
    CollectSuccess(rs);
    if Collect(rs).Failure? {
      CollectFirstFailure(rs);
    }
  }

  /** Converting one more field of a row. */
  lemma RowCellsSnoc(cols: seq<string>, fields: seq<string>, k: nat)
    requires k < |cols| && k < |fields|
    ensures var cell := RoadVolumeCell(cols[k], fields[k]);
            var prev := RowCells(cols, fields, k);
            && (prev.Failure? ==> RowCells(cols, fields, k + 1) == prev)
            && (prev.Success? && cell.Failure? ==> RowCells(cols, fields, k + 1) == Failure(cell.error))
            && (prev.Success? && cell.Success? ==> RowCells(cols, fields, k + 1) == Success(prev.value + [cell.value]))
  {
    assert FieldResults(cols, fields, k + 1) == FieldResults(cols, fields, k) + [RoadVolumeCell(cols[k], fields[k])];
    CollectSnoc(FieldResults(cols, fields, k), RoadVolumeCell(cols[k], fields[k]));
  }

  /** Once a field raises, every longer row raises the same exception. */
  lemma RowCellsFailurePersists(cols: seq<string>, fields: seq<string>, k: nat, n: nat)
    requires k <= n <= |cols| && n <= |fields|
    requires RowCells(cols, fields, k).Failure?
    ensures RowCells(cols, fields, n) == RowCells(cols, fields, k)
  {
    assert FieldResults(cols, fields, n)[..k] == FieldResults(cols, fields, k);
    CollectFailurePersists(FieldResults(cols, fields, n), k);
  }

  /** The table after the data lines, or the first exception; every key keeps its place. */
  function RoadVolumeRows(t: Table, cols: seq<string>, lines: seq<string>): (r: Result<Table>)
    requires forall c :: c in cols ==> c in t
    ensures r.Success? ==> r.value.Keys == t.Keys
    decreases |lines|
  {
    if |lines| == 0 then Success(t)
    else
      var prev :- RoadVolumeRows(t, cols, lines[..|lines| - 1]);
      var fields := Split(Strip(lines[|lines| - 1]), ',');
      var n := NcdcWeather.Min(|fields|, |cols|);
      var cells :- RowCells(cols, fields, n);
      Success(AppendZip(prev, cols, cells, n))
  }

  /** Once a line raises, reading more lines raises the same exception. */
  lemma {:induction false} RoadVolumeRowsFailurePersists(t: Table, cols: seq<string>, lines: seq<string>, i: nat)
    requires forall c :: c in cols ==> c in t
    requires i <= |lines| && RoadVolumeRows(t, cols, lines[..i]).Failure?
    ensures RoadVolumeRows(t, cols, lines) == RoadVolumeRows(t, cols, lines[..i])
    decreases |lines|
  {
    if i < |lines| {
      assert lines[..|lines| - 1][..i] == lines[..i];
      RoadVolumeRowsFailurePersists(t, cols, lines[..|lines| - 1], i);
    } else {
      assert lines[..i] == lines;
    }
  }

  /** The dictionary `GetRoadVolume_Historical` builds: the header line names the columns, each
      later line adds one cell to each of the first `min(#fields, #columns)` columns. An empty file
      has no `f[0]` (`IndexError`). */
  function RoadVolumeTable(lines: seq<string>): (r: Result<Table>)
    ensures |lines| == 0 ==> r.Failure? && r.error.IndexError?
    ensures r.Success? ==> r.value.Keys == set c | c in Split(Strip(lines[0]), ',')
  {
    if |lines| == 0 then Failure(IndexError("list index out of range"))
    else
      var cols := Split(Strip(lines[0]), ',');
      RoadVolumeRows(ResetColumns(map[], cols), cols, lines[1..])
  }

  /** Converting one split line, field by field, stopping at the first exception. */
  method ConvertRoadVolumeRow(cols: seq<string>, fields: seq<string>) returns (r: Result<seq<Field>>)
    ensures r == RowCells(cols, fields, NcdcWeather.Min(|fields|, |cols|))
  {
    var n := NcdcWeather.Min(|fields|, |cols|);
    var cells: seq<Field> := [];
    for k := 0 to n
      invariant RowCells(cols, fields, k) == Success(cells)
    {
      var cell := RoadVolumeCell(cols[k], fields[k]);
      RowCellsSnoc(cols, fields, k);
      if cell.Failure? {
        RowCellsFailurePersists(cols, fields, k + 1, n);
        return Failure(cell.error);
      }
      cells := cells + [cell.value];
    }
    return Success(cells);
  }

  /** `GetRoadVolume_Historical` on a file not yet cleaned, without the file read, the DataFrame
      and the CSV write: the column dictionary built from the lines. */
  method GetRoadVolumeColumns(lines: seq<string>) returns (r: Result<Table>)
    ensures r == RoadVolumeTable(lines)
  {
    if |lines| == 0 {
      return Failure(IndexError("list index out of range"));
    }
    var colList := Split(Strip(lines[0]), ',');
    var dic := NcdcWeather.StartColumns(map[], colList);
    r := ReadDataLines(dic, colList, lines[1..]);
  }

  /** The loop over the data lines: each line's cells are appended to the columns, and the
      first line with a field that raises ends the loop with that exception. */
  method ReadDataLines(t: Table, cols: seq<string>, data: seq<string>) returns (r: Result<Table>)
    requires forall c :: c in cols ==> c in t
    ensures r == RoadVolumeRows(t, cols, data)
  {
    var dic := t;
    for i := 0 to |data|
      invariant RoadVolumeRows(t, cols, data[..i]) == Success(dic)
    {
      var splitLine := Split(Strip(data[i]), ',');
      var cells := ConvertRoadVolumeRow(cols, splitLine);
      RoadVolumeRowsSnoc(t, cols, data[..i], data[i]);
      assert data[..i] + [data[i]] == data[..i + 1];
      if cells.Failure? {
        RoadVolumeRowsFailurePersists(t, cols, data, i + 1);
        return Failure(cells.error);
      }
      dic := NcdcWeather.AppendRow(dic, cols, cells.value);
    }
    assert data[..|data|] == data;
    return Success(dic);
  }

  /** Reading one more line: its cells are appended, or its exception is the result. */
  lemma RoadVolumeRowsSnoc(t: Table, cols: seq<string>, lines: seq<string>, line: string)
    requires forall c :: c in cols ==> c in t
    requires RoadVolumeRows(t, cols, lines).Success?
    ensures var fields := Split(Strip(line), ',');
            var n := NcdcWeather.Min(|fields|, |cols|);
            var cells := RowCells(cols, fields, n);
            && (cells.Failure? ==> RoadVolumeRows(t, cols, lines + [line]) == Failure(cells.error))
            && (cells.Success? ==>
                  RoadVolumeRows(t, cols, lines + [line]) ==
                  Success(AppendZip(RoadVolumeRows(t, cols, lines).value, cols, cells.value, n)))
  {
    assert (lines + [line])[..|lines|] == lines;
  }

  /** With distinct column names, a data line that parses gives column `cols[j]` exactly the cell
      of field `j` for `j < min(#fields, #columns)` and leaves the other columns alone. */
  lemma RoadVolumeLineAddsOneCellPerColumn(t: Table, cols: seq<string>, lines: seq<string>)
    requires forall c :: c in cols ==> c in t
    requires |lines| > 0 && Distinct(cols)
    requires RoadVolumeRows(t, cols, lines).Success?
    ensures var prev := RoadVolumeRows(t, cols, lines[..|lines| - 1]);
            var fields := Split(Strip(lines[|lines| - 1]), ',');
            var n := NcdcWeather.Min(|fields|, |cols|);
            var r := RoadVolumeRows(t, cols, lines).value;
            && prev.Success?
            && (forall j :: 0 <= j < n ==>
                  RoadVolumeCell(cols[j], fields[j]).Success? &&
                  r[cols[j]] == prev.value[cols[j]] + [RoadVolumeCell(cols[j], fields[j]).value])
            && (forall c :: c in t && c !in cols[..n] ==> r[c] == prev.value[c])
  {
    var prev := RoadVolumeRows(t, cols, lines[..|lines| - 1]);
    var fields := Split(Strip(lines[|lines| - 1]), ',');
    var n := NcdcWeather.Min(|fields|, |cols|);
    var cells := RowCells(cols, fields, n);
    RowCellsMeaning(cols, fields, n);
    assert DistinctPrefix(cols, n);
    AppendZipDistinct(prev.value, cols, cells.value, n);
    AppendZipOthers(prev.value, cols, cells.value, n);
  }

  // ---------------------------------------------------------------------------------
  // Cleaning BlueToad rows

  /** One BlueToad row once its insert time is converted; `travel_time` is still text. */
  datatype BlueToadRow = BlueToadRow(pairId: int, insertTime: real, travelTime: string)

  /** The row has a travel time: it is not the two characters backslash and `N`. */
  predicate HasTravelTime(row: BlueToadRow) {
    row.travelTime != "\\N"
  }

  /** `BlueToad_df[BlueToad_df.travel_time != "\\N"]`. */
  function CleanBlueToad(rows: seq<BlueToadRow>): (r: seq<BlueToadRow>)
    ensures forall k :: 0 <= k < |r| ==> r[k] in rows && r[k].travelTime != "\\N"
    ensures forall k :: 0 <= k < |rows| && rows[k].travelTime != "\\N" ==> rows[k] in r
  {
    Numeric.Filter(rows, HasTravelTime)
  }

  /** Cleaning works row by row, so it keeps the original order of the rows it keeps. */
  lemma CleanBlueToadKeepsOrder(a: seq<BlueToadRow>, b: seq<BlueToadRow>)
    ensures CleanBlueToad(a + b) == CleanBlueToad(a) + CleanBlueToad(b)
  {
    Numeric.FilterConcat(a, b, HasTravelTime);
  }

  /** Cleaning a cleaned table changes nothing. */
  lemma CleanBlueToadIdempotent(rows: seq<BlueToadRow>)
    ensures CleanBlueToad(CleanBlueToad(rows)) == CleanBlueToad(rows)
  {
    var r := CleanBlueToad(rows);
    Numeric.FilterAll(r, HasTravelTime);
  }
}

=== FILE: ncdc_weather.dfy ===
/** NCDC_WeatherProcessor.py: the YYYYDOY.fraction time encoding, the weather-code
    classifier, the nearest-station search and the line loop that reads an NCDC file. */
module NcdcWeather {
  import opened Wrappers
  import opened Text
  import opened Numeric
  import opened Columns
  import Calendar

  // ---------------------------------------------------------------------------------
  // Rounding to the nearest 1/N of a day

  /** `frac` in `RoundToNearestNth`: the number of `1/n` steps added to `int(val)`. */
  function NearestNthNumerator(val: real, n: nat): (k: int)
    requires n > 0
    ensures -(n as int) < k <= n
    ensures val >= 0.0 ==> 0 <= k <= n
    ensures val < 0.0 ==> k <= 0
  {
    var f := val - Trunc(val) as real;
    ScaleFraction(f, n as real);
    Trunc(f * n as real + 0.5)
  }

  /** A fraction in `(-1, 1)` scaled by `m` stays in `(-m, m)`, keeping its sign. */
  lemma ScaleFraction(f: real, m: real)
    requires -1.0 < f < 1.0 && m > 0.0
    ensures f >= 0.0 ==> 0.0 <= f * m < m
    ensures f <= 0.0 ==> -m < f * m <= 0.0
  {
  }

  /** `RoundToNearestNth(val, N, dec)` before its final `round(., dec)`:
      `int(val)` plus the fraction rounded to a whole number of `1/n` steps. */
  function RoundToNearestNth(val: real, n: nat): (r: real)
    requires n > 0
    ensures val >= 0.0 ==> Trunc(val) as real <= r <= Trunc(val) as real + 1.0
    ensures val < 0.0 ==> Trunc(val) as real - 1.0 < r <= Trunc(val) as real
  {
    var k := NearestNthNumerator(val, n);
    var whole := Trunc(val);
    StepsTimesN(whole, k, n);
    whole as real + k as real / n as real
  }

  /** `x` is a whole number of `1/n` steps. */
  predicate OnGrid(x: real, n: nat) {
    (x * n as real).Floor as real == x * n as real
  }

  /** `(whole + k/n) * n` is the integer `whole*n + k`, and `k/n` keeps the sign and bound of `k`. */
  lemma StepsTimesN(whole: int, k: int, n: nat)
    requires n > 0 && -(n as int) < k <= n
    ensures (whole as real + k as real / n as real) * n as real == (whole * n + k) as real
    ensures 0 <= k ==> 0.0 <= k as real / n as real <= 1.0
    ensures k <= 0 ==> -1.0 < k as real / n as real <= 0.0
  {
    var nr := n as real;
    var q := k as real / nr;
    assert q * nr == k as real;
    SplitProduct(whole as real, q, nr);
    assert (whole * n) as real == whole as real * nr;
    QuotientBounds(k as real, nr);
  }

  /** Dividing by a positive `m` keeps the sign of `a` and, for `-m < a <= m`, a bound of 1. */
  lemma QuotientBounds(a: real, m: real)
    requires m > 0.0 && -m < a <= m
    ensures 0.0 <= a ==> 0.0 <= a / m <= 1.0
    ensures a <= 0.0 ==> -1.0 < a / m <= 0.0
  {
    var q := a / m;
    assert q * m == a;
    assert (1.0 - q) * m == m - a;
    assert (q + 1.0) * m == a + m;
    SignOfFactor(1.0 - q, m);
    SignOfFactor(q + 1.0, m);
    SignOfFactor(q, m);
  }

  lemma SignOfFactor(x: real, m: real)
    requires m > 0.0
    ensures x * m > 0.0 ==> x > 0.0
    ensures x * m >= 0.0 ==> x >= 0.0
    ensures x * m <= 0.0 ==> x <= 0.0
  {
  }

  /** `RoundToNearestNth(val, n) * n` is the whole number `int(val)*n + frac`. */
  lemma RoundToNearestNthTimesN(val: real, n: nat)
    requires n > 0
    ensures RoundToNearestNth(val, n) * n as real == (Trunc(val) * n + NearestNthNumerator(val, n)) as real
  {
    StepsTimesN(Trunc(val), NearestNthNumerator(val, n), n);
  }

  /** The result is always a multiple of `1/n`, whatever the sign of `val`. */
  lemma RoundToNearestNthOnGrid(val: real, n: nat)
    requires n > 0
    ensures OnGrid(RoundToNearestNth(val, n), n)
  {
    RoundToNearestNthTimesN(val, n);
  }

  /** The steps `frac` satisfy `frac <= (val - int(val))*n + 1/2 < frac + 1` for `val >= 0`. */
  lemma NearestNthNumeratorBounds(val: real, n: nat)
    requires n > 0 && val >= 0.0
    ensures var fn := (val - Trunc(val) as real) * n as real;
            NearestNthNumerator(val, n) as real <= fn + 0.5 < NearestNthNumerator(val, n) as real + 1.0
  {
    ScaleFraction(val - Trunc(val) as real, n as real);
  }

  /** For a non-negative value the result is the nearest multiple of `1/n`, halves rounding up:
      `(r - val) * n` lies in `(-1/2, 1/2]`. */
  lemma RoundToNearestNthIsNearest(val: real, n: nat)
    requires n > 0 && val >= 0.0
    ensures -0.5 < (RoundToNearestNth(val, n) - val) * n as real <= 0.5
  {
    var nr := n as real;
    var whole := Trunc(val);
    var fn := (val - whole as real) * nr;
    var k := NearestNthNumerator(val, n);
    var r := RoundToNearestNth(val, n);
    NearestNthNumeratorBounds(val, n);
    RoundToNearestNthTimesN(val, n);
    SplitProduct(whole as real, val - whole as real, nr);
    assert val * nr == (whole * n) as real + fn;
    SubProduct(r, val, nr);
  }

  /** For a non-negative value, `r * n == floor(val * n + 1/2)`: rounding half up on the `1/n` grid. */
  lemma RoundToNearestNthHalfUp(val: real, n: nat)
    requires n > 0 && val >= 0.0
    ensures RoundToNearestNth(val, n) * n as real == (val * n as real + 0.5).Floor as real
  {
    var steps := Trunc(val) * n + NearestNthNumerator(val, n);
    ScaledFloor(val, n);
    RoundToNearestNthTimesN(val, n);
    EqualViaFloor(RoundToNearestNth(val, n) * n as real, val * n as real + 0.5, steps);
  }

  /** `floor(val*n + 1/2)` counts the whole days' steps plus the rounded steps of the fraction. */
  lemma ScaledFloor(val: real, n: nat)
    requires n > 0 && val >= 0.0
    ensures (val * n as real + 0.5).Floor == Trunc(val) * n + NearestNthNumerator(val, n)
  {
    var nr := n as real;
    var whole := Trunc(val);
    var fn := (val - whole as real) * nr;
    NearestNthNumeratorBounds(val, n);
    SplitProduct(whole as real, val - whole as real, nr);
    assert val * nr + 0.5 == (whole * n) as real + (fn + 0.5);
    FloorShift(whole * n, fn + 0.5, NearestNthNumerator(val, n));
  }

  lemma EqualViaFloor(a: real, b: real, s: int)
    requires a == s as real && b.Floor == s
    ensures a == b.Floor as real
  {
  }

  lemma SplitProduct(a: real, b: real, m: real)
    ensures (a + b) * m == a * m + b * m
  {
  }

  lemma SubProduct(a: real, b: real, m: real)
    ensures (a - b) * m == a * m - b * m
  {
  }

  /** Adding a whole number shifts the floor by that number. */
  lemma FloorShift(i: int, x: real, k: int)
    requires k as real <= x < k as real + 1.0
    ensures (i as real + x).Floor == i + k
  {
  }

  /** A whole number of days passes through unchanged: only the fraction is rounded. */
  lemma RoundToNearestNthShift(whole: int, f: real, n: nat)
    requires n > 0 && whole >= 0 && 0.0 <= f < 1.0
    ensures RoundToNearestNth(whole as real + f, n) == whole as real + RoundToNearestNth(f, n)
  {
    assert Trunc(whole as real + f) == whole;
    assert Trunc(f) == 0;
    assert NearestNthNumerator(whole as real + f, n) == NearestNthNumerator(f, n);
  }

  /** A day number plus a clock fraction rounds to the day number plus `k/288` five-minute steps. */
  lemma FiveMinuteSteps(whole: int, f: real)
    requires whole >= 0 && 0.0 <= f < 1.0
    ensures var k := (f * 288.0 + 0.5).Floor;
            && 0 <= k <= 288
            && RoundToNearestNth(whole as real + f, 288) == whole as real + k as real / 288.0
  {
    RoundToNearestNthShift(whole, f, 288);
    RoundFractionSteps(f, 288);
  }

  /** The docstring's example: 100.139 to the nearest 20th is 100.15. */
  lemma RoundToNearestNthExample()
    ensures RoundToNearestNth(100.139, 20) == 100.15
  {
    assert Trunc(100.139) == 100;
    assert (100.139 - 100.0) * 20.0 + 0.5 == 3.28;
    assert Trunc(3.28) == 3;
  }

  // ---------------------------------------------------------------------------------
  // Dates and clock times in NCDC form

  /** The `(year, month, day)` that `ConvertWeatherDate` reads out of a `YYYYMMDD` number. */
  function WeatherDateFields(wDate: nat): (int, int, int)
  {
    var year := wDate / 10000;
    var month := (wDate - 10000 * year) / 100;
    (year, month, wDate - 10000 * year - 100 * month)
  }

  /** No date is validated by the source; a month outside 1..12 would index the month table
      out of range, so callers must supply a real month. */
  predicate ValidWeatherDate(wDate: nat) {
    1 <= WeatherDateFields(wDate).1 <= 12
  }

  /** The three-branch day-of-year of `ConvertWeatherDate`: 1 January is day 0, and years on the
      hard-coded leap list get one more day from March on. */
  function WeatherDayOfYear(year: int, month: int, day: int): (r: int)
    requires 1 <= month <= 12
    ensures 1 <= day <= 31 ==> 0 <= r <= 365
    ensures 1 <= day <= 31 && year !in Calendar.Leaps() ==> r <= 364
  {
    if month > 2 && year in Calendar.Leaps() then Calendar.CumulativeDays[month - 2] + day
    else if month == 1 then day - 1
    else Calendar.CumulativeDays[month - 2] + day - 1
  }

  /** The day-of-year is the Gregorian one for every year from 1901 to 2096, and one day late
      from March 1900 on, because the list counts 1900 as a leap year. */
  lemma WeatherDayOfYearIsGregorian(year: int, month: int, day: int)
    requires 1 <= month <= 12
    ensures 1901 <= year <= 2096 ==> WeatherDayOfYear(year, month, day) == Calendar.GregorianDayOfYear(year, month, day)
    ensures year == 1900 && month > 2 ==> WeatherDayOfYear(year, month, day) == Calendar.GregorianDayOfYear(year, month, day) + 1
  {
    Calendar.LeapsMatchGregorian(year);
  }

  /** Python's `x % 100` on a float (the remainder takes the divisor's sign). */
  function PyMod100(x: real): (r: real)
    ensures 0.0 <= r < 100.0
  {
    x - 100.0 * (x / 100.0).Floor as real
  }

  /** The day fraction `ConvertWeatherDate` computes from an `HHMM` clock reading, before rounding. */
  function ClockFraction(wTime: real): real
  {
    var minutes := PyMod100(wTime);
    (wTime - minutes) / 2400.0 + minutes / 60.0 / 24.0
  }

  /** For `wTime = 100*h + m` with `0 <= m < 100`, the fraction is `h/24 + m/1440`. */
  lemma ClockFractionOfHoursMinutes(h: nat, m: real)
    requires 0.0 <= m < 100.0
    ensures ClockFraction(100.0 * h as real + m) == h as real / 24.0 + m / 1440.0
  {
    var w := 100.0 * h as real + m;
    assert w / 100.0 == h as real + m / 100.0;
    assert (w / 100.0).Floor == h;
    assert PyMod100(w) == m;
  }

  /** `ConvertWeatherDate(w_date, w_time, N, dec)` without the final decimal rounding:
      `YYYYDOY` plus the clock time as a day fraction rounded to the nearest `1/n`. */
  function ConvertWeatherDate(wDate: nat, wTime: real, n: nat): (r: real)
    requires n > 0 && ValidWeatherDate(wDate)
    ensures OnGrid(r, n)
  {
    RoundToNearestNthOnGrid(ClockFraction(wTime), n);
    OnGridShift(WeatherDayNumber(wDate), RoundToNearestNth(ClockFraction(wTime), n), n);
    WeatherDayNumber(wDate) as real + RoundToNearestNth(ClockFraction(wTime), n)
  }

  /** `int(year*1000 + day_of_year)`: the `YYYYDOY` integer of a `YYYYMMDD` date. */
  function WeatherDayNumber(wDate: nat): int
    requires ValidWeatherDate(wDate)
  {
    var f := WeatherDateFields(wDate);
    f.0 * 1000 + WeatherDayOfYear(f.0, f.1, f.2)
  }

  /** Moving a grid point by a whole number keeps it on the grid. */
  lemma OnGridShift(d: int, x: real, n: nat)
    requires OnGrid(x, n)
    ensures OnGrid(d as real + x, n)
  {
    var m := (x * n as real).Floor;
    assert (d as real + x) * n as real == d as real * n as real + x * n as real;
    assert (d * n) as real == d as real * n as real;
    assert (d as real + x) * n as real == (d * n + m) as real;
  }

  /** For a fraction in `[0, 1)`, the rounded value is `k/n` with `k = floor(f*n + 1/2)`, so
      `0 <= k <= n`, and `k == n` exactly when `f` is within half a step of 1. */
  lemma RoundFractionSteps(f: real, n: nat)
    requires n > 0 && 0.0 <= f < 1.0
    ensures var k := (f * n as real + 0.5).Floor;
            && 0 <= k <= n
            && RoundToNearestNth(f, n) == k as real / n as real
  {
    FractionStepsRange(f, n);
    NumeratorOfFraction(f, n);
    RoundOfFraction(f, n);
  }

  lemma FractionStepsRange(f: real, n: nat)
    requires n > 0 && 0.0 <= f < 1.0
    ensures 0 <= (f * n as real + 0.5).Floor <= n
  {
    ScaleFraction(f, n as real);
    FloorBelow(f * n as real + 0.5, n);
  }

  lemma NumeratorOfFraction(f: real, n: nat)
    requires n > 0 && 0.0 <= f < 1.0
    ensures NearestNthNumerator(f, n) == (f * n as real + 0.5).Floor
  {
    assert Trunc(f) == 0;
    assert f - Trunc(f) as real == f;
    ScaleFraction(f, n as real);
  }

  lemma RoundOfFraction(f: real, n: nat)
    requires n > 0 && 0.0 <= f < 1.0
    ensures RoundToNearestNth(f, n) == NearestNthNumerator(f, n) as real / n as real
  {
    assert Trunc(f) == 0;
  }

  lemma FloorBelow(x: real, n: int)
    requires 0.0 <= x < n as real + 1.0
    ensures 0 <= x.Floor <= n
  {
  }

  /** Within a day, the encoding is the `YYYYDOY` integer plus `k/n`, where `k` is the clock
      fraction rounded half up to whole steps; `k == n` (a time within half a step of midnight)
      makes it the next integer. */
  lemma ConvertWeatherDateParts(wDate: nat, wTime: real, n: nat)
    requires n > 0 && ValidWeatherDate(wDate)
    requires 0.0 <= ClockFraction(wTime) < 1.0
    ensures var k := (ClockFraction(wTime) * n as real + 0.5).Floor;
            && 0 <= k <= n
            && ConvertWeatherDate(wDate, wTime, n) == WeatherDayNumber(wDate) as real + k as real / n as real
  {
    RoundFractionSteps(ClockFraction(wTime), n);
  }

  /** The fields of Python's `datetime.datetime` that `GetTimeFromDateTime` reads. */
  datatype DateTime = DateTime(year: int, month: int, day: int, hour: int, minute: int, second: int)

  /** What `datetime` itself guarantees of its fields. */
  predicate ValidDateTime(t: DateTime) {
    && 1 <= t.year <= 9999
    && 1 <= t.month <= 12
    && 1 <= t.day <= Calendar.DaysInMonth(t.year, t.month)
    && 0 <= t.hour < 24 && 0 <= t.minute < 60 && 0 <= t.second < 60
  }

  /** `w_date = now.year * 10000 + now.month * 100 + now.day`. */
  function WeatherDateOf(t: DateTime): nat
    requires ValidDateTime(t)
  {
    t.year * 10000 + t.month * 100 + t.day
  }

  /** `w_time = now.hour * 100 + now.minute + float(now.second)/60`. */
  function WeatherTimeOf(t: DateTime): real {
    (t.hour * 100 + t.minute) as real + t.second as real / 60.0
  }

  /** Packing a date as `YYYYMMDD` and reading it back gives the same fields. */
  lemma WeatherDateOfFields(t: DateTime)
    requires ValidDateTime(t)
    ensures WeatherDateFields(WeatherDateOf(t)) == (t.year, t.month, t.day)
    ensures ValidWeatherDate(WeatherDateOf(t))
  {
    var w := WeatherDateOf(t);
    assert w / 10000 == t.year;
    assert (w - 10000 * t.year) / 100 == t.month;
  }

  /** The clock time as a day fraction, `h/24 + m/1440 + s/86400`. */
  function DayFraction(t: DateTime): real {
    t.hour as real / 24.0 + t.minute as real / 1440.0 + t.second as real / 86400.0
  }

  /** The `HHMM` detour of the source gives the plain day fraction, which lies in `[0, 1)`. */
  lemma ClockFractionOfDateTime(t: DateTime)
    requires ValidDateTime(t)
    ensures ClockFraction(WeatherTimeOf(t)) == DayFraction(t)
    ensures 0.0 <= DayFraction(t) < 1.0
  {
    var m := t.minute as real + t.second as real / 60.0;
    assert WeatherTimeOf(t) == 100.0 * t.hour as real + m;
    ClockFractionOfHoursMinutes(t.hour, m);
  }

  /** `GetTimeFromDateTime(now, time)` without the final decimal rounding: with `time` the
      fraction of the encoded instant, otherwise its integer `YYYYDOY` part. */
  function GetTimeFromDateTime(now: DateTime, time: bool): (r: real)
    requires ValidDateTime(now)
    ensures time ==> 0.0 <= r < 1.0 && OnGrid(r, 288)
    ensures !time ==> r == r.Floor as real && r >= (now.year * 1000) as real
  {
    WeatherDateOfFields(now);
    var nowTime := ConvertWeatherDate(WeatherDateOf(now), WeatherTimeOf(now), 288);
    InstantFloor(now);
    SplitGridPoint(nowTime, now.year * 1000);
    if time then nowTime - Trunc(nowTime) as real else Trunc(nowTime) as real
  }

  /** The instant `GetTimeFromDateTime` encodes is no earlier than `year*1000`, the day number
      of 1 January of its year. */
  lemma InstantFloor(now: DateTime)
    requires ValidDateTime(now)
    ensures ValidWeatherDate(WeatherDateOf(now))
    ensures ConvertWeatherDate(WeatherDateOf(now), WeatherTimeOf(now), 288) >= (now.year * 1000) as real
  {
    WeatherDateOfFields(now);
    ClockFractionOfDateTime(now);
    assert 1 <= now.day <= 31;
    assert WeatherDayNumber(WeatherDateOf(now)) >= now.year * 1000;
  }

  /** A grid point from `lo >= 0` on splits into a whole number from `lo` on and a fraction in
      `[0, 1)` that is itself on the grid. */
  lemma SplitGridPoint(x: real, lo: int)
    requires lo >= 0 && x >= lo as real && OnGrid(x, 288)
    ensures Trunc(x) >= lo
    ensures 0.0 <= x - Trunc(x) as real < 1.0 && OnGrid(x - Trunc(x) as real, 288)
  {
    OnGridShift(-Trunc(x), x, 288);
    assert -Trunc(x) as real + x == x - Trunc(x) as real;
  }

  /** With `k` the clock time rounded half up to five-minute steps (`0 <= k <= 288`): the day
      part is `YYYYDOY`, or the next day number when `k == 288`, and the fraction part is
      `(k mod 288)/288`, always one of the 288 five-minute marks of a day. */
  lemma GetTimeFromDateTimeParts(now: DateTime)
    requires ValidDateTime(now)
    ensures var dayNumber := now.year * 1000 + WeatherDayOfYear(now.year, now.month, now.day);
            var k := (DayFraction(now) * 288.0 + 0.5).Floor;
            && 0 <= k <= 288
            && GetTimeFromDateTime(now, false) == (dayNumber + k / 288) as real
            && GetTimeFromDateTime(now, true) == (k % 288) as real / 288.0
  {
    InstantSteps(now);
    var dayNumber := now.year * 1000 + WeatherDayOfYear(now.year, now.month, now.day);
    var k := (DayFraction(now) * 288.0 + 0.5).Floor;
    var x := ConvertWeatherDate(WeatherDateOf(now), WeatherTimeOf(now), 288);
    SplitSteps(x, dayNumber, k);
    assert GetTimeFromDateTime(now, false) == Trunc(x) as real;
    assert GetTimeFromDateTime(now, true) == x - Trunc(x) as real;
  }

  /** The instant encoded from a `datetime` is its `YYYYDOY` integer plus `k/288`, with `k` its
      clock time rounded half up to five-minute steps. */
  lemma InstantSteps(now: DateTime)
    requires ValidDateTime(now)
    ensures ValidWeatherDate(WeatherDateOf(now))
    ensures var dayNumber := now.year * 1000 + WeatherDayOfYear(now.year, now.month, now.day);
            var k := (DayFraction(now) * 288.0 + 0.5).Floor;
            && dayNumber >= 0 && 0 <= k <= 288
            && ConvertWeatherDate(WeatherDateOf(now), WeatherTimeOf(now), 288) == dayNumber as real + k as real / 288.0
  {
    WeatherDateOfFields(now);
    ClockFractionOfDateTime(now);
    ConvertWeatherDateParts(WeatherDateOf(now), WeatherTimeOf(now), 288);
    assert WeatherDayNumber(WeatherDateOf(now)) == now.year * 1000 + WeatherDayOfYear(now.year, now.month, now.day);
    assert 1 <= now.day <= 31;
  }

  /** `dayNumber + k/288` for `0 <= k <= 288` has integer part `dayNumber + k / 288` and
      fraction `(k mod 288)/288`. */
  lemma SplitSteps(x: real, dayNumber: int, k: int)
    requires dayNumber >= 0 && 0 <= k <= 288 && x == dayNumber as real + k as real / 288.0
    ensures Trunc(x) == dayNumber + k / 288
    ensures x - Trunc(x) as real == (k % 288) as real / 288.0
  {
    if k < 288 {
      assert 0.0 <= k as real / 288.0 < 1.0;
      assert Trunc(x) == dayNumber;
    } else {
      assert x == (dayNumber + 1) as real;
      assert Trunc(x) == dayNumber + 1;
    }
  }

  // ---------------------------------------------------------------------------------
  // Weather-type classification

  /** `GetType(w)`: an NCDC present-weather report mapped to snow `SN`, rain `RA`, fog `FG` or
      clear `' '`, by the first of the code groups SN/FZ, RA/TS, FG/HZ/BR found in it. */
  function GetType(w: string): (r: string)
    ensures r == "SN" || r == "RA" || r == "FG" || r == " "
    ensures r == "SN" <==> Contains(w, "SN") || Contains(w, "FZ")
    ensures r == "RA" <==> !(Contains(w, "SN") || Contains(w, "FZ")) && (Contains(w, "RA") || Contains(w, "TS"))
    ensures r == "FG" <==> !(Contains(w, "SN") || Contains(w, "FZ") || Contains(w, "RA") || Contains(w, "TS"))
                           && (Contains(w, "FG") || Contains(w, "HZ") || Contains(w, "BR"))
    ensures r == " " <==> !Contains(w, "SN") && !Contains(w, "FZ") && !Contains(w, "RA")
                          && !Contains(w, "TS") && !Contains(w, "FG") && !Contains(w, "HZ") && !Contains(w, "BR")
  {
    if Contains(w, "SN") || Contains(w, "FZ") then "SN"
    else if Contains(w, "RA") || Contains(w, "TS") then "RA"
    else if Contains(w, "FG") || Contains(w, "HZ") || Contains(w, "BR") then "FG"
    else " "
  }

  /** The ranking the branch order of `GetType` gives its codes. */
  function Severity(code: string): nat {
    if code == "SN" then 3 else if code == "RA" then 2 else if code == "FG" then 1 else 0
  }

  /** Each code classifies as itself, and a report without any code (the empty one included) is clear. */
  lemma GetTypeFixedPoints()
    ensures GetType("SN") == "SN" && GetType("RA") == "RA" && GetType("FG") == "FG" && GetType(" ") == " "
    ensures GetType("") == " "
  {
    assert Contains("SN", "SN") by { assert "SN"[..2] == "SN"; }
    assert Contains("RA", "RA") by { assert "RA"[..2] == "RA"; }
    assert Contains("FG", "FG") by { assert "FG"[..2] == "FG"; }
    assert !Contains("RA", "SN") && !Contains("RA", "FZ") by {
      assert "RA"[..2] == "RA" && "RA"[1..] == "A";
    }
    assert !Contains("FG", "SN") && !Contains("FG", "FZ") && !Contains("FG", "RA") && !Contains("FG", "TS") by {
      assert "FG"[..2] == "FG" && "FG"[1..] == "G";
    }
  }

  /** More text in a report never lowers its class: the priority order is monotone. */
  lemma GetTypeMonotone(w: string, before: string, after: string)
    ensures Severity(GetType(before + w + after)) >= Severity(GetType(w))
  {
    var big := before + w + after;
    forall t | Contains(w, t) ensures Contains(big, t) {
      ContainsExtended(w, t, before, after);
    }
  }

  // ---------------------------------------------------------------------------------
  // Nearest weather station

  /** One row of a station table: its coordinates and its name. */
  datatype Site = Site(lat: real, lon: real, location: string)

  /** A roadway's coordinates, `RoadwayCoords[str(roadway)]`. */
  datatype Coords = Coords(lat: real, lon: real)

  /** `(Lat - x)**2 + (Lon - y)**2`: squared Euclidean distance in degrees. */
  function SquaredDistance(lat: real, lon: real, s: Site): (d: real)
    ensures d >= 0.0
  {
    (lat - s.lat) * (lat - s.lat) + (lon - s.lon) * (lon - s.lon)
  }

  function Distances(sites: seq<Site>, lat: real, lon: real): (ds: seq<real>)
    ensures |ds| == |sites|
    ensures forall j :: 0 <= j < |sites| ==> ds[j] == SquaredDistance(lat, lon, sites[j])
  {
    seq(|sites|, j requires 0 <= j < |sites| => SquaredDistance(lat, lon, sites[j]))
  }

  /** `distances.index(np.min(distances))`: the first position holding the minimum. */
  function FirstMinIndex(ds: seq<real>): (k: nat)
    requires |ds| > 0
    ensures k < |ds|
    ensures forall j :: 0 <= j < |ds| ==> ds[k] <= ds[j]
    ensures forall j :: 0 <= j < k ==> ds[j] > ds[k]
    decreases |ds|
  {
    if |ds| == 1 then 0
    else
      var k := FirstMinIndex(ds[..|ds| - 1]);
      if ds[|ds| - 1] < ds[k] then |ds| - 1 else k
  }

  /** Being a minimum with no equal value before it determines the position. */
  lemma FirstMinIndexUnique(ds: seq<real>, k: nat)
    requires k < |ds|
    requires forall j :: 0 <= j < |ds| ==> ds[k] <= ds[j]
    requires forall j :: 0 <= j < k ==> ds[j] > ds[k]
    ensures FirstMinIndex(ds) == k
  {
  }

  /** `ShortestDist(LatLon_df, Lat, Lon)`: the row of the first station nearest to the point.
      An empty table makes `np.min` raise. */
  function ShortestDist(sites: seq<Site>, lat: real, lon: real): (r: Result<nat>)
    ensures r.Success? <==> |sites| > 0
    ensures r.Success? ==> r.value < |sites|
    ensures r.Success? ==> forall j :: 0 <= j < |sites| ==>
              SquaredDistance(lat, lon, sites[r.value]) <= SquaredDistance(lat, lon, sites[j])
    ensures r.Success? ==> forall j :: 0 <= j < r.value ==>
              SquaredDistance(lat, lon, sites[j]) > SquaredDistance(lat, lon, sites[r.value])
  {
    if |sites| == 0 then Failure(ValueError("zero-size array to reduction operation minimum"))
    else Success(FirstMinIndex(Distances(sites, lat, lon)))
  }

  /** The initial `min_dist = 9999`, compared here as a squared distance. */
  const CutoffSquared: real := 9999.0 * 9999.0

  /** `ChooseClosestSite(roadway, RoadwayCoords, NOAA_df, D)`: the default site when the roadway has
      no coordinates; otherwise the site `ShortestDist` picks, provided it is nearer than the cutoff,
      and the default if none is. */
  method ChooseClosestSite(roadway: string, roadwayCoords: map<string, Coords>, sites: seq<Site>, default: string)
    returns (closest: string)
    ensures roadway !in roadwayCoords ==> closest == default
    ensures roadway in roadwayCoords ==>
              var c := roadwayCoords[roadway];
              match ShortestDist(sites, c.lat, c.lon)
              case Success(k) =>
                closest == if SquaredDistance(c.lat, c.lon, sites[k]) < CutoffSquared then sites[k].location else default
              case Failure(_) => closest == default
  {
    if roadway !in roadwayCoords {
      return default;
    }
    var road := roadwayCoords[roadway];
    var minDist := CutoffSquared;
    closest := default;
    ghost var ds := Distances(sites, road.lat, road.lon);
    ghost var best: int := -1;
    for i := 0 to |sites|
      invariant -1 <= best < i
      invariant best == -1 ==> closest == default && minDist == CutoffSquared
      invariant best == -1 ==> forall j :: 0 <= j < i ==> ds[j] >= CutoffSquared
      invariant best >= 0 ==> minDist == ds[best] < CutoffSquared && closest == sites[best].location
      invariant best >= 0 ==> forall j :: 0 <= j < i ==> ds[best] <= ds[j]
      invariant best >= 0 ==> forall j :: 0 <= j < best ==> ds[j] > ds[best]
    {
      var d := SquaredDistance(road.lat, road.lon, sites[i]);
      if d < minDist {
        minDist := d;
        closest := sites[i].location;
        best := i;
      }
    }
    if best >= 0 {
      FirstMinIndexUnique(ds, best);
    } else if |sites| > 0 {
      assert ds[FirstMinIndex(ds)] >= CutoffSquared;
    }
  }

  // ---------------------------------------------------------------------------------
  // Reading an NCDC quality-controlled local climatological data file

  /** `float(s)` if it succeeds, otherwise the raw field: the `try`/`except ValueError` of the data loop. */
  function ToCell(s: string): (f: Field)
    ensures f.Num? <==> ParseDecimal(s).Some?
    ensures f.Text? ==> f.s == s
    ensures !f.Int?
  {
    match ParseDecimal(s)
    case Some(x) => Num(x)
    case None => Text(s)
  }

  /** The loop state of `GetNCDC_df`: the dictionary, `column_list` and `lines_of_data`. */
  datatype Scan = Scan(dic: Table, cols: seq<string>, inData: bool)

  const ScanStart := Scan(map[], [], false)

  /** Every current column has a list to append to, and nothing is stored before the header. */
  predicate ScanOk(st: Scan) {
    (forall c :: c in st.cols ==> c in st.dic) && (!st.inData ==> st.dic == map[] && st.cols == [])
  }

  function Min(a: nat, b: nat): nat {
    if a < b then a else b
  }

  /** The fields of a data line converted cell by cell. */
  function Cells(fields: seq<string>): (cells: seq<Field>)
    ensures |cells| == |fields|
    ensures forall j :: 0 <= j < |fields| ==> cells[j] == ToCell(fields[j])
  {
    seq(|fields|, j requires 0 <= j < |fields| => ToCell(fields[j]))
  }

  /** One pass of the loop body: a header line (re)starts the listed columns; afterwards a line of more
      than one character adds one cell to each of the first `min(#fields, #columns)` columns. */
  function ScanLine(st: Scan, line: string): (r: Scan)
    requires ScanOk(st)
    ensures ScanOk(r)
    ensures Contains(line, "SkyCondition") ==>
              r.inData && r.cols == Split(Strip(line), ',') && r.dic == ResetColumns(st.dic, r.cols)
    ensures !Contains(line, "SkyCondition") && !(st.inData && |line| > 1) ==> r == st
    ensures !Contains(line, "SkyCondition") && st.inData && |line| > 1 ==>
              var fields := Split(Strip(line), ',');
              r.cols == st.cols && r.inData &&
              r.dic == AppendZip(st.dic, st.cols, Cells(fields), Min(|fields|, |st.cols|))
  {
    if Contains(line, "SkyCondition") then
      var cols := Split(Strip(line), ',');
      Scan(ResetColumns(st.dic, cols), cols, true)
    else if st.inData && |line| > 1 then
      var fields := Split(Strip(line), ',');
      Scan(AppendZip(st.dic, st.cols, Cells(fields), Min(|fields|, |st.cols|)), st.cols, true)
    else
      st
  }

  /** The state after reading `lines` in order. */
  function ScanLines(lines: seq<string>): (st: Scan)
    ensures ScanOk(st)
    decreases |lines|
  {
    if |lines| == 0 then ScanStart
    else ScanLine(ScanLines(lines[..|lines| - 1]), lines[|lines| - 1])
  }

  /** `for c in column_list: NCDC_as_dic[c] = []`. */
  method StartColumns(dic0: Table, columnList: seq<string>) returns (dic: Table)
    ensures dic == ResetColumns(dic0, columnList)
  {
    dic := dic0;
    for k := 0 to |columnList|
      invariant dic.Keys == dic0.Keys + set c | c in columnList[..k]
      invariant forall c :: c in columnList[..k] ==> dic[c] == []
      invariant forall c :: c in dic0 && c !in columnList[..k] ==> dic[c] == dic0[c]
    {
      assert columnList[..k + 1] == columnList[..k] + [columnList[k]];
      dic := dic[columnList[k] := []];
    }
    assert columnList[..|columnList|] == columnList;
  }

  /** `for s, c in zip(split_line, column_list): NCDC_as_dic[c].append(...)`, the cells already converted. */
  method AppendRow(dic0: Table, columnList: seq<string>, cells: seq<Field>) returns (dic: Table)
    requires forall c :: c in columnList ==> c in dic0
    ensures dic == AppendZip(dic0, columnList, cells, Min(|cells|, |columnList|))
  {
    dic := dic0;
    var n := Min(|cells|, |columnList|);
    for k := 0 to n
      invariant dic == AppendZip(dic0, columnList, cells, k)
    {
      var c := columnList[k];
      AppendZipStep(dic0, columnList, cells, k);
      dic := dic[c := dic[c] + [cells[k]]];
    }
  }

  /** `GetNCDC_df` without the file read and the DataFrame: the column dictionary built from the lines. */
  method GetNcdcColumns(lines: seq<string>) returns (dic: Table)
    ensures dic == ScanLines(lines).dic
  {
    var linesOfData := false;
    var columnList: seq<string> := [];
    dic := map[];
    for i := 0 to |lines|
      invariant Scan(dic, columnList, linesOfData) == ScanLines(lines[..i])
    {
      assert lines[..i + 1][..i] == lines[..i];
      var line := lines[i];
      if Contains(line, "SkyCondition") {
        columnList := Split(Strip(line), ',');
        linesOfData := true;
        dic := StartColumns(dic, columnList);
      } else if linesOfData && |line| > 1 {
        var splitLine := Split(Strip(line), ',');
        dic := AppendRow(dic, columnList, Cells(splitLine));
      }
    }
    assert lines[..|lines|] == lines;
  }

  /** Until a header line has been seen the dictionary stays empty. */
  lemma {:induction false} NothingBeforeHeader(lines: seq<string>)
    requires forall i :: 0 <= i < |lines| ==> !Contains(lines[i], "SkyCondition")
    ensures ScanLines(lines) == ScanStart
    decreases |lines|
  {
    if |lines| > 0 {
      NothingBeforeHeader(lines[..|lines| - 1]);
    }
  }

  /** After a header with distinct column names, a data line gives column `cols[j]` exactly the cell made
      from field `j` when `j < min(#fields, #columns)`, and leaves every other column as it was. */
  lemma DataLineAddsOneCellPerColumn(st: Scan, line: string)
    requires ScanOk(st) && st.inData && Distinct(st.cols)
    requires !Contains(line, "SkyCondition") && |line| > 1
    ensures var fields := Split(Strip(line), ',');
            var n := Min(|fields|, |st.cols|);
            var r := ScanLine(st, line);
            r.dic.Keys == st.dic.Keys &&
            (forall j :: 0 <= j < n ==> r.dic[st.cols[j]] == st.dic[st.cols[j]] + [ToCell(fields[j])]) &&
            (forall c :: c in st.dic && c !in st.cols[..n] ==> r.dic[c] == st.dic[c])
  {
    var fields := Split(Strip(line), ',');
    var n := Min(|fields|, |st.cols|);
    assert DistinctPrefix(st.cols, n);
    AppendZipDistinct(st.dic, st.cols, Cells(fields), n);
    AppendZipOthers(st.dic, st.cols, Cells(fields), n);
  }

  /** Every data line after the header grows each column by the number of times it is named among the
      first `min(#fields, #columns)` column names. */
  lemma DataLineColumnLength(st: Scan, line: string, c: string)
    requires ScanOk(st) && st.inData && c in st.dic
    requires !Contains(line, "SkyCondition") && |line| > 1
    ensures var fields := Split(Strip(line), ',');
            |ScanLine(st, line).dic[c]| == |st.dic[c]| + Occurrences(st.cols[..Min(|fields|, |st.cols|)], c)
  {
    var fields := Split(Strip(line), ',');
    AppendZipLength(st.dic, st.cols, Cells(fields), Min(|fields|, |st.cols|), c);
  }
}

=== FILE: numeric.dfy ===
/** Numeric and sequence helpers shared by the loaders and the baseline builder:
    Python's `int()` on a float, `sum`/`np.mean` (with NaN as `None`), and list filtering. */
module Numeric {
  import opened Wrappers

  /** Python's `int(x)` on a float: truncation toward zero. */
  function Trunc(x: real): (n: int)
    ensures x >= 0.0 ==> n >= 0 && n as real <= x < n as real + 1.0
    ensures x < 0.0 ==> n <= 0 && n as real - 1.0 < x <= n as real
  {
    if x >= 0.0 then x.Floor else -((-x).Floor)
  }

  function Sum(xs: seq<real>): real
  {
    if |xs| == 0 then 0.0 else xs[0] + Sum(xs[1..])
  }

  /** A sum is bounded by its length times any bounds of its terms. */
  lemma {:induction false} SumBounds(xs: seq<real>, lo: real, hi: real)
    requires forall k :: 0 <= k < |xs| ==> lo <= xs[k] <= hi
    ensures |xs| as real * lo <= Sum(xs) <= |xs| as real * hi
  {
    if |xs| > 0 {
      SumBounds(xs[1..], lo, hi);
      assert |xs| as real * lo == lo + (|xs| - 1) as real * lo;
      assert |xs| as real * hi == hi + (|xs| - 1) as real * hi;
    }
  }

  /** The arithmetic mean of a non-empty list (`np.mean`). */
  function Mean(xs: seq<real>): real
    requires |xs| > 0
  {
    Sum(xs) / |xs| as real
  }

  /** The mean lies within any bounds of the terms, so a constant list has that constant as mean. */
  lemma MeanBounds(xs: seq<real>, lo: real, hi: real)
    requires |xs| > 0
    requires forall k :: 0 <= k < |xs| ==> lo <= xs[k] <= hi
    ensures lo <= Mean(xs) <= hi
  {
    SumBounds(xs, lo, hi);
    var n := |xs| as real;
    assert n * lo <= Sum(xs) <= n * hi;
    assert Mean(xs) * n == Sum(xs);
  }

  predicate AllSome(xs: seq<Option<real>>) {
    forall k :: 0 <= k < |xs| ==> xs[k].Some?
  }

  function Values(xs: seq<Option<real>>): (vs: seq<real>)
    requires AllSome(xs)
    ensures |vs| == |xs| && forall k :: 0 <= k < |xs| ==> xs[k] == Some(vs[k])
  {
    seq(|xs|, k requires 0 <= k < |xs| && AllSome(xs) => xs[k].value)
  }

  /** `np.mean` where `None` stands for NaN: NaN when the list is empty or holds a NaN. */
  function OptMean(xs: seq<Option<real>>): (r: Option<real>)
    ensures r.Some? <==> |xs| > 0 && AllSome(xs)
  {
    if |xs| > 0 && AllSome(xs) then Some(Mean(Values(xs))) else None
  }

  lemma OptMeanBounds(xs: seq<Option<real>>, lo: real, hi: real)
    requires |xs| > 0
    requires forall k :: 0 <= k < |xs| ==> xs[k].Some? && lo <= xs[k].value <= hi
    ensures OptMean(xs).Some? && lo <= OptMean(xs).value <= hi
  {
    MeanBounds(Values(xs), lo, hi);
  }

  lemma {:induction false} SumConcat(xs: seq<real>, ys: seq<real>)
    ensures Sum(xs + ys) == Sum(xs) + Sum(ys)
  {
    if |xs| > 0 {
      assert (xs + ys)[1..] == xs[1..] + ys;
      SumConcat(xs[1..], ys);
    } else {
      assert xs + ys == ys;
    }
  }

  /** `np.mean(a + b) == np.mean(b + a)`: the mean does not depend on which part comes first. */
  lemma OptMeanSwap(a: seq<Option<real>>, b: seq<Option<real>>)
    ensures OptMean(a + b) == OptMean(b + a)
  {
    if AllSome(a + b) {
      assert AllSome(a) && AllSome(b) by {
        forall k | 0 <= k < |a| ensures a[k].Some? { assert a[k] == (a + b)[k]; }
        forall k | 0 <= k < |b| ensures b[k].Some? { assert b[k] == (a + b)[|a| + k]; }
      }
      assert AllSome(b + a);
      assert Values(a + b) == Values(a) + Values(b);
      assert Values(b + a) == Values(b) + Values(a);
      SumConcat(Values(a), Values(b));
      SumConcat(Values(b), Values(a));
    } else {
      var k :| 0 <= k < |a + b| && (a + b)[k].None?;
      if k < |a| {
        assert (b + a)[|b| + k] == a[k];
      } else {
        assert (b + a)[k - |a|] == b[k - |a|];
      }
    }
  }

  /** The elements of `s` that satisfy `p`, in their original order. */
  function Filter<T>(s: seq<T>, p: T -> bool): (r: seq<T>)
    ensures |r| <= |s|
    ensures forall k :: 0 <= k < |r| ==> p(r[k]) && r[k] in s
    ensures forall k :: 0 <= k < |s| && p(s[k]) ==> s[k] in r
  {
    if |s| == 0 then []
    else if p(s[0]) then [s[0]] + Filter(s[1..], p)
    else Filter(s[1..], p)
  }

  /** Filtering distributes over concatenation, so it keeps the relative order of what it keeps. */
  lemma {:induction false} FilterConcat<T>(a: seq<T>, b: seq<T>, p: T -> bool)
    ensures Filter(a + b, p) == Filter(a, p) + Filter(b, p)
  {
    if |a| > 0 {
      assert (a + b)[1..] == a[1..] + b;
      FilterConcat(a[1..], b, p);
    } else {
      assert a + b == b;
    }
  }

  /** Filtering with a predicate that holds everywhere changes nothing. */
  lemma {:induction false} FilterAll<T>(s: seq<T>, p: T -> bool)
    requires forall k :: 0 <= k < |s| ==> p(s[k])
    ensures Filter(s, p) == s
  {
    if |s| > 0 {
      FilterAll(s[1..], p);
    }
  }
}

=== FILE: realtime_massdot.dfy ===
/** The real-time MassDOT feed: order-preserving de-duplication (`unique`) and the transposition
    of the feed's per-pair records into one column per attribute (`ParseJson`). */
module RealTimeMassDot {
  import opened Wrappers
  import opened Columns

  predicate NoDuplicates<T(==)>(s: seq<T>) {
    forall i, j :: 0 <= i < j < |s| ==> s[i] != s[j]
  }

  /** The distinct elements of `s`, each where it first occurs. */
  function Dedup<T(==)>(s: seq<T>): (r: seq<T>)
    ensures |r| <= |s|
  {
    if |s| == 0 then []
    else
      var rest := Dedup(s[..|s| - 1]);
      if s[|s| - 1] in rest then rest else rest + [s[|s| - 1]]
  }

  /** `unique(seq)`: walks the list once, keeping an element only when the `seen` list does not
      hold it yet, and appending it to `seen` when kept. */
  method Unique<T(==)>(s: seq<T>) returns (r: seq<T>)
    ensures r == Dedup(s)
    ensures NoDuplicates(r)
    ensures forall x :: x in r <==> x in s
  {
    var seen: seq<T> := [];
    for i := 0 to |s|
      invariant seen == Dedup(s[..i])
    {
      assert s[..i + 1][..i] == s[..i];
      if s[i] !in seen {
        seen := seen + [s[i]];
      }
    }
    assert s[..|s|] == s;
    r := seen;
    DedupNoDuplicates(s);
    DedupElements(s);
  }

  /** Exactly the elements of the input survive. */
  lemma {:induction false} DedupElements<T>(s: seq<T>)
    ensures forall x :: x in Dedup(s) ==> x in s
    ensures forall x :: x in s ==> x in Dedup(s)
  {
    if |s| > 0 {
      var p := s[..|s| - 1];
      DedupElements(p);
      assert s == p + [s[|s| - 1]];
    }
  }

  /** No element survives twice. */
  lemma {:induction false} DedupNoDuplicates<T>(s: seq<T>)
    ensures NoDuplicates(Dedup(s))
  {
    if |s| > 0 {
      DedupNoDuplicates(s[..|s| - 1]);
    }
  }

  /** A list without duplicates comes back unchanged. */
  lemma {:induction false} DedupOfDistinct<T>(s: seq<T>)
    requires NoDuplicates(s)
    ensures Dedup(s) == s
  {
    if |s| > 0 {
      var p := s[..|s| - 1];
      assert NoDuplicates(p);
      DedupOfDistinct(p);
      assert s[|s| - 1] !in p by {
        forall k | 0 <= k < |p|
          ensures p[k] != s[|s| - 1]
        {
          assert p[k] == s[k];
        }
      }
      assert s == p + [s[|s| - 1]];
    }
  }

  /** De-duplicating twice is de-duplicating once. */
  lemma DedupIdempotent<T>(s: seq<T>)
    ensures Dedup(Dedup(s)) == Dedup(s)
  {
    DedupNoDuplicates(s);
    DedupOfDistinct(Dedup(s));
  }

  /** The position of the first occurrence of `x` in `s`. */
  function FirstIndex<T(==)>(s: seq<T>, x: T): (k: nat)
    requires x in s
    ensures k < |s| && s[k] == x && x !in s[..k]
  {
    if s[0] == x then 0
    else
      var k := FirstIndex(s[1..], x);
      assert s[..k + 1] == [s[0]] + s[1..][..k];
      k + 1
  }

  lemma FirstIndexOfPrefix<T>(s: seq<T>, x: T, y: T)
    requires y in s
    ensures FirstIndex(s + [x], y) == FirstIndex(s, y)
  {
    var k := FirstIndex(s, y);
    var m := FirstIndex(s + [x], y);
    assert (s + [x])[k] == y;
  }

  /** Survivors appear in the order of their first occurrence in the input. */
  lemma {:induction false} DedupKeepsFirstOccurrenceOrder<T>(s: seq<T>)
    ensures forall i, j :: 0 <= i < j < |Dedup(s)| ==>
              Dedup(s)[i] in s && Dedup(s)[j] in s &&
              FirstIndex(s, Dedup(s)[i]) < FirstIndex(s, Dedup(s)[j])
  {
    if |s| > 0 {
      var p := s[..|s| - 1];
      var x := s[|s| - 1];
      DedupKeepsFirstOccurrenceOrder(p);
      DedupElements(p);
      DedupElements(s);
      assert s == p + [x];
      var r := Dedup(s);
      var d := Dedup(p);
      assert r == d || (r == d + [x] && x !in p);
      assert r == Dedup(s);
      forall i, j | 0 <= i < j < |r|
        ensures r[i] in s && r[j] in s && FirstIndex(s, r[i]) < FirstIndex(s, r[j])
      {
        assert r[i] == d[i] && d[i] in d;
        FirstIndexOfPrefix(p, x, r[i]);
        if j < |Dedup(p)| {
          FirstIndexOfPrefix(p, x, r[j]);
        } else {
          assert r[j] == x && x !in p;
        }
      }
    } else {
      assert Dedup(s) == [];
    }
  }

  /** One record of the feed: a pair key and its attribute dictionary. */
  type Pair = (string, map<string, Field>)

  /** The decoded feed: its `lastUpdated` stamp and its `pairData` dictionary, listed in the
      order in which Python's `keys()` returns the pair keys. */
  datatype Feed = Feed(lastUpdated: string, pairData: seq<Pair>)

  /** The attributes of the first pair are the columns. */
  function Attributes(feed: Feed): set<string>
    requires |feed.pairData| > 0
  {
    feed.pairData[0].1.Keys
  }

  /** Every pair carries every attribute of the first pair. */
  predicate Complete(feed: Feed)
    requires |feed.pairData| > 0
  {
    forall i, a :: 0 <= i < |feed.pairData| && a in Attributes(feed) ==> a in feed.pairData[i].1
  }

  predicate HasAttribute(pairs: seq<Pair>, a: string) {
    forall i :: 0 <= i < |pairs| ==> a in pairs[i].1
  }

  /** The column of attribute `a`: its value in each pair, in pair order. */
  function Column(pairs: seq<Pair>, a: string): (c: seq<Field>)
    requires HasAttribute(pairs, a)
    ensures |c| == |pairs|
  {
    seq(|pairs|, i requires 0 <= i < |pairs| && HasAttribute(pairs, a) => pairs[i].1[a])
  }

  /** The `pairId` column: every pair key, in pair order. */
  function PairIds(pairs: seq<Pair>): (c: seq<Field>)
    ensures |c| == |pairs|
  {
    seq(|pairs|, i requires 0 <= i < |pairs| => Text(pairs[i].0))
  }

  lemma PairIdsSnoc(pairs: seq<Pair>, p: Pair)
    ensures PairIds(pairs + [p]) == PairIds(pairs) + [Text(p.0)]
  {
  }

  lemma ColumnSnoc(pairs: seq<Pair>, p: Pair, a: string)
    requires HasAttribute(pairs, a) && a in p.1
    ensures HasAttribute(pairs + [p], a)
    ensures Column(pairs + [p], a) == Column(pairs, a) + [p.1[a]]
  {
    var q := pairs + [p];
    assert forall i :: 0 <= i < |q| ==> a in q[i].1 by {
      forall i | 0 <= i < |q|
        ensures a in q[i].1
      {
        if i < |pairs| {
          assert q[i] == pairs[i];
        }
      }
    }
  }

  /** The `pairId` column when the pairs also carry an attribute named `pairId`: the loop appends
      each pair's key and then that pair's own `pairId` value to the same list. */
  function InterleavedIds(pairs: seq<Pair>): (c: seq<Field>)
    requires HasAttribute(pairs, "pairId")
    ensures |c| == 2 * |pairs|
  {
    if |pairs| == 0 then []
    else
      var last := pairs[|pairs| - 1];
      InterleavedIds(pairs[..|pairs| - 1]) + [Text(last.0), last.1["pairId"]]
  }

  lemma InterleavedIdsSnoc(pairs: seq<Pair>, p: Pair)
    requires HasAttribute(pairs, "pairId") && "pairId" in p.1
    ensures HasAttribute(pairs + [p], "pairId")
    ensures InterleavedIds(pairs + [p]) == InterleavedIds(pairs) + [Text(p.0), p.1["pairId"]]
  {
    assert (pairs + [p])[..|pairs|] == pairs;
  }

  /** Entry `2i` of the interleaved column is pair i's key and entry `2i + 1` its `pairId` value. */
  lemma {:induction false} InterleavedIdsAt(pairs: seq<Pair>, i: int)
    requires HasAttribute(pairs, "pairId") && 0 <= i < |pairs|
    ensures InterleavedIds(pairs)[2 * i] == Text(pairs[i].0)
    ensures InterleavedIds(pairs)[2 * i + 1] == pairs[i].1["pairId"]
  {
    var front := pairs[..|pairs| - 1];
    if i < |pairs| - 1 {
      InterleavedIdsAt(front, i);
    }
  }

  /** `[k for k in d]`: the keys of a dictionary, each once, in some order. */
  method KeysOf(d: map<string, Field>) returns (keys: seq<string>)
    ensures NoDuplicates(keys)
    ensures forall a :: a in keys <==> a in d
  {
    keys := [];
    var rest := d.Keys;
    while rest != {}
      invariant NoDuplicates(keys)
      invariant forall a :: a in keys <==> a in d && a !in rest
      invariant rest <= d.Keys
      decreases rest
    {
      var a :| a in rest;
      keys := keys + [a];
      rest := rest - {a};
    }
  }

  /** `{"pairId": []}` plus an empty column for each attribute name. */
  method EmptyColumns(names: seq<string>) returns (output: Table)
    ensures forall a :: a in output <==> a == "pairId" || a in names
    ensures forall a :: a in output ==> output[a] == []
  {
    output := map["pairId" := []];
    for j := 0 to |names|
      invariant forall a :: a in output <==> a == "pairId" || a in names[..j]
      invariant forall a :: a in output ==> output[a] == []
    {
      assert forall a :: a in names[..j + 1] <==> a in names[..j] || a == names[j];
      output := output[names[j] := []];
    }
    assert names[..|names|] == names;
  }

  /** `for a in names: columns[a].append(values[a])`: one more row in each named column, or a
      `KeyError` for the first name that `values` lacks. */
  method AppendAttributes(columns: Table, names: seq<string>, values: map<string, Field>)
    returns (r: Result<Table>)
    requires NoDuplicates(names)
    requires forall a :: a in names ==> a in columns
    ensures r.Success? <==> forall a :: a in names ==> a in values
    ensures r.Failure? ==> r.error.KeyError? && r.error.key in names && r.error.key !in values
    ensures r.Success? ==> r.value.Keys == columns.Keys
    ensures r.Success? ==> forall a :: a in columns ==>
              r.value[a] == columns[a] + (if a in names then [values[a]] else [])
  {
    var out := columns;
    for j := 0 to |names|
      invariant out.Keys == columns.Keys
      invariant forall k :: 0 <= k < j ==> names[k] in values
      invariant forall a :: a in columns ==>
                  out[a] == columns[a] + (if a in names[..j] then [values[a]] else [])
    {
      var a := names[j];
      if a !in values {
        return Failure(KeyError(a));
      }
      assert forall b :: b in names[..j + 1] <==> b in names[..j] || b == a;
      assert a !in names[..j];
      out := out[a := out[a] + [values[a]]];
    }
    assert names[..|names|] == names;
    return Success(out);
  }

  /** `ParseJson`: the time stamp, and the `pd.DataFrame` of one column per attribute of the first
      pair plus a `pairId` column, with row i taken from pair i. An empty `pairData` has no first
      key to take (`keys()[0]` raises); a pair missing one of the first pair's attributes raises a
      `KeyError` for it; attributes that only later pairs carry are dropped. When an attribute is
      itself named `pairId` its column receives two entries per pair, and `pd.DataFrame` refuses
      the columns with a `ValueError` unless that is the only attribute. */
  method ParseJson(feed: Feed) returns (r: Result<(string, Table)>)
    ensures |feed.pairData| == 0 ==> r.Failure? && r.error.IndexError?
    ensures |feed.pairData| > 0 ==>
              (r.Success? <==>
                 Complete(feed) && ("pairId" in Attributes(feed) ==> Attributes(feed) == {"pairId"}))
    ensures r.Failure? && |feed.pairData| > 0 ==> (r.error.KeyError? <==> !Complete(feed))
    ensures r.Failure? && |feed.pairData| > 0 && r.error.KeyError? ==>
              r.error.key in Attributes(feed) &&
              exists i :: 0 <= i < |feed.pairData| && r.error.key !in feed.pairData[i].1
    ensures r.Failure? && |feed.pairData| > 0 && !r.error.KeyError? ==>
              r.error.ValueError? && "pairId" in Attributes(feed) && Attributes(feed) != {"pairId"}
    ensures r.Success? ==> |feed.pairData| > 0 && r.value.0 == feed.lastUpdated
    ensures r.Success? ==> r.value.1.Keys == Attributes(feed) + {"pairId"} && SameLengths(r.value.1)
    ensures r.Success? && "pairId" !in Attributes(feed) ==>
              r.value.1["pairId"] == PairIds(feed.pairData) &&
              forall a :: a in Attributes(feed) ==>
                HasAttribute(feed.pairData, a) && r.value.1[a] == Column(feed.pairData, a)
    ensures r.Success? && "pairId" in Attributes(feed) ==>
              HasAttribute(feed.pairData, "pairId") &&
              r.value.1 == map["pairId" := InterleavedIds(feed.pairData)]
  {
    if |feed.pairData| == 0 {
      return Failure(IndexError("pairData has no first key"));
    }
    var allVars := KeysOf(feed.pairData[0].1);
    var output := EmptyColumns(allVars);
    var columns := FillColumns(feed, allVars, output);
    if columns.Failure? {
      return Failure(columns.error);
    }
    FrameLengths(feed, columns.value);
    if !SameLengths(columns.value) {
      return Failure(ValueError("arrays must all be same length"));
    }
    if "pairId" in Attributes(feed) {
      assert columns.value.Keys == {"pairId"};
      assert columns.value == map["pairId" := InterleavedIds(feed.pairData)];
    }
    return Success((feed.lastUpdated, columns.value));
  }

  /** The filled columns make a frame exactly when no attribute is named `pairId` or it is the
      only one: otherwise the `pairId` column is twice as long as the others. */
  lemma FrameLengths(feed: Feed, cols: Table)
    requires |feed.pairData| > 0
    requires cols.Keys == Attributes(feed) + {"pairId"}
    requires "pairId" !in Attributes(feed) ==> |cols["pairId"]| == |feed.pairData|
    requires "pairId" in Attributes(feed) ==> |cols["pairId"]| == 2 * |feed.pairData|
    requires forall a :: a in Attributes(feed) && a != "pairId" ==> |cols[a]| == |feed.pairData|
    ensures SameLengths(cols) <==> ("pairId" in Attributes(feed) ==> Attributes(feed) == {"pairId"})
  {
    var n := |feed.pairData|;
    if "pairId" in Attributes(feed) && Attributes(feed) != {"pairId"} {
      var b :| b in Attributes(feed) && b != "pairId";
      assert |cols["pairId"]| != |cols[b]|;
    } else {
      forall a, c | a in cols && c in cols
        ensures |cols[a]| == |cols[c]|
      {
        if "pairId" in Attributes(feed) {
          assert a == "pairId" && c == "pairId";
        } else {
          assert |cols[a]| == n && |cols[c]| == n;
        }
      }
    }
  }

  /** The columns after the pairs `ps`, as the loop over the pairs leaves them: every pair so far
      carries every attribute in `attrs`, the `pairId` column holds the keys (interleaved with the
      pairs' own `pairId` values when that is an attribute too) and every other attribute column
      holds its values in pair order. */
  predicate Filled(attrs: set<string>, ps: seq<Pair>, output: Table) {
    && output.Keys == attrs + {"pairId"}
    && (forall k, a :: 0 <= k < |ps| && a in attrs ==> a in ps[k].1)
    && ("pairId" !in attrs ==> output["pairId"] == PairIds(ps))
    && ("pairId" in attrs ==> HasAttribute(ps, "pairId") && output["pairId"] == InterleavedIds(ps))
    && (forall a :: a in attrs && a != "pairId" ==> HasAttribute(ps, a) && output[a] == Column(ps, a))
  }

  /** One turn of the loop: the key appended to `pairId` (giving `keyed`), then each attribute's
      value appended to its column. */
  lemma FilledStep(attrs: set<string>, pairs: seq<Pair>, i: int, names: seq<string>,
                   before: Table, keyed: Table, after: Table)
    requires 0 <= i < |pairs|
    requires Filled(attrs, pairs[..i], before)
    requires forall a :: a in names <==> a in attrs
    requires keyed == before["pairId" := before["pairId"] + [Text(pairs[i].0)]]
    requires forall a :: a in names ==> a in pairs[i].1
    requires after.Keys == keyed.Keys
    requires forall a :: a in keyed ==>
               after[a] == keyed[a] + (if a in names then [pairs[i].1[a]] else [])
    ensures Filled(attrs, pairs[..i + 1], after)
  {
    var ps, p := pairs[..i], pairs[i];
    var q := ps + [p];
    assert pairs[..i + 1] == q;
    forall k, a | 0 <= k < |q| && a in attrs
      ensures a in q[k].1
    {
      if k < |ps| {
        assert q[k] == ps[k];
      }
    }
    PairIdsSnoc(ps, p);
    if "pairId" in attrs {
      InterleavedIdsSnoc(ps, p);
    }
    forall a | a in attrs && a != "pairId"
      ensures HasAttribute(q, a) && after[a] == Column(q, a)
    {
      ColumnSnoc(ps, p, a);
    }
  }

  /** A pair lacking one of the first pair's attributes makes the feed incomplete. */
  lemma MissingAttribute(feed: Feed, i: int, key: string)
    requires 0 <= i < |feed.pairData|
    requires key in Attributes(feed) && key !in feed.pairData[i].1
    ensures !Complete(feed)
    ensures exists j :: 0 <= j < |feed.pairData| && key !in feed.pairData[j].1
  {
  }

  /** The columns after all the pairs: the feed is complete and each column is as stated. */
  lemma FilledAll(feed: Feed, output: Table)
    requires |feed.pairData| > 0
    requires Filled(Attributes(feed), feed.pairData, output)
    ensures Complete(feed)
    ensures output.Keys == Attributes(feed) + {"pairId"}
    ensures "pairId" !in Attributes(feed) ==> output["pairId"] == PairIds(feed.pairData)
    ensures "pairId" in Attributes(feed) ==>
              HasAttribute(feed.pairData, "pairId") && output["pairId"] == InterleavedIds(feed.pairData)
    ensures forall a :: a in Attributes(feed) && a != "pairId" ==>
              HasAttribute(feed.pairData, a) && output[a] == Column(feed.pairData, a)
  {
  }

  /** The loop over the pairs: the key goes to the `pairId` column and each attribute of the
      first pair to its own column, or the first attribute a pair lacks raises `KeyError`. */
  method FillColumns(feed: Feed, allVars: seq<string>, output0: Table) returns (r: Result<Table>)
    requires |feed.pairData| > 0
    requires NoDuplicates(allVars) && forall a :: a in allVars <==> a in Attributes(feed)
    requires forall a :: a in output0 <==> a == "pairId" || a in allVars
    requires forall a :: a in output0 ==> output0[a] == []
    ensures r.Success? <==> Complete(feed)
    ensures r.Failure? ==>
              r.error.KeyError? && r.error.key in Attributes(feed) &&
              exists i :: 0 <= i < |feed.pairData| && r.error.key !in feed.pairData[i].1
    ensures r.Success? ==> r.value.Keys == Attributes(feed) + {"pairId"}
    ensures r.Success? && "pairId" !in Attributes(feed) ==>
              r.value["pairId"] == PairIds(feed.pairData)
    ensures r.Success? && "pairId" in Attributes(feed) ==>
              HasAttribute(feed.pairData, "pairId") &&
              r.value["pairId"] == InterleavedIds(feed.pairData)
    ensures r.Success? ==> forall a :: a in Attributes(feed) && a != "pairId" ==>
              HasAttribute(feed.pairData, a) && r.value[a] == Column(feed.pairData, a)
  {
    var pairs := feed.pairData;
    var attrs := Attributes(feed);
    var output := output0;
    assert Filled(attrs, pairs[..0], output);
    for i := 0 to |pairs|
      invariant Filled(attrs, pairs[..i], output)
    {
      var keyed := output["pairId" := output["pairId"] + [Text(pairs[i].0)]];
      var row := AppendAttributes(keyed, allVars, pairs[i].1);
      if row.Failure? {
        MissingAttribute(feed, i, row.error.key);
        return Failure(row.error);
      }
      FilledStep(attrs, pairs, i, allVars, output, keyed, row.value);
      output := row.value;
    }
    assert pairs[..|pairs|] == pairs;
    FilledAll(feed, output);
    return Success(output);
  }
}

=== FILE: text.dfy ===
/** The few pieces of Python's `str` and of `int()`/`float()` that the data loaders rely on. */
module Text {
  import opened Wrappers

  /** Python's `t in s` for two strings: `t` occurs in `s` as a contiguous substring. */
  predicate Contains(s: string, t: string)
    decreases |s|
  {
    |t| <= |s| && (s[..|t|] == t || Contains(s[1..], t))
  }

  lemma {:induction false} ContainsAt(s: string, t: string, i: nat)
    requires i + |t| <= |s| && s[i..i + |t|] == t
    ensures Contains(s, t)
    decreases i
  {
    if i > 0 {
      assert s[1..][i - 1..i - 1 + |t|] == s[i..i + |t|];
      ContainsAt(s[1..], t, i - 1);
    }
  }

  lemma {:induction false} ContainsWitness(s: string, t: string) returns (i: nat)
    requires Contains(s, t)
    ensures i + |t| <= |s| && s[i..i + |t|] == t
    decreases |s|
  {
    if s[..|t|] == t {
      i := 0;
    } else {
      var j := ContainsWitness(s[1..], t);
      assert s[1..][j..j + |t|] == s[j + 1..j + 1 + |t|];
      i := j + 1;
    }
  }

  /** Containment is kept when text is appended on either side. */
  lemma ContainsExtended(s: string, t: string, before: string, after: string)
    requires Contains(s, t)
    ensures Contains(before + s + after, t)
  {
    var i := ContainsWitness(s, t);
    var whole := before + s + after;
    assert whole[|before| + i..|before| + i + |t|] == s[i..i + |t|];
    ContainsAt(whole, t, |before| + i);
  }

  /** Python's `s.split(c)` with an explicit one-character separator: empty fields are kept. */
  function Split(s: string, c: char): (parts: seq<string>)
    ensures |parts| >= 1
    ensures c !in s ==> parts == [s]
    ensures forall k :: 0 <= k < |parts| ==> c !in parts[k]
    decreases |s|
  {
    if |s| == 0 then [""]
    else
      var rest := Split(s[1..], c);
      if s[0] == c then [""] + rest
      else
        assert s == [s[0]] + s[1..];
        [[s[0]] + rest[0]] + rest[1..]
  }

  /** Splitting on a separator that occurs after a separator-free prefix. */
  lemma {:induction false} SplitCons(a: string, c: char, b: string)
    requires c !in a
    ensures Split(a + [c] + b, c) == [a] + Split(b, c)
    decreases |a|
  {
    if |a| == 0 {
      assert a + [c] + b == [c] + b;
      assert ([c] + b)[1..] == b;
    } else {
      assert (a + [c] + b)[1..] == a[1..] + [c] + b;
      SplitCons(a[1..], c, b);
      assert [a[0]] + a[1..] == a;
    }
  }

  /** Splitting text joined by the separator gives the pieces back. */
  lemma SplitThree(a: string, b: string, d: string, c: char)
    requires c !in a && c !in b && c !in d
    ensures Split(a + [c] + b + [c] + d, c) == [a, b, d]
  {
    assert a + [c] + b + [c] + d == a + [c] + (b + [c] + d);
    SplitCons(a, c, b + [c] + d);
    SplitCons(b, c, d);
  }

  lemma SplitTwo(a: string, b: string, c: char)
    requires c !in a && c !in b
    ensures Split(a + [c] + b, c) == [a, b]
  {
    SplitCons(a, c, b);
  }

  /** The characters Python 2's `str.strip()` removes. */
  predicate IsSpace(ch: char) {
    ch == ' ' || ch == '\t' || ch == '\n' || ch == '\r' || ch == '\U{B}' || ch == '\U{C}'
  }

  function StripLeft(s: string): (r: string)
    ensures |r| <= |s|
    ensures |r| > 0 ==> !IsSpace(r[0])
    decreases |s|
  {
    if |s| > 0 && IsSpace(s[0]) then StripLeft(s[1..]) else s
  }

  function StripRight(s: string): (r: string)
    ensures |r| <= |s| && (|r| > 0 ==> r[0] == s[0])
    ensures |r| > 0 ==> !IsSpace(r[|r| - 1])
    decreases |s|
  {
    if |s| > 0 && IsSpace(s[|s| - 1]) then StripRight(s[..|s| - 1]) else s
  }

  /** Python's `s.strip()`: no whitespace is left at either end. */
  function Strip(s: string): (r: string)
    ensures |r| <= |s|
    ensures |r| > 0 ==> !IsSpace(r[0]) && !IsSpace(r[|r| - 1])
  {
    StripRight(StripLeft(s))
  }

  predicate IsDigit(ch: char) {
    '0' <= ch <= '9'
  }

  predicate AllDigits(s: string) {
    forall k :: 0 <= k < |s| ==> IsDigit(s[k])
  }

  /** The value of a string of decimal digits, most significant first. */
  function DigitsValue(s: string): (n: nat)
    requires AllDigits(s)
    decreases |s|
  {
    if |s| == 0 then 0
    else DigitsValue(s[..|s| - 1]) * 10 + (s[|s| - 1] as int - '0' as int)
  }

  /** `10^k` as a positive integer. */
  function Pow10(k: nat): (p: nat)
    ensures p >= 1
  {
    if k == 0 then 1 else 10 * Pow10(k - 1)
  }

  /** A number of `|s|` digits is below `10^|s|`. */
  lemma {:induction false} DigitsValueBound(s: string)
    requires AllDigits(s)
    ensures DigitsValue(s) < Pow10(|s|)
    decreases |s|
  {
    if |s| > 0 {
      DigitsValueBound(s[..|s| - 1]);
    }
  }

  /** An optional sign followed by at least one digit, as `int()` accepts after stripping. */
  function ParseSignedInt(s: string): (r: Option<int>)
    ensures r.Some? ==> |s| >= 1
  {
    if |s| == 0 then None
    else if s[0] == '-' || s[0] == '+' then
      var digits := s[1..];
      if |digits| >= 1 && AllDigits(digits) then
        Some(if s[0] == '-' then 0 - DigitsValue(digits) as int else DigitsValue(digits) as int)
      else None
    else if AllDigits(s) then Some(DigitsValue(s))
    else None
  }

  /** Python 2's `int(s)` on a string: surrounding whitespace, an optional sign, decimal digits.
      `None` is the `ValueError` it raises otherwise. */
  function ParseInt(s: string): (r: Option<int>)
  {
    ParseSignedInt(Strip(s))
  }

  /** An unsigned decimal literal `digits[.digits]` or `.digits`, with at least one digit. */
  function ParseUnsignedDecimal(s: string): (r: Option<real>)
    ensures r.Some? ==> r.value >= 0.0
  {
    if '.' in s then
      var parts := Split(s, '.');
      if |parts| == 2 && |parts[0]| + |parts[1]| >= 1 && AllDigits(parts[0]) && AllDigits(parts[1]) then
        DigitsValueBound(parts[1]);
        Some(DigitsValue(parts[0]) as real + DigitsValue(parts[1]) as real / Pow10(|parts[1]|) as real)
      else None
    else if |s| >= 1 && AllDigits(s) then Some(DigitsValue(s) as real)
    else None
  }

  function Negated(x: Option<real>): Option<real> {
    match x
    case Some(v) => Some(-v)
    case None => None
  }

  /** Python's `float(s)` restricted to plain decimal notation: surrounding whitespace,
      an optional sign, digits with an optional decimal point. `None` is the `ValueError`. */
  function ParseDecimal(s: string): (r: Option<real>)
  {
    var t := Strip(s);
    if |t| == 0 then None
    else if t[0] == '-' then Negated(ParseUnsignedDecimal(t[1..]))
    else if t[0] == '+' then ParseUnsignedDecimal(t[1..])
    else ParseUnsignedDecimal(t)
  }

  /** A plain run of digits has nothing to strip. */
  lemma StripDigits(s: string)
    requires |s| >= 1 && AllDigits(s)
    ensures Strip(s) == s
  {
    assert !IsSpace(s[0]);
    assert StripLeft(s) == s;
    assert !IsSpace(s[|s| - 1]);
  }

  /** `int()` of a plain run of digits is its decimal value. */
  lemma ParseIntDigits(s: string)
    requires |s| >= 1 && AllDigits(s)
    ensures ParseInt(s) == Some(DigitsValue(s) as int)
  {
    StripDigits(s);
    UnsignedDigits(s);
  }

  lemma UnsignedDigits(s: string)
    requires |s| >= 1 && AllDigits(s)
    ensures ParseSignedInt(s) == Some(DigitsValue(s) as int)
    ensures '.' !in s
    ensures ParseUnsignedDecimal(s) == Some(DigitsValue(s) as real)
  {
    assert IsDigit(s[0]);
  }

  /** Text with nothing to strip and no sign is read as an unsigned decimal. */
  lemma ParseDecimalUnsigned(s: string)
    requires |s| >= 1 && Strip(s) == s && s[0] != '-' && s[0] != '+'
    ensures ParseDecimal(s) == ParseUnsignedDecimal(s)
  {
  }

  // ---------------------------------------------------------------------------------------
  // `str()` of an integer and what `int()` and `float()` make of it

  function DigitChar(d: int): char
    requires 0 <= d < 10
  {
    ('0' as int + d) as char
  }

  /** `str(n)` of a non-negative integer. */
  function NatToString(n: nat): (s: string)
    ensures |s| >= 1 && (n < 10 <==> |s| == 1)
    ensures AllDigits(s)
  {
    if n < 10 then [DigitChar(n)] else NatToString(n / 10) + [DigitChar(n % 10)]
  }

  /** `str(n)` of an integer. */
  function IntToString(n: int): (s: string)
    ensures |s| >= 1
  {
    if n < 0 then "-" + NatToString(-n) else NatToString(n)
  }

  /** Different numbers are written differently. */
  lemma {:induction false} NatToStringInjective(a: nat, b: nat)
    requires NatToString(a) == NatToString(b)
    ensures a == b
  {
    var s := NatToString(a);
    if a >= 10 {
      assert b >= 10;
      assert s[..|s| - 1] == NatToString(a / 10) && s[..|s| - 1] == NatToString(b / 10);
      NatToStringInjective(a / 10, b / 10);
      assert DigitChar(a % 10) == s[|s| - 1] == DigitChar(b % 10);
    } else {
      assert b < 10;
      assert DigitChar(a) == s[0] == DigitChar(b);
    }
  }

  lemma IntToStringInjective(a: int, b: int)
    requires IntToString(a) == IntToString(b)
    ensures a == b
  {
    var s := IntToString(a);
    if a < 0 {
      assert s[0] == '-';
      assert b < 0;
      assert s[1..] == NatToString(-a) && s[1..] == NatToString(-b);
      NatToStringInjective(-a, -b);
    } else {
      assert s[0] == NatToString(a)[0] && '0' <= s[0] <= '9';
      assert b >= 0;
      NatToStringInjective(a, b);
    }
  }

  /** `str(n)` is a run of digits whose decimal value is `n`. */
  lemma {:induction false} NatToStringValue(n: nat)
    ensures AllDigits(NatToString(n)) && DigitsValue(NatToString(n)) == n
  {
    var s := NatToString(n);
    if n >= 10 {
      NatToStringValue(n / 10);
      assert s[..|s| - 1] == NatToString(n / 10);
    }
  }

  /** `int(str(n)) == n` for every integer. */
  lemma ParseIntOfString(n: int)
    ensures ParseInt(IntToString(n)) == Some(n)
  {
    if n < 0 {
      NatToStringValue(-n);
      NegativeDigits(NatToString(-n), -n);
    } else {
      NatToStringValue(n);
      ParseIntDigits(NatToString(n));
    }
  }

  /** `int("-" + d)` of a run of digits `d` is minus its value. */
  lemma NegativeDigits(d: string, m: nat)
    requires |d| >= 1 && AllDigits(d) && DigitsValue(d) == m
    ensures ParseInt("-" + d) == Some(-(m as int))
  {
    var s := "-" + d;
    assert s[1..] == d;
    assert s[|s| - 1] == d[|d| - 1] && IsDigit(d[|d| - 1]);
    StripNothing(s);
  }

  // ---------------------------------------------------------------------------------------
  // Whitespace around a literal

  predicate AllSpace(s: string) {
    forall k :: 0 <= k < |s| ==> IsSpace(s[k])
  }

  /** Text that starts and ends with a non-space character has nothing to strip. */
  lemma StripNothing(s: string)
    requires |s| >= 1 && !IsSpace(s[0]) && !IsSpace(s[|s| - 1])
    ensures Strip(s) == s
  {
    assert StripLeft(s) == s;
  }

  lemma {:induction false} StripLeftSpaces(a: string, t: string)
    requires AllSpace(a)
    ensures StripLeft(a + t) == StripLeft(t)
    decreases |a|
  {
    if |a| > 0 {
      assert (a + t)[1..] == a[1..] + t;
      StripLeftSpaces(a[1..], t);
    } else {
      assert a + t == t;
    }
  }

  lemma {:induction false} StripRightSpaces(t: string, b: string)
    requires AllSpace(b)
    ensures StripRight(t + b) == StripRight(t)
    decreases |b|
  {
    if |b| > 0 {
      assert (t + b)[..|t + b| - 1] == t + b[..|b| - 1];
      StripRightSpaces(t, b[..|b| - 1]);
    } else {
      assert t + b == t;
    }
  }

  lemma {:induction false} StripLeftAppend(s: string, b: string)
    requires |StripLeft(s)| > 0
    ensures StripLeft(s + b) == StripLeft(s) + b
    decreases |s|
  {
    if IsSpace(s[0]) {
      assert (s + b)[1..] == s[1..] + b;
      StripLeftAppend(s[1..], b);
    }
  }

  lemma {:induction false} StripLeftEmpty(s: string)
    requires StripLeft(s) == ""
    ensures AllSpace(s)
    decreases |s|
  {
    if |s| > 0 {
      StripLeftEmpty(s[1..]);
      assert forall k :: 1 <= k < |s| ==> s[k] == s[1..][k - 1];
    }
  }

  /** Whitespace added on either side is stripped away again: `(a + s + b).strip() == s.strip()`. */
  lemma StripPadded(a: string, s: string, b: string)
    requires AllSpace(a) && AllSpace(b)
    ensures Strip(a + s + b) == Strip(s)
  {
    assert a + s + b == a + (s + b);
    StripLeftSpaces(a, s + b);
    if |StripLeft(s)| > 0 {
      StripLeftAppend(s, b);
      StripRightSpaces(StripLeft(s), b);
    } else {
      StripLeftEmpty(s);
      assert AllSpace(s + b);
      assert s + b + "" == s + b;
      StripLeftSpaces(s + b, "");
    }
  }

  // ---------------------------------------------------------------------------------------
  // The literals `int()` and `float()` accept

  /** An optional sign and at least one decimal digit. */
  predicate IntLiteral(t: string) {
    if |t| >= 1 && (t[0] == '-' || t[0] == '+') then |t| >= 2 && AllDigits(t[1..])
    else |t| >= 1 && AllDigits(t)
  }

  /** The value of the decimal literal `a.b`. */
  function PointValue(a: string, b: string): real
    requires AllDigits(a) && AllDigits(b)
  {
    DigitsValue(a) as real + DigitsValue(b) as real / Pow10(|b|) as real
  }

  lemma NoPointInDigits(a: string)
    requires AllDigits(a)
    ensures '.' !in a
  {
    forall k | 0 <= k < |a| ensures a[k] != '.' {
      assert IsDigit(a[k]);
    }
  }

  lemma UnsignedPoint(a: string, b: string)
    requires AllDigits(a) && AllDigits(b) && |a| + |b| >= 1
    ensures ParseUnsignedDecimal(a + "." + b) == Some(PointValue(a, b))
  {
    NoPointInDigits(a);
    NoPointInDigits(b);
    SplitTwo(a, b, '.');
    assert (a + "." + b)[|a|] == '.';
  }

  lemma PointUnstripped(a: string, b: string)
    requires AllDigits(a) && AllDigits(b) && |a| + |b| >= 1
    ensures Strip(a + "." + b) == a + "." + b && Strip("-" + a + "." + b) == "-" + a + "." + b
    ensures (a + "." + b)[0] != '-' && (a + "." + b)[0] != '+'
  {
    var t := a + "." + b;
    if |a| > 0 {
      assert t[0] == a[0] && IsDigit(a[0]);
    } else {
      assert t[0] == '.';
    }
    if |b| > 0 {
      assert t[|t| - 1] == b[|b| - 1] && IsDigit(b[|b| - 1]);
    } else {
      assert t[|t| - 1] == '.';
    }
    StripNothing(t);
    StripNothing("-" + a + "." + b);
  }

  /** `float()` of `a.b` for digit strings `a` and `b` (one of them non-empty) is
      `a + b / 10^|b|`, and of `-a.b` its negation. */
  lemma ParseDecimalOfPoint(a: string, b: string)
    requires AllDigits(a) && AllDigits(b) && |a| + |b| >= 1
    ensures ParseDecimal(a + "." + b) == Some(PointValue(a, b))
    ensures ParseDecimal("-" + a + "." + b) == Some(-PointValue(a, b))
  {
    UnsignedPoint(a, b);
    PointUnstripped(a, b);
    var u := "-" + a + "." + b;
    assert u[0] == '-' && u[1..] == a + "." + b;
  }
}

=== FILE: wrappers.dfy ===
/** Option and Result, used where the Python code produces NaN or raises. */
module Wrappers {

  /** `None` stands for a missing value (Python's NaN or an absent key). */
  datatype Option<+T> = None | Some(value: T)

  /** Why a Python call would raise instead of returning. */
  datatype Error =
    | ValueError(what: string)   // a field that int()/float() or unpacking refuses
    | KeyError(key: string)      // a dictionary lookup of an absent key
    | IndexError(what: string)   // indexing an empty or too-short list
    | TypeError(what: string)    // adding a string to a number

  datatype Result<+T> = Success(value: T) | Failure(error: Error) {
    predicate IsFailure() {
      Failure?
    }

    function PropagateFailure<U>(): Result<U>
      requires Failure?
    {
      Failure(error)
    }

    function Extract(): T
      requires Success?
    {
      value
    }
  }

  /** `for x in xs: out.append(convert(x))`: every converted value in order, or the exception of
      the first element whose conversion raises. */
  method ConvertEach<T, U>(xs: seq<T>, convert: T -> Result<U>) returns (r: Result<seq<U>>)
    ensures r.Success? <==> forall i :: 0 <= i < |xs| ==> convert(xs[i]).Success?
    ensures r.Success? ==> |r.value| == |xs|
    ensures r.Success? ==> forall i :: 0 <= i < |xs| ==> r.value[i] == convert(xs[i]).value
    ensures r.Failure? ==>
              exists i :: (0 <= i < |xs| && convert(xs[i]) == Failure(r.error) &&
                           forall j :: 0 <= j < i ==> convert(xs[j]).Success?)
  {
    var out: seq<U> := [];
    for i := 0 to |xs|
      invariant |out| == i
      invariant forall j :: 0 <= j < i ==> convert(xs[j]).Success? && out[j] == convert(xs[j]).value
    {
      var y := convert(xs[i]);
      if y.Failure? {
        return Failure(y.error);
      }
      out := out + [y.value];
    }
    return Success(out);
  }

  /** The values of `rs` in order, or the error of the first failure. */
  function Collect<U>(rs: seq<Result<U>>): (r: Result<seq<U>>)
    ensures r.Success? ==> |r.value| == |rs|
    decreases |rs|
  {
    if |rs| == 0 then Success([])
    else
      var prev :- Collect(rs[..|rs| - 1]);
      var x :- rs[|rs| - 1];
      Success(prev + [x])
  }

  /** `Collect` succeeds exactly when every element does, and then lists their values. */
  lemma {:induction false} CollectSuccess<U>(rs: seq<Result<U>>)
    ensures Collect(rs).Success? <==> forall j :: 0 <= j < |rs| ==> rs[j].Success?
    ensures Collect(rs).Success? ==> forall j :: 0 <= j < |rs| ==> Collect(rs).value[j] == rs[j].value
    decreases |rs|
  {
    if |rs| > 0 {
      var p := rs[..|rs| - 1];
      CollectSuccess(p);
      assert forall j :: 0 <= j < |p| ==> p[j] == rs[j];
    }
  }

  /** A failing `Collect` fails with the error of the first failing element. */
  lemma {:induction false} CollectFirstFailure<U>(rs: seq<Result<U>>)
    requires Collect(rs).Failure?
    ensures exists j :: 0 <= j < |rs| && rs[j] == Failure(Collect(rs).error) &&
                        forall i :: 0 <= i < j ==> rs[i].Success?
    decreases |rs|
  {
    var p := rs[..|rs| - 1];
    assert forall j :: 0 <= j < |p| ==> p[j] == rs[j];
    if Collect(p).Failure? {
      CollectFirstFailure(p);
      var j :| 0 <= j < |p| && p[j] == Failure(Collect(p).error) && forall i :: 0 <= i < j ==> p[i].Success?;
      assert rs[j] == Failure(Collect(rs).error);
    } else {
      CollectSuccess(p);
      assert rs[|rs| - 1] == Failure(Collect(rs).error);
    }
  }

  /** One more element: its value is appended, or its error (or an earlier one) is the result. */
  lemma CollectSnoc<U>(rs: seq<Result<U>>, x: Result<U>)
    ensures Collect(rs).Failure? ==> Collect(rs + [x]) == Collect(rs)
    ensures Collect(rs).Success? && x.Failure? ==> Collect(rs + [x]) == Failure(x.error)
    ensures Collect(rs).Success? && x.Success? ==> Collect(rs + [x]) == Success(Collect(rs).value + [x.value])
  {
    assert (rs + [x])[..|rs|] == rs;
  }

  /** Once a prefix fails, the whole sequence fails the same way. */
  lemma {:induction false} CollectFailurePersists<U>(rs: seq<Result<U>>, k: nat)
    requires k <= |rs| && Collect(rs[..k]).Failure?
    ensures Collect(rs) == Collect(rs[..k])
    decreases |rs|
  {
    if k < |rs| {
      var p := rs[..|rs| - 1];
      assert p[..k] == rs[..k];
      CollectFailurePersists(p, k);
      assert rs == p + [rs[|rs| - 1]];
      CollectSnoc(p, rs[|rs| - 1]);
    } else {
      assert rs[..k] == rs;
    }
  }
}
